=== FILE: README.md ===
# Frasy and Brigerad core, modelled in Dafny

Frasy is a test-bench application: it talks to devices under test over
serial links and CAN, runs test scripts against them and shows the results.
Brigerad is the engine it is built on, which handles rendering, logging and
utilities. This project models the data-handling core of both in Dafny and
proves properties of the model. Every module is a set of pure functions over
immutable values; the C++ objects' state becomes a datatype that each
operation takes and returns.

| module | file | models |
|---|---|---|
| `Bytes` | `bytes.dfy` | fixed-width integers, two's complement, big- and little-endian layouts |
| `Hex`, `CharConv` | `hex.dfy`, `char_conv.dfy` | the hex-ASCII conversions `AsciiToT`, `TToAscii`, `SizeInChars` |
| `DecimalText` | `decimal.dfy` | decimal digits, as `std::to_string` writes them |
| `SlcanCommands`, `SlcanPacket` | `slcan_commands.dfy`, `slcan_packet.dfy` | the SLCAN (serial-line CAN) command letters, and the parsing, writing and construction of SLCAN packets |
| `Serialization` | `serializer.dfy` | the generic big-endian `Serialize` and `Deserialize` templates |
| `SerialPacket` | `serial_packet.dfy` | the framed hex serial packets: header, packet ids, encoding and decoding |
| `OdeCodec` | `ode_codec.dfy` | encoding and decoding of CANopen object-dictionary entries for the scripting layer |
| `CanDriver` | `can_driver.dfy` | the CANopen driver's receive filters, transmit buffers, retry and polling |
| `Emergency` | `emergency.dfy` | a CANopen node's emergency history |
| `TypeManager` | `type_manager.dfy` | the registry of struct and enum types of the command layer |
| `BufferLayout` | `buffer_layout.dfy` | vertex-buffer element sizes, offsets and stride |
| `RendererBatch` | `renderer_batch.dfy` | the 2D renderer's quad batching and texture slots |
| `SpinInput` | `spin_input.dfy` | the wrap-around arithmetic of the spin widget's buttons |
| `StringUtils` | `string_utils.dfy` | `ReplaceAll` and the path helpers |
| `LogSink` | `log_sink.dfy` | the sanitizing rotating log sink: escaping, file names, rotation, size tracking |
| `Whitelist` | `whitelist.dfy` | the USB device whitelist: matching, and reading entries from device names |
| `UutStates` | `uut_state.dfy` | the orchestrator's per-UUT (unit under test) states |
| `Wrappers` | `wrappers.dfy` | `Option` and `Result` |

The model follows the C++ sources, except for what "## Left out" lists. Where the code does something its authors evidently did not
intend, the model has the code as written and a corrected version; the
rest of the model uses the corrected version (see "## Findings").

## Model

| member | source | states |
|---|---|---|
| Hex.NibbleValue | Frasy/src/utils/misc/char_conv.h:40-44 | `0-9`, `a-f` and `A-F` stand for their nibble, every other character for 0 |
| Hex.HexDigit | Frasy/src/utils/misc/char_conv.h:61-64 | a nibble is written as an upper-case digit that reads back as the nibble |
| Hex.HexDigitOfNibble | Frasy/src/utils/misc/char_conv.h:40-64 | reading a digit and writing it back gives the digit, in upper case |
| Hex.ToHexRoundTrip | Frasy/src/utils/misc/char_conv.h:33-69 | every value below 16^k written as k digits reads back as itself |
| Hex.FromHexRoundTrip | Frasy/src/utils/misc/char_conv.h:33-69 | upper-case digits read and written back at the same width are unchanged |
| CharConv.SizeInChars | Frasy/src/utils/misc/char_conv.h:71-76 | the character count of a type holds exactly its values: 16 to that count equals 256 to its byte count |
| CharConv.AsciiToT | Frasy/src/utils/misc/char_conv.h:33-52 | reads exactly `2 * size` characters, most significant first, into a value of the type's range |
| CharConv.TToAscii | Frasy/src/utils/misc/char_conv.h:54-69 | writes exactly `2 * size` upper-case digits, least significant last, and every value of the type reads back |
| CharConv.TToAsciiRoundTrip | Frasy/src/utils/misc/char_conv.h:33-69 | reading what was written restores every value of the width |
| CharConv.AsciiToTThenTToAscii | Frasy/src/utils/misc/char_conv.h:33-69 | writing what was read gives digits of the same values, and the same digits when they were upper case |
| CharConv.NonHexReadsZero | Frasy/src/utils/misc/char_conv.cpp:59-77 | characters that are not hex digits read as 0 |
| CharConv.RepeatedDigit | Frasy/src/utils/misc/char_conv.cpp:52-77 | `2 * size` copies of one digit, in either case, read as the value whose every nibble is that digit |
| Hex.ToHex | Frasy/src/utils/misc/char_conv.h:54-69 | a value is written as exactly `k` upper-case digits |
| Hex.FromHexNibbleWise | Frasy/src/utils/misc/char_conv.h:38-49 | the value read depends only on each character's nibble, so upper- and lower-case digits read alike |
| Hex.ByteAsTwoDigits | Frasy/src/utils/misc/char_conv.h:54-69 | a byte is written as its high nibble's digit then its low nibble's, and reads back as the byte |
| SlcanCommands.CommandFromChar | Frasy/src/utils/communication/slcan/enums/commands.h:59-77 | a byte names a command exactly when it is one of the eleven command letters, and then it names the command stored as that letter; every other byte gives `Invalid` |
| SlcanCommands.CommandCharRoundTrip | Frasy/src/utils/communication/slcan/enums/commands.h:25-38 | every command, `Invalid` included, is read back from the byte it is stored as |
| SlcanCommands.CommandIsTransmit | Frasy/src/utils/communication/slcan/enums/commands.h:79-96 | a transmit command is one written as `t`, `T`, `r` or `R` and read back from its letter; no other command is written with one of those letters |
| SlcanCommands.TransmitLetters | Frasy/src/utils/communication/slcan/enums/commands.h:79-96 | a byte names a transmit command exactly when it is `t`, `T`, `r` or `R` |
| SlcanCommands.CommandToStr | Frasy/src/utils/communication/slcan/enums/commands.h:40-57 | every command has a non-empty name, and the name is "Invalid" exactly for `Invalid` |
| SlcanCommands.CommandToStrInjective | Frasy/src/utils/communication/slcan/enums/commands.h:40-57 | no two commands share a name |
| SlcanPacket.CommandFromHeader | Frasy/src/utils/communication/slcan/packet.cpp:28-35 | the command chosen for a frame is a transmit command whose extended and remote flags are the frame's |
| SlcanPacket.CommandFromHeaderOnto | Frasy/src/utils/communication/slcan/packet.cpp:28-35 | every transmit command is the one chosen for the frame kind it names |
| SlcanPacket.Body | Frasy/src/utils/communication/slcan/packet.cpp:49-51 | the text after the command letter loses a final `\r` and nothing else |
| SlcanPacket.ParseFrame | Frasy/src/utils/communication/slcan/packet.cpp:82-137 | a frame is accepted exactly when the identifier digits are there and, for a data frame, the DLC digit is there, at most 8, and followed by two digits per byte; the identifier, flags and bytes are read most significant digit first |
| SlcanPacket.ReadData | Frasy/src/utils/communication/slcan/packet.cpp:133-136 | byte `i` is made of digits `2i` and `2i+1`, high nibble first |
| SlcanPacket.Parse | Frasy/src/utils/communication/slcan/packet.cpp:38-139 | a line is rejected exactly when its letter is unknown, a character after it is not hex, a setting command has no character, or a transmit command's frame does not read; every accepted line keeps its command, a transmit command carries the frame `ParseFrame` reads, a setting command carries the conversion of the character after the letter, and any other command carries nothing |
| SlcanPacket.SettingCharAsWritten | Frasy/src/utils/communication/slcan/packet.cpp:75-81 | the setting conversion is handed the character two places after the command letter, which a three-character line does not have before its terminator |
| SlcanPacket.SettingCharMisread | Frasy/src/utils/communication/slcan/packet.cpp:75-81 | for the line `S4\r` that `toSerial` writes, the as-written parser converts `\r`, while the corrected parser reads back 4 |
| SlcanPacket.AddToBuff | Frasy/src/utils/communication/slcan/packet.cpp:220-229 | a nibble becomes its upper-case digit; a larger value is written unchanged |
| SlcanPacket.DataDigits | Frasy/src/utils/communication/slcan/packet.cpp:239-246 | each data byte becomes two digits, high nibble first |
| SlcanPacket.SerialText | Frasy/src/utils/communication/slcan/packet.cpp:214-274 | the text starts with the command letter and ends with `\r` |
| SlcanPacket.SizeOfSerialPacketAsWritten | Frasy/src/utils/communication/slcan/packet.cpp:305-323 | the size is 0 for `Invalid` and the written length for every other command |
| SlcanPacket.SizeOfSerialPacket | Frasy/src/utils/communication/slcan/packet.cpp:305-323 | the size is at least 2 and equals the length of the text `toSerial` writes for every command |
| SlcanPacket.ToSerialAsWritten | Frasy/src/utils/communication/slcan/packet.cpp:207-212 | the write succeeds exactly when the buffer holds the as-written size, and then yields the packet's text |
| SlcanPacket.ToSerial | Frasy/src/utils/communication/slcan/packet.cpp:207-275 | the write fails exactly when the buffer is shorter than the size; what it writes is that long, starts with the command letter and ends with `\r` |
| SlcanPacket.InvalidPacketOverflows | Frasy/src/utils/communication/slcan/packet.cpp:207-211 | with a buffer of 0 characters the as-written check accepts an `Invalid` packet and writes 2 characters, where the corrected check refuses |
| SlcanPacket.ToSerialAgreesOnValidCommands | Frasy/src/utils/communication/slcan/packet.cpp:305-323 | both size checks agree for every command but `Invalid` |
| SlcanPacket.ToCanPacket | Frasy/src/utils/communication/slcan/packet.cpp:277-289 | a packet has a CAN frame exactly when its command is a transmit command, and then it is the stored frame |
| SlcanPacket.FromCanPacket | Frasy/src/utils/communication/slcan/packet.cpp:173-188 | the packet built from a frame is a transmit packet that gives back that frame |
| SlcanPacket.DataPacketAsWritten | Frasy/src/utils/communication/slcan/packet.cpp:156-171 | the data-frame constructor records a data frame under a remote-frame command |
| SlcanPacket.DataPacket | Frasy/src/utils/communication/slcan/packet.cpp:156-171 | the corrected constructor uses a data-frame command and keeps the data; with an identifier that fits, the packet is one `toSerial` writes in full |
| SlcanPacket.DataPacketAsWrittenDropsData | Frasy/src/utils/communication/slcan/packet.cpp:156-171 | for identifier 0x123 and data [0xAB], the as-written packet is written as `r123\r`, losing its data, while the corrected one is written as `t1231AB\r` |
| SlcanPacket.DataDigitsRoundTrip | Frasy/src/utils/communication/slcan/packet.cpp:239-246 | data digits are hex digits and each pair reads back as its byte |
| SlcanPacket.ParseSerialText | Frasy/src/utils/communication/slcan/packet.cpp:38-275 | parsing the text `toSerial` writes for a well-formed packet gives back the packet, command, setting and frame alike |
| SlcanPacket.FrameRoundTrip | Frasy/src/utils/communication/slcan/packet.cpp:173-289 | a data frame, or a remote frame without a data length, put in a packet, written and parsed back, comes out as the same frame |
| SlcanPacket.RemoteFrameLosesLength | Frasy/src/utils/communication/slcan/packet.cpp:260-261 | a remote frame sent with a data length comes back with none, because its text holds the identifier alone |
| Bytes.BigEndianRoundTrip | Frasy/src/utils/misc/deserializer.h:58-70 | an integer laid out most significant byte first, as the serializer writes it, is read back unchanged by the shift-and-or loop of the integral deserializer |
| Bytes.FromBigEndianRoundTrip | Frasy/src/utils/misc/serializer.h:43-48 | every byte string is the big-endian layout of the value it reads as, so the integral layout is onto |
| Bytes.LittleEndianRoundTrip | Frasy/src/utils/lua/ode_deserializer.cpp:36-44 | the low-to-high byte copy of the dictionary decoder gives back any value the little-endian encoder wrote |
| Bytes.FromLittleEndianRoundTrip | Frasy/src/utils/lua/ode_serializer.cpp:69-81 | every byte string is the little-endian layout of the value it reads as |
| Bytes.LittleEndianIsReversedBigEndian | Frasy/src/utils/misc/serializer.h:45-46 | on a little-endian host the generic serializer's reversal of the object bytes gives exactly the big-endian layout |
| Bytes.FromBigEndianReversed | Frasy/src/utils/misc/deserializer.h:58-70 | reading a byte string backwards least significant first is reading it forwards most significant first |
| Bytes.LittleEndianTruncates | Frasy/src/utils/lua/ode_serializer.cpp:55-67 | copying the first `n` bytes of a wider integer keeps only its value modulo 256^n |
| Bytes.SignExtend | Frasy/src/utils/lua/ode_deserializer.cpp:31-32 | reading an `n`-byte pattern as signed gives a value in the `n`-byte signed range whose two's-complement pattern is the input |
| Bytes.SignExtendInverts | Frasy/src/utils/lua/ode_deserializer.cpp:24-34 | any value in the signed range of its width survives the trip to its bit pattern and back |
| Bytes.TwosComplement | Frasy/src/utils/lua/ode_serializer.cpp:55-67 | the pattern of a signed value in `n` bytes is below 256^n and equals the value when that is already in range |
| Serialization.Serialize | Frasy/src/utils/misc/serializer.h:40-72 | a scalar takes exactly its width and reads back big-endian as its bits; a container starts with two bytes that read back as its element count modulo 2^16 |
| Serialization.SerializeLength | Frasy/src/utils/misc/serializer.h:40-72 | the bytes written for a value are exactly as many as its structural size: scalar widths, plus two count bytes per container |
| Serialization.ScalarLayout | Frasy/src/utils/misc/serializer.h:43-48 | a scalar takes exactly its width and reads back as its bits |
| Serialization.ScalarContainerSize | Frasy/src/utils/misc/serializer.h:49-60 | a container of `n` scalars of width `w` takes `2 + n*w` bytes and its first two bytes carry its 16-bit count |
| Serialization.Deserialize | Frasy/src/utils/misc/deserializer.h:58-99 | an integral read fails its assertion exactly when fewer bytes than its width are left, and otherwise yields the big-endian value of the first bytes; a `bool` read fails exactly on an empty span and otherwise yields 0 or 1, 0 exactly for a zero byte; a `float` or `double` reaches the aggregate overload and never returns; no shape that asks for a floating-point value anywhere is ever read; any successful read consumed no more than was there |
| Serialization.DeserializeRepeated | Frasy/src/utils/misc/deserializer.h:72-84 | an array read returns exactly the requested number of elements and needed `count * sizeof` bytes |
| Serialization.DeserializeFields | Frasy/src/utils/misc/deserializer.h:86-99 | an aggregate read returns one value per field and needed the sum of the field sizes |
| Serialization.BooleanAsIntegral | Frasy/src/utils/misc/deserializer.h:58-72 | a `bool` reads like a one-byte integer exactly when its byte is 0 or 1, and any larger byte reads as 1 |
| Serialization.BooleanRoundTrip | Frasy/src/utils/misc/serializer.h:43-48 | a `bool` written as its single byte is read back as itself, whatever follows it |
| Serialization.FloatingNeverReturns | Frasy/src/utils/misc/deserializer.h:86-99 | a `float` or `double` asked for by name, alone or as a field after an integral one, makes the read recurse without end |
| Serialization.ShapeSize | Frasy/src/utils/misc/deserializer.h:86-99 | the `sizeof` stride the deserializer advances by equals the bytes the serializer wrote for a readable value |
| Serialization.DeserializeSerialize | Frasy/src/utils/misc/serializer.h:40-72 | every readable scalar or aggregate written by the serializer, followed by any bytes, is read back as the same value |
| Serialization.ArrayCountReadAsFirstElement | Frasy/src/utils/misc/deserializer.h:72-84 | an array written with its 16-bit count prefix does not read back as itself: the count comes back as the first element |
| DecimalText.Decimal | Brigerad/src/Brigerad/Utils/logs/log_rotating_sanitized_file_sink.h:68 | an index is written as at least one decimal digit with no leading zero |
| DecimalText.DecimalRoundTrip | Brigerad/src/Brigerad/Utils/logs/log_rotating_sanitized_file_sink.h:68 | the digits written for an index read back as that index |
| DecimalText.DecimalInjective | Brigerad/src/Brigerad/Utils/logs/log_rotating_sanitized_file_sink.h:68 | different indices are written as different digit strings |
| OdeCodec.SerializeInteger | Frasy/src/utils/lua/ode_serializer.cpp:55-67 | a signed value is written as its two's-complement pattern of the entry's width, least significant byte first |
| OdeCodec.SerializeUnsigned | Frasy/src/utils/lua/ode_serializer.cpp:69-81 | an unsigned value is written as exactly `size` bytes that read back, least significant first, as the value modulo 256^size |
| OdeCodec.SerializeTime | Frasy/src/utils/lua/ode_serializer.cpp:83-93 | a time takes six bytes: the milliseconds with the top four bits cleared, then the days |
| OdeCodec.PadText | Frasy/src/utils/lua/ode_serializer.cpp:119-136 | a string keeps its bytes, is zero-padded up to the minimum length and is never shortened |
| OdeCodec.SerializeOde | Frasy/src/utils/lua/ode_serializer.cpp:95-149 | encoding fails with "not implemented" exactly for the four structured types, and otherwise integers take their width, times six bytes and strings at least the minimum length |
| OdeCodec.DeserializeInteger | Frasy/src/utils/lua/ode_deserializer.cpp:24-34 | the shift-left then arithmetic-shift-right of the decoder sign-extends the span: the result is the signed reading of its little-endian pattern and lies in the span's signed range |
| OdeCodec.DeserializeUnsigned | Frasy/src/utils/lua/ode_deserializer.cpp:36-44 | the decoded value is below 256^len and its little-endian layout is the span |
| OdeCodec.DeserializeTime | Frasy/src/utils/lua/ode_deserializer.cpp:46-53 | a decoded time has a 28-bit millisecond count and a 16-bit day count |
| OdeCodec.DeserializeRealAsWritten | Frasy/src/utils/lua/ode_deserializer.cpp:59-60 | as written, a float or double entry never decodes: the call does not return on any non-empty span, and an empty span fails the end-of-data assertion |
| OdeCodec.DeserializeReal | Frasy/src/utils/lua/ode_serializer.cpp:25-53 | the corrected real decoder reads the bytes in the order the encoder writes them: the result's little-endian layout is the span's first four or eight bytes |
| OdeCodec.DeserializeOde | Frasy/src/utils/lua/ode_deserializer.cpp:55-96 | decoding fails with "not implemented" for the structured types, otherwise succeeds (reals need enough bytes); a boolean is "first byte non-zero", strings and domains are the span itself, integers lie in the span's range |
| OdeCodec.OdeRoundTrip | Frasy/src/utils/lua/ode_serializer.cpp:95-149 | every value the encoder writes for an implemented entry is decoded back as its normalized form |
| OdeCodec.IntegerRoundTrip | Frasy/src/utils/lua/ode_deserializer.cpp:24-34 | a signed integer written at width `k` comes back as its `k`-byte wrap-around |
| OdeCodec.UnsignedRoundTrip | Frasy/src/utils/lua/ode_deserializer.cpp:36-44 | an unsigned value written at width `k` comes back modulo 256^k |
| OdeCodec.TimeRoundTrip | Frasy/src/utils/lua/ode_deserializer.cpp:46-53 | a time comes back with the top four bits of its milliseconds cleared and its days intact |
| OdeCodec.NormalizedFits | Frasy/src/utils/lua/ode_serializer.cpp:95-149 | a value that already fits its entry (width, minimum string length, 28-bit milliseconds) is its own normalized form, so it survives the round trip unchanged |
| OdeCodec.ShiftsSignExtend | Frasy/src/utils/lua/ode_deserializer.cpp:31-32 | moving an `n`-byte pattern to the top of a 64-bit word and shifting it back arithmetically gives its signed `n`-byte reading |
| OdeCodec.RealNeverReadBackAsWritten | Frasy/src/utils/lua/ode_deserializer.cpp:59-60 | no float or double the encoder writes is read back by the decoder as it stands, while the corrected decoder returns every bit pattern |
| OdeCodec.RealRoundTrip | Frasy/src/utils/lua/ode_serializer.cpp:25-38 | with the corrected decoder every float and double bit pattern comes back unchanged |
| SerialPacket.HeaderSize | Frasy/src/utils/communication/serial/packet.cpp:52-74 | a header is `SOH` plus two hex characters per byte of the packet id, command id, modifiers, block id and payload size |
| SerialPacket.MinimumPacketSize | Frasy/src/utils/communication/serial/packet.cpp:118-144 | a packet with no payload is its header plus twelve characters: `SYN`, `STX`, `ETX`, the eight CRC digits and `EOT` |
| SerialPacket.EncodeHeader | Frasy/src/utils/communication/serial/packet.cpp:52-74 | the written header is exactly a header long and starts with `SOH` |
| SerialPacket.DecodeHeader | Frasy/src/utils/communication/serial/packet.cpp:38-50 | a header text of the wrong length is "missing data", one not starting with `SOH` is a bad delimiter, and every decoded field fits its type |
| SerialPacket.HeaderRoundTrip | Frasy/src/utils/communication/serial/packet.cpp:38-74 | every header whose fields fit their types is decoded back from its text |
| SerialPacket.NewHeader | Frasy/src/utils/communication/serial/packet.cpp:26-36 | the automatic id stands for the last id handed out; a command header whose id is the last id, automatic or given explicitly, advances it modulo the id type's range, a response never does, and whenever the last id moves the header took it |
| SerialPacket.AutomaticIdsConsecutive | Frasy/src/utils/communication/serial/packet.cpp:26-36 | two automatic command headers built one after the other get consecutive ids, wrapping at the id type's range |
| SerialPacket.MakePacket | Frasy/src/utils/communication/serial/packet.cpp:77-81 | a new packet carries the data as its payload, a zero CRC, and announces the payload length truncated to eight bits |
| SerialPacket.PayloadText | Frasy/src/utils/communication/serial/packet.cpp:129-134 | every payload byte takes two characters |
| SerialPacket.EncodePacket | Frasy/src/utils/communication/serial/packet.cpp:118-144 | the packet text is the minimum size plus two characters per payload byte, starts with `SYN`, ends with `EOT`, and has `STX` and `ETX` around the payload |
| SerialPacket.ReadPayload | Frasy/src/utils/communication/serial/packet.cpp:107-111 | the payload has one byte per digit pair, each the value of its pair |
| SerialPacket.DecodePacketAsWritten | Frasy/src/utils/communication/serial/packet.cpp:83-92 | as written, any text no longer than an empty packet is rejected as missing data |
| SerialPacket.DecodeFrameAsWritten | Frasy/src/utils/communication/serial/packet.cpp:93-115 | as written, once `STX` is found a payload size that puts `ETX` at or past the end makes the decoder read beyond the text |
| SerialPacket.DecodePacket | Frasy/src/utils/communication/serial/packet.cpp:83-116 | the corrected decoder never reads past the text; a short text is missing data, a wrong first character a bad delimiter, and an accepted packet has a header that decodes from its text, `STX` and `ETX` where the size puts them, and as many payload bytes as announced |
| SerialPacket.DecodeFrame | Frasy/src/utils/communication/serial/packet.cpp:93-115 | after the header, the corrected decoder checks `STX`, the room the announced payload needs and `ETX` before reading payload and CRC, and never reads past the text |
| SerialPacket.DecodeEncode | Frasy/src/utils/communication/serial/packet.cpp:83-144 | every packet whose fields fit and whose header announces its payload length decodes back from the text the encoder writes |
| SerialPacket.DecodeAccepts | Frasy/src/utils/communication/serial/packet.cpp:83-116 | any text with the delimiters, header, payload digits and CRC of a packet in their places decodes to that packet |
| SerialPacket.EmptyPayloadRejectedAsWritten | Frasy/src/utils/communication/serial/packet.cpp:85 | a packet with an empty payload is exactly the minimum size, so the decoder as written rejects it while the corrected one reads it back |
| SerialPacket.ShortPacketReadsPastEndAsWritten | Frasy/src/utils/communication/serial/packet.cpp:100-114 | a text one character over the minimum announcing six payload bytes passes the length check, and the decoder as written reads `ETX` beyond its end while the corrected one rejects it as missing data |
| CanDriver.Init | Frasy/src/platform/windows/can_open/CO_driver.cpp:142-179 | initialization fails with an illegal-argument error exactly when a pointer is missing; otherwise the module is not yet normal, has no buffer waiting, and every receive filter is cleared |
| CanDriver.SetNormalMode | Frasy/src/platform/windows/can_open/CO_driver.cpp:126-138 | opening the receive side always succeeds, since every message is let through, so the module ends in normal mode with its filters, buffers and count untouched |
| CanDriver.Disable | Frasy/src/platform/windows/can_open/CO_driver.cpp:182-191 | a module without interfaces is left alone; otherwise it leaves normal mode and nothing else about it changes |
| CanDriver.ModeChangesConsistent | Frasy/src/platform/windows/can_open/CO_driver.cpp:182-191 | switching modes never breaks or repairs the agreement between the waiting count and the full buffers, and disabling and re-enabling differ only in the mode flag |
| CanDriver.RxBufferInit | Frasy/src/platform/windows/can_open/CO_driver.cpp:195-228 | an index past the receive array is an illegal argument and changes nothing; otherwise only that filter changes, taking the owner and handler |
| CanDriver.TxBufferInit | Frasy/src/platform/windows/can_open/CO_driver.cpp:231-249 | an index past the transmit array returns no buffer and changes nothing; otherwise only that buffer changes: not full, its byte count set, its identifier holding only the 11 id bits and the RTR flag |
| CanDriver.Send | Frasy/src/platform/windows/can_open/CO_driver.cpp:253-296 | without interfaces the send is an illegal argument; otherwise only the sent buffer and the count change, the buffer stays full exactly when some interface failed, a failure reports busy, and a buffer already full is reported as an overflow when sending succeeds |
| CanDriver.FirstFull | Frasy/src/platform/windows/can_open/CO_driver.cpp:316-326 | the retry finds the lowest-indexed full buffer, and none exactly when no buffer is full |
| CanDriver.Process | Frasy/src/platform/windows/can_open/CO_driver.cpp:307-330 | the retry does nothing without interfaces or when the count is zero, resets the count when it finds no full buffer, and otherwise resends the first full one |
| CanDriver.MatchRx | Frasy/src/platform/windows/can_open/CO_driver.cpp:349-358 | a received identifier goes to the lowest-indexed filter it passes, and to none exactly when it passes none |
| CanDriver.DeliveryFor | Frasy/src/platform/windows/can_open/CO_driver.cpp:339-363 | a received packet is delivered exactly when it is a CAN frame passing some filter whose first such filter has a callback, and then to that filter's handler with its owner |
| CanDriver.PollReceive | Frasy/src/platform/windows/can_open/CO_driver.cpp:332-366 | no more messages are delivered than were received, none without interfaces, and with interfaces every received packet that has a delivery is delivered |
| CanDriver.PollReceiveAppend | Frasy/src/platform/windows/can_open/CO_driver.cpp:332-366 | polling a batch delivers what its first part delivers followed by what its second part delivers, so deliveries keep the order of reception |
| CanDriver.PollReceiveOne | Frasy/src/platform/windows/can_open/CO_driver.cpp:339-363 | a single received packet causes its own delivery, if any, and nothing else |
| CanDriver.FullCountUpdate | Frasy/src/platform/windows/can_open/CO_driver.cpp:278-289 | changing one buffer's full flag moves the number of full buffers by exactly one or not at all |
| CanDriver.InitConsistent | Frasy/src/platform/windows/can_open/CO_driver.cpp:164 | after initialization the waiting count equals the number of full transmit buffers |
| CanDriver.SendConsistent | Frasy/src/platform/windows/can_open/CO_driver.cpp:278-291 | sending keeps the waiting count equal to the number of full transmit buffers |
| CanDriver.ProcessConsistent | Frasy/src/platform/windows/can_open/CO_driver.cpp:313-329 | the retry keeps the waiting count equal to the number of full buffers, and lowers it by one when it resends successfully |
| CanDriver.ProcessResynchronizes | Frasy/src/platform/windows/can_open/CO_driver.cpp:328 | when no buffer is full, one retry brings any waiting count back in line |
| CanDriver.RxBufferInitConsistent | Frasy/src/platform/windows/can_open/CO_driver.cpp:195-228 | configuring a receive filter leaves the transmit count consistent |
| CanDriver.TxBufferInitConsistent | Frasy/src/platform/windows/can_open/CO_driver.cpp:231-249 | configuring a transmit buffer that is not waiting keeps the count consistent |
| CanDriver.RxFilterMeaning | Frasy/src/platform/windows/can_open/CO_driver.cpp:214-217 | after a filter is configured, an identifier passes it exactly when it agrees with the filter's identifier on the mask's 11 id bits and on the RTR flag |
| CanDriver.ClearedSlotMatchesOnlyZero | Frasy/src/platform/windows/can_open/CO_driver.cpp:166-171 | a cleared filter compares every bit against identifier 0, so it passes 0 alone |
| CanDriver.PollReceiveFirstMatch | Frasy/src/platform/windows/can_open/CO_driver.cpp:339-363 | every delivery comes from a received message, went to the first filter that message passes, and called that filter's handler with its owner |
| CanDriver.FullCountZero | Frasy/src/platform/windows/can_open/CO_driver.cpp:313-328 | no buffer is full exactly when the number of full buffers is zero |
| Emergency.FindActive | Frasy/src/utils/communication/can_open/node.cpp:39-41 | the search finds the earliest active entry with the given status, and none exactly when no entry is active with it |
| Emergency.AddEmergency | Frasy/src/utils/communication/can_open/node.cpp:33-54 | an error is appended to the history; a "no error" message resolves the first active entry with its status in place (inactive, resolved now) and leaves every other entry alone, or is appended when no entry matches |
| Emergency.ResolutionCounts | Frasy/src/utils/communication/can_open/node.cpp:33-54 | a resolving message lowers the number of active entries with its status by exactly one and no other status's count; any other message raises its own status's count by one when it is active |
| Emergency.ActiveCountAppend | Frasy/src/utils/communication/can_open/node.cpp:44 | appending an entry raises a status's active count by one exactly when the entry is active with it |
| Emergency.ActiveCountUpdate | Frasy/src/utils/communication/can_open/node.cpp:48-49 | replacing one entry changes a status's active count by the difference of the old and new entries' contributions |
| TypeManager.IsIdTaken | Frasy/src/utils/commands/type/manager/manager.cpp:160 | an id is taken exactly when a struct or an enum is found under it |
| TypeManager.NextFree | Frasy/src/utils/commands/type/manager/manager.cpp:40 | the counter stops at the smallest id at or above it that neither table holds, skipping only taken ids |
| TypeManager.Add | Frasy/src/utils/commands/type/manager/manager.cpp:38-57 | adding without an id picks the smallest free id at or above the counter, leaves the counter there, stores the definition in its own table only, and keeps every other entry |
| TypeManager.AddAt | Frasy/src/utils/commands/type/manager/manager.cpp:45-64 | adding at a chosen id fails with an invalid-id error exactly when either table already holds that id, and never moves the counter |
| TypeManager.Get | Frasy/src/utils/commands/type/manager/manager.cpp:66-76 | a lookup by id fails with "type not found" exactly when the table lacks the id, and otherwise returns its definition |
| TypeManager.FindIdByName | Frasy/src/utils/commands/type/manager/manager.cpp:78-94 | a lookup by name fails exactly when no definition of that kind has the name, and otherwise returns an id whose definition has it |
| TypeManager.FirstNamed | Frasy/src/utils/commands/type/manager/manager.cpp:89-92 | the iteration stops at the first id in table order whose definition has the name, and finds none exactly when no id does |
| TypeManager.GetTypeName | Frasy/src/utils/commands/type/manager/manager.cpp:145-158 | the name of a struct wins over an enum's; an id in neither table gives "Unknown type: " followed by the decimal digits of the id |
| TypeManager.AddFundamentals | Frasy/src/utils/commands/type/manager/manager.cpp:162-183 | registering the fundamentals fails exactly when one of the ids 0 to 12 is taken; otherwise each of those ids holds its fundamental struct, the counter is 13, the enums and every earlier struct are kept |
| TypeManager.AddFundamentalsFromFails | Frasy/src/utils/commands/type/manager/manager.cpp:164-181 | the loop of chosen-id additions from id `k` on fails exactly when some id from `k` to 12 is taken |
| TypeManager.AddFundamentalsFromTables | Frasy/src/utils/commands/type/manager/manager.cpp:164-181 | after the loop from id `k` on, each of those ids holds its fundamental, other ids above 12 are untouched and no struct is lost |
| TypeManager.AddKeepsDisjoint | Frasy/src/utils/commands/type/manager/manager.cpp:38-57 | adding without an id keeps the struct and enum tables from sharing an id |
| TypeManager.AddAtKeepsDisjoint | Frasy/src/utils/commands/type/manager/manager.cpp:45-64 | a successful addition at a chosen id keeps the tables from sharing an id |
| TypeManager.AddThenGet | Frasy/src/utils/commands/type/manager/manager.cpp:38-76 | what was added is found again under the returned id, and every earlier definition is still found |
| TypeManager.AddTwiceDistinct | Frasy/src/utils/commands/type/manager/manager.cpp:38-57 | two additions in a row return different ids, the second above the first |
| TypeManager.FreshFundamentals | Frasy/src/utils/commands/type/manager/manager.cpp:162-183 | on a fresh registry the fundamentals are named Void to String at ids 0 to 12, and the next type added gets id 13 |
| BufferLayout.ShaderDataTypeSize | Brigerad/src/Brigerad/Renderer/Buffer.h:27-53 | only the empty type takes no bytes; every type but the boolean takes a multiple of four bytes, and none more than 64 |
| BufferLayout.ComponentCount | Brigerad/src/Brigerad/Renderer/Buffer.h:70-88 | only the empty type has no components, none has more than 16, and the byte size is the component count times four, or times one for a boolean |
| BufferLayout.SizeIsComponentsTimesWidth | Brigerad/src/Brigerad/Renderer/Buffer.h:27-53 | each shader type's byte size is its component count (9 for a 3x3 matrix, 16 for a 4x4 one) times four, or times one for a boolean |
| BufferLayout.MakeElement | Brigerad/src/Brigerad/Renderer/Buffer.h:63-66 | a new element is sized by its type, four bytes per float, integer or matrix component and one per boolean, and starts at offset 0 |
| BufferLayout.CalculateOffsetsAndStride | Brigerad/src/Brigerad/Renderer/Buffer.h:116-126 | after layout each element keeps its type, name and size and sits at the sum of the sizes before it, and the stride is the sum of all sizes |
| BufferLayout.LayoutIsPacked | Brigerad/src/Brigerad/Renderer/Buffer.h:116-126 | the laid-out elements are packed: the first at 0, each starting where the previous ends, the last ending at the stride |
| RendererBatch.QuadIndices | Brigerad/src/Brigerad/Renderer/Renderer2D.cpp:97-114 | the index buffer holds six indices per quad, two triangles over that quad's own four vertices (0,1,2,2,3,0 shifted by four per quad), so every index names a vertex of its own quad |
| RendererBatch.Flush | Brigerad/src/Brigerad/Renderer/Renderer2D.cpp:380-393 | drawing the queue is one more draw call and changes nothing else |
| RendererBatch.FlushAndReset | Brigerad/src/Brigerad/Renderer/Renderer2D.cpp:395-407 | after drawing the queue, no index or vertex is queued and only the white texture and the font atlas stay bound |
| RendererBatch.BeginScene | Brigerad/src/Brigerad/Renderer/Renderer2D.cpp:312-331 | a new frame starts with an empty queue and the two reserved textures, and counts one more frame without drawing |
| RendererBatch.MakeRoom | Brigerad/src/Brigerad/Renderer/Renderer2D.cpp:552-556 | a queue whose index count has reached the maximum is drawn and reset before the next quad; otherwise nothing changes |
| RendererBatch.Queue | Brigerad/src/Brigerad/Renderer/Renderer2D.cpp:560-575 | a queued quad adds four vertices, six indices and one to the quad count |
| RendererBatch.DrawQuad | Brigerad/src/Brigerad/Renderer/Renderer2D.cpp:545-576 | a flat-colour quad is always counted, queued after what is there, or after one extra draw call when the queue was full |
| RendererBatch.FindSlot | Brigerad/src/Brigerad/Renderer/Renderer2D.cpp:597-605 | the lookup returns the lowest slot from 1 on that holds the texture, and 0 exactly when no slot does |
| RendererBatch.DrawTexturedQuadAsWritten | Brigerad/src/Brigerad/Renderer/Renderer2D.cpp:578-614 | as written, a textured quad adds at most one slot to the table, with no check that the table has room |
| RendererBatch.DrawTexturedQuad | Brigerad/src/Brigerad/Renderer/Renderer2D.cpp:578-614 | with the bound respected, a textured quad keeps the batch valid (at most 32 slots, counts in step) and its vertices name the lowest slot holding its texture |
| RendererBatch.DrawKeepsValid | Brigerad/src/Brigerad/Renderer/Renderer2D.cpp:545-614 | both kinds of quad keep the batch valid, and a quad whose texture is bound, with room in the queue, reuses its slot and binds nothing new |
| RendererBatch.Fresh | Brigerad/src/Brigerad/Renderer/Renderer2D.cpp:282-292 | the first batch of a frame, with the white texture and the font atlas bound and nothing queued, is valid |
| RendererBatch.DrawAllAsWritten | Brigerad/src/Brigerad/Renderer/Renderer2D.cpp:578-614 | drawing textured quads one after the other never unbinds the two reserved textures |
| RendererBatch.SlotOverflowAsWritten | Brigerad/src/Brigerad/Renderer/Renderer2D.cpp:607-614 | as written, 31 distinct textures drawn into a fresh frame leave 33 textures bound, one past the 32-slot table |
| RendererBatch.DistinctTexturesAppend | Brigerad/src/Brigerad/Renderer/Renderer2D.cpp:607-614 | while no flush is due, each new distinct texture is bound in the next slot, in drawing order |
| SpinInput.Increment | Frasy/src/utils/imgui/spin_input.cpp:39-44 | "+" adds the step when that stays at or below the maximum; otherwise the value wraps to the minimum, the overshoot past the maximum counting from one below it |
| SpinInput.Decrement | Frasy/src/utils/imgui/spin_input.cpp:58-63 | "-" subtracts the step when that stays at or above the minimum; otherwise the value wraps to the maximum, the undershoot counting from one above it |
| SpinInput.StaysInRange | Frasy/src/utils/imgui/spin_input.cpp:30-66 | with a step between one and the width of the range, both buttons keep an in-range value in range |
| SpinInput.CountsModuloRange | Frasy/src/utils/imgui/spin_input.cpp:30-66 | the buttons count modulo the number of values in the range: "+" and "-" add and subtract the step to the offset from the minimum, modulo the width |
| SpinInput.DecrementUndoesIncrement | Frasy/src/utils/imgui/spin_input.cpp:30-66 | for in-range values, "-" undoes "+" and "+" undoes "-" |
| StringUtils.Find | Frasy/src/utils/string_utils.cpp:14 | the search returns the first occurrence at or after the start position, and none exactly when there is no occurrence from there on |
| StringUtils.ReplaceFrom | Frasy/src/utils/string_utils.cpp:13-18 | the replacement loop never touches the text before its current position |
| StringUtils.Splice | Frasy/src/utils/string_utils.cpp:16 | replacing a stretch of text changes the length by the difference of the two lengths |
| StringUtils.ReplaceAll | Frasy/src/utils/string_utils.cpp:7-21 | text without an occurrence comes back unchanged |
| StringUtils.ReplaceAllIsReplaced | Frasy/src/utils/string_utils.cpp:7-21 | the search-and-replace loop agrees with the reference reading: occurrences are replaced leftmost first, never overlapping, and the inserted text is not searched again |
| StringUtils.ReplacedNone | Frasy/src/utils/string_utils.cpp:14 | under the reference reading, text with no occurrence is kept as it is |
| StringUtils.ReplacedFirst | Frasy/src/utils/string_utils.cpp:14-17 | under the reference reading, the text before the first occurrence is kept and the rest is processed after the replacement |
| StringUtils.FindInRest | Frasy/src/utils/string_utils.cpp:14 | searching from the end of a processed prefix finds what searching the rest alone finds, shifted by the prefix |
| StringUtils.ReplaceFromIsReplaced | Frasy/src/utils/string_utils.cpp:13-18 | replacing from the end of a processed prefix keeps the prefix and replaces in the rest as the reference reading does |
| StringUtils.ReplacementNotRescanned | Frasy/src/utils/string_utils.cpp:17 | replacing `a` by `aa` in `a` gives `aa`: the position moves past the inserted text, so the loop ends |
| StringUtils.LastSeparator | Frasy/src/utils/string_utils.cpp:34 | the position found is that of the last `/` or `\`, and there is none exactly when the path has no separator |
| StringUtils.GetFullNameFromPath | Frasy/src/utils/string_utils.cpp:31-37 | the file name is a suffix of the path with no separator in it, preceded in the path by a separator when it is not the whole path |
| StringUtils.RemoveNameFromPath | Frasy/src/utils/string_utils.cpp:54-60 | the directory part is a prefix of the path that is empty or ends with a separator |
| StringUtils.PathSplits | Frasy/src/utils/string_utils.cpp:31-60 | a path is its directory part followed by its file name |
| StringUtils.GetNameFromPath | Frasy/src/utils/string_utils.cpp:39-44 | the name without extension is the part of the file name before its last dot, or the whole name when it has no dot |
| StringUtils.RemoveNameFromWidePathAsWritten | Frasy/src/utils/string_utils.cpp:46-52 | as written, the wide-string overload keeps the path's length minus the separator's position, and the whole path when there is no separator |
| StringUtils.WidePathKeepsNameAsWritten | Frasy/src/utils/string_utils.cpp:50 | for `a/bc` the wide overload keeps `a/b` where the narrow one keeps `a/`, and for `bc` it keeps `bc` where the narrow one keeps nothing |
| LogSink.LowerHexDigit | Brigerad/src/Brigerad/Utils/logs/log_rotating_sanitized_file_sink.h:111 | a nibble is written as one lower-case hex digit that reads back as the nibble |
| LogSink.Escape | Brigerad/src/Brigerad/Utils/logs/log_rotating_sanitized_file_sink.h:107-116 | a control byte becomes a backslash, `0` and two hex digits, a backslash and a double quote are preceded by a backslash, and every other byte stands for itself |
| LogSink.Sanitize | Brigerad/src/Brigerad/Utils/logs/log_rotating_sanitized_file_sink.h:104-118 | sanitizing never shortens a payload |
| LogSink.UnescapeOne | Brigerad/src/Brigerad/Utils/logs/log_rotating_sanitized_file_sink.h:107-116 | reading one escape consumes at least one byte and exactly the escape of the byte it returns |
| LogSink.UnescapeEscape | Brigerad/src/Brigerad/Utils/logs/log_rotating_sanitized_file_sink.h:107-116 | the escape of any byte, followed by anything, reads back as that byte and consumes exactly the escape |
| LogSink.SanitizeRoundTrip | Brigerad/src/Brigerad/Utils/logs/log_rotating_sanitized_file_sink.h:104-118 | sanitized text reads back as the payload it came from, so sanitizing loses no information |
| LogSink.UnsanitizeRoundTrip | Brigerad/src/Brigerad/Utils/logs/log_rotating_sanitized_file_sink.h:104-118 | any text that reads back is exactly the sanitized form of what it reads as, so the escape format has one spelling per payload |
| LogSink.SanitizedIsClean | Brigerad/src/Brigerad/Utils/logs/log_rotating_sanitized_file_sink.h:104-118 | sanitized text contains no control byte, and every double quote in it is preceded by a backslash |
| LogSink.CalcFilename | Brigerad/src/Brigerad/Utils/logs/log_rotating_sanitized_file_sink.h:61-69 | index 0 names the base file; any other index inserts a dot and its decimal digits between the base name and the extension |
| LogSink.CalcFilenameInjective | Brigerad/src/Brigerad/Utils/logs/log_rotating_sanitized_file_sink.h:61-69 | different rotation indices name different files |
| LogSink.Rotate | Brigerad/src/Brigerad/Utils/logs/log_rotating_sanitized_file_sink.h:125-155 | after rotation every file one index below the count moves up one place, replacing what was there; a file whose own index was vacated is gone; nothing past the count changes; and the current file starts empty |
| LogSink.MakeSink | Brigerad/src/Brigerad/Utils/logs/log_rotating_sanitized_file_sink.h:36-59 | opening fails exactly for a zero size limit or more than 200000 files; otherwise the estimate is the current file's real size; when asked to rotate a non-empty current file, the opened files are rotated exactly as `Rotate` does and the estimate starts at 0, and otherwise the files are only opened |
| LogSink.OpenCurrent | Brigerad/src/Brigerad/Utils/logs/log_rotating_sanitized_file_sink.h:52 | opening the current file creates it empty when missing and changes nothing else |
| LogSink.SinkIt | Brigerad/src/Brigerad/Utils/logs/log_rotating_sanitized_file_sink.h:77-100 | a message that would pass the limit, with a non-empty current file, leaves the files rotated exactly as `Rotate` does, with the message as the new current file; otherwise the message is appended and the estimate grows by its length |
| LogSink.SinkItConsistent | Brigerad/src/Brigerad/Utils/logs/log_rotating_sanitized_file_sink.h:77-100 | writing keeps the size estimate equal to the current file's real size, and within the limit when both it and the message were |
| Whitelist.Matches | Frasy/src/layers/device_viewer.h:37-41 | an entry accepts a device only with the same vendor and product ids, and a revision or interface number the entry sets must be the device's; an entry setting neither accepts exactly the devices with its ids; every entry accepts itself |
| Whitelist.MatchesReflexive | Frasy/src/layers/device_viewer.h:37-41 | every entry accepts itself |
| Whitelist.MatchesNotSymmetric | Frasy/src/layers/device_viewer.h:37-41 | acceptance is not symmetric: an entry without revision or interface accepts a device that has them, but not the other way round |
| Whitelist.MatchesTransitive | Frasy/src/layers/device_viewer.h:37-41 | acceptance chains: an entry accepting a device accepts whatever that device accepts |
| Whitelist.MatchesExtremes | Frasy/src/layers/device_viewer.h:37-41 | an entry with both optional fields accepts only itself; one with neither accepts exactly the devices with its vendor and product ids |
| Whitelist.HexRunLength | Frasy/src/layers/device_viewer.cpp:39-42 | the digit group `[A-F0-9]+` runs to the first character that is not an upper-case hex digit |
| Whitelist.FindGroup | Frasy/src/layers/device_viewer.cpp:44-59 | the regex search finds the leftmost position where the key is followed by at least one hex digit, and none exactly when there is no such position |
| Whitelist.SearchGroup | Frasy/src/layers/device_viewer.cpp:44-59 | the captured group is the whole non-empty run of hex digits after the leftmost key, and missing exactly when the key never precedes a digit |
| Whitelist.ToInt32 | Frasy/src/layers/device_viewer.cpp:47-58 | a 32-bit unsigned id stored in an `int` keeps its value modulo 2^32, within the `int` range |
| Whitelist.OptionalField | Frasy/src/layers/device_viewer.cpp:52-59 | an optional field is set exactly when its key is found and its digits convert |
| Whitelist.Parse | Frasy/src/layers/device_viewer.cpp:35-61 | parsing fails exactly when the vendor or product group is missing or does not convert; otherwise the entry has those ids and the interface and revision when they are found and convert |
| Whitelist.ParseStandardName | Frasy/src/layers/device_viewer.cpp:35-61 | the name `VID_<v>&PID_<p>` parses to an entry with exactly those ids and neither optional field |
| Whitelist.ReadsVendor | Frasy/src/layers/device_viewer.cpp:44-47 | in a standard name the vendor group is the vendor digits |
| Whitelist.ReadsProduct | Frasy/src/layers/device_viewer.cpp:48-51 | in a standard name the product group is the product digits |
| Whitelist.ReadsNoOptional | Frasy/src/layers/device_viewer.cpp:52-59 | a standard name has no interface or revision group |
| Whitelist.SearchFinds | Frasy/src/layers/device_viewer.cpp:44-59 | a leftmost key occurrence followed by a maximal run of digits is what the search captures |
| UutStates.GetUutState | Frasy/src/utils/lua/orchestrator/orchestrator.cpp:799-802 | a known UUT reads its own state, and any index past the end reads as idle |
| UutStates.UpdateUutState | Frasy/src/utils/lua/orchestrator/orchestrator.cpp:943-949 | only the listed UUTs change; each takes the new state unless it is disabled and the update is not forced |
| UutStates.UpdateAllUuts | Frasy/src/utils/lua/orchestrator/orchestrator.cpp:937-941 | updating the bench map changes exactly the UUTs of the map, by the same rule |
| UutStates.Toggled | Frasy/src/utils/lua/orchestrator/orchestrator.cpp:761 | a toggle makes a disabled UUT idle and any other UUT disabled |
| UutStates.ToggleUut | Frasy/src/utils/lua/orchestrator/orchestrator.cpp:758-771 | nothing changes while a run is in progress; without teams only the toggled UUT changes; with teams every team member takes the toggled UUT's new state, disabled or not, and nobody else changes |
| UutStates.UpdateIdempotent | Frasy/src/utils/lua/orchestrator/orchestrator.cpp:943-949 | updating twice with the same arguments is updating once |
| UutStates.UpdateOrderFree | Frasy/src/utils/lua/orchestrator/orchestrator.cpp:943-949 | the order and repetitions of the list do not matter, only which UUTs it names |
| UutStates.UpdateRespectsDisabled | Frasy/src/utils/lua/orchestrator/orchestrator.cpp:946-947 | an unforced update never enables a disabled UUT, and a forced one leaves every listed UUT in the new state |
| UutStates.ToggleTwice | Frasy/src/utils/lua/orchestrator/orchestrator.cpp:758-771 | without teams, toggling twice gives back an idle or disabled UUT and makes any other state idle |
| UutStates.ToggleThenGet | Frasy/src/utils/lua/orchestrator/orchestrator.cpp:758-802 | after a toggle the toggled UUT reads as toggled and every other index reads as before |

## Left out

- Input and output are not modelled: serial ports, sockets, CAN interfaces, files, the GUI (ImGui widgets, dialogs) and logging calls. Where an operation's result depends on them, that result is a parameter: `allSent` for the CAN driver, `received` for polling, the file map for the log sink.
- The clock (the time an emergency is resolved) and the scripting runtime's answers (whether a run is in progress, the team layout) are parameters.
- Concurrency is not modelled: the mutexes of the log sink, the CAN send lock and the orchestrator's asynchronous run.
- Floating point is not modelled: float and double values are their bit patterns, and vertex positions and colours are left out of the renderer.
- The SLCAN enums of bit rates, modes and auto-retransmit settings, and their conversions from characters, are not part of this model. The conversion is a parameter.
- SlcanPacket.FrameRoundTrip: a remote frame with a non-zero data length is accepted by the packet constructor, but its length is not written and does not come back (`RemoteFrameLosesLength`). The model gives a parsed remote frame no data, where the C++ leaves its `dataLen` unset.
- SlcanPacket.Parse: the line's length is required to fit the 30-character work buffer and to be at least 2, as the source asserts; a longer line overflows the buffer in C++. A setting command with no character after its letter (`S\r`) is rejected, whereas the C++ reads past the line there; that read is not modelled.
- SlcanPacket: the packet's C++ union is modelled as two fields. The CAN receive-message conversion `toCOCanRxMsg` is modelled only through `ToCanPacket`, which it mirrors.
- The C++ field types of the serial packet header are not part of this model; their widths in bytes are a parameter. `CharConv` handles unsigned types only.
- SerialPacket.DecodePacket: the CRC is read but not checked, as in the source, and `EOT` is not looked at.
- Serialization: types are modelled by their shapes. The `std::string` deserializer overload, and padding between struct fields, are left out. The `float` and `double` overloads of `Deserialize` (deserializer.h:44-56) cannot be selected by a call that names the type, and a call that does not is ambiguous between them, so they have no model.
- Serialization.Deserialize: a failed `BR_CORE_ASSERT` is modelled as a failure (`ReachedEnd`, `NotEnoughData`). The C++ never returns an error here: it logs and breaks into the debugger when assertions are enabled, reads past the end when they are compiled out, and in both cases goes on reading. A call that never returns is modelled as the failure `Unterminated`.
- OdeCodec: the CANopen `DataType` codes are not part of this model; the data types are a datatype. Unicode strings are decoded byte by byte, and their widening to `wchar_t` is left out.
- OdeCodec.DeserializeOde: the span must hold what the source reads without checking: a byte for a boolean, six for a time, and from one to eight bytes for a signed integer, because the source's shift amount is 64 minus eight times the span's length, which is 64 for an empty span and wraps around to a huge unsigned value for one longer than eight, whose bytes are also copied past the 64-bit result.
- CanDriver: null pointers are modelled only for `CO_CANmodule_init`; the other functions take a module value that always exists. `CO_CANsetConfigurationMode` and `CO_CANclearPendingSyncPDOs` have empty bodies and are left out. Closing and unmuting the interfaces is I/O and is reduced to the mode flag.
- CanDriver.PollReceive: a line that does not convert to a CAN message is `None` in the received list and is skipped, as in the source. Reading lines from each interface is I/O; the received list is a parameter.
- TypeManager: ids are unbounded. `type_id_t` and its wrap-around are not part of this model. The fields of structs and enums are left out except their names, and so are `GetStructIds`, `GetEnumIds` and `ResetForTests`.
- TypeManager.AddFundamentals: when an id is taken, the source throws after adding the fundamentals before it. The model returns the failure without that partial state.
- TypeManager.FindIdByName: the iteration order of the hash maps is a parameter, a list of the table's keys.
- BufferLayout: the offsets and the stride are unbounded, and the `uint32_t` wrap-around of a layout over 4 GiB is not modelled. The unknown-type branch that logs an error is left out, because the datatype has no such value.
- RendererBatch: vertex contents, the GPU buffers and the camera are left out. Only the counters, the statistics and the texture-slot table are modelled.
- SpinInput: values are unbounded integers, and `int` overflow near the type's limits is not modelled. `std::abs` is exact here.
- StringUtils.ReplaceAll: an empty pattern is excluded by the requires, because the source then loops forever.
- StringUtils: the wide-string overloads convert through `WideCharToMultiByte`, which is not part of this model. Only the text the conversion leaves unchanged is covered.
- LogSink: `split_by_extension` is not part of this model; the split of the base name is a parameter. Rename failures and their retry, the formatter, flushing and `size_t` overflow are left out.
- Whitelist: `parseHexInteger` is not part of this model; the conversion is a parameter. The wide-string `parse` overload and `operator==` against a string are left out.
- UutStates: the `UutState` enum's declaration is not part of this model. Indices must be in range, because the source indexes the vector unchecked.

## Findings

| source | as written | input that shows it | evidently intended | confidence | as-written member | corrected member |
|---|---|---|---|---|---|---|
| Frasy/src/utils/communication/slcan/packet.cpp:75-81 | a setting command's value is taken from `data[1]` after the command letter was skipped, so two characters past the letter | `S4\r`: the bit-rate conversion is given `\r` | the character right after the letter | high, not executed | SlcanPacket.SettingCharMisread | SlcanPacket.ParseSerialText |
| Frasy/src/utils/communication/slcan/packet.cpp:305-323 | `sizeOfSerialPacket` is 0 for `Invalid`, but `toSerial` still writes the letter and `\r` | an `Invalid` packet and a 0-character buffer: the size guard lets it through and 2 characters are written | a size that covers what is written | high, not executed | SlcanPacket.InvalidPacketOverflows | SlcanPacket.ToSerial |
| Frasy/src/utils/communication/slcan/packet.cpp:156-171 | the data-frame constructor sets a remote-frame command | id 0x123, data [0xAB]: written as `r123\r`, losing the data | `TransmitDataFrame` or `TransmitExtDataFrame` | high, not executed | SlcanPacket.DataPacketAsWrittenDropsData | SlcanPacket.DataPacket |
| Frasy/src/utils/communication/serial/packet.cpp:85 | the length check is `<=` the size of an empty packet | any packet with an empty payload, which is exactly that size, is rejected | `<` | medium, not executed | SerialPacket.EmptyPayloadRejectedAsWritten | SerialPacket.DecodeEncode |
| Frasy/src/utils/communication/serial/packet.cpp:100-114 | the `ETX` index and the CRC digits are read without checking that the text holds the announced payload | a text one character over the minimum whose header announces 6 payload bytes | reject the text as missing data | high, not executed | SerialPacket.ShortPacketReadsPastEndAsWritten | SerialPacket.DecodePacket |
| Frasy/src/utils/lua/ode_deserializer.cpp:59-60 | reals are decoded with `Deserialize<float>` and `Deserialize<double>`; the explicit type binds to the first template parameter of the overloads written for them (deserializer.h:44-56), which is the iterator type, so the call reaches the aggregate overload (deserializer.h:86-99), which reflects the scalar as one field of its own type and calls itself again from the same position | any `real32` entry, for instance the bytes `01 00 00 00` the encoder writes for bit pattern 1: the call recurses without end | read the bit pattern in the order the encoder writes | medium, not executed | OdeCodec.RealNeverReadBackAsWritten | OdeCodec.RealRoundTrip |
| Brigerad/src/Brigerad/Renderer/Renderer2D.cpp:607-614 | a new texture is put in the next slot without checking that one of the 32 slots is left | 31 distinct textures drawn in one fresh batch: the last goes to a 33rd slot | flush the batch when the slots are full | high, not executed | RendererBatch.SlotOverflowAsWritten | RendererBatch.DrawKeepsValid |
| Frasy/src/utils/string_utils.cpp:46-52 | the wide-string `RemoveNameFromPath` keeps `size - startOfName` characters | `a/bc` gives `a/b`; `bc` gives `bc` | `startOfName + 1` characters, as the narrow overload keeps | high, not executed | StringUtils.WidePathKeepsNameAsWritten | StringUtils.PathSplits |

=== FILE: buffer_layout.dfy ===
/** The layout of one vertex in a vertex buffer: an ordered list of typed
    elements, each at the byte offset where the elements before it end, and
    the stride, the size of the whole vertex. */
module BufferLayout {

  datatype ShaderDataType =
    | NoType
    | Float | Float2 | Float3 | Float4
    | Mat3 | Mat4
    | Int | Int2 | Int3 | Int4
    | Bool

  /** The byte size of a value of the type. */
  function ShaderDataTypeSize(t: ShaderDataType): (r: nat)
    ensures r == 0 <==> t == NoType
    ensures t != Bool ==> r % 4 == 0
    ensures r <= 64
  {
    match t
    case NoType => 0
    case Float => 4
    case Float2 => 4 * 2
    case Float3 => 4 * 3
    case Float4 => 4 * 4
    case Mat3 => 4 * 3 * 3
    case Mat4 => 4 * 4 * 4
    case Int => 4
    case Int2 => 4 * 2
    case Int3 => 4 * 3
    case Int4 => 4 * 4
    case Bool => 1
  }

  /** The number of scalar components of the type. */
  function ComponentCount(t: ShaderDataType): (r: nat)
    ensures r == 0 <==> t == NoType
    ensures r <= 16
    ensures ShaderDataTypeSize(t) == r * (if t == Bool then 1 else 4)
  {
    match t
    case NoType => 0
    case Float | Int | Bool => 1
    case Float2 | Int2 => 2
    case Float3 | Int3 => 3
    case Float4 | Int4 => 4
    case Mat3 => 9
    case Mat4 => 16
  }

  /** Float, integer and matrix components take four bytes each, a boolean
      one byte, and the empty type nothing. */
  lemma SizeIsComponentsTimesWidth(t: ShaderDataType)
    ensures ShaderDataTypeSize(t) == ComponentCount(t) * (if t == Bool then 1 else 4)
    ensures t == Mat3 ==> ComponentCount(t) == 9
    ensures t == Mat4 ==> ComponentCount(t) == 16
  {
  }

  datatype BufferElement = BufferElement(
    name: string,
    elementType: ShaderDataType,
    size: nat,
    offset: nat,
    normalized: bool)

  /** A new element: its size is its type's, its offset not yet known. */
  function MakeElement(t: ShaderDataType, name: string, normalized: bool): (e: BufferElement)
    ensures e.size == ComponentCount(t) * (if t == Bool then 1 else 4)
    ensures e.offset == 0 && e.elementType == t && e.name == name && e.normalized == normalized
  {
    SizeIsComponentsTimesWidth(t);
    BufferElement(name, t, ShaderDataTypeSize(t), 0, normalized)
  }

  /** The total size of a run of elements. */
  function SumSizes(elements: seq<BufferElement>): nat {
    if |elements| == 0 then 0
    else SumSizes(elements[..|elements| - 1]) + elements[|elements| - 1].size
  }

  /** The elements with their offsets filled in, and the stride. */
  method CalculateOffsetsAndStride(elements: seq<BufferElement>) returns (laid: seq<BufferElement>, stride: nat)
    ensures |laid| == |elements|
    ensures forall i :: 0 <= i < |elements| ==> laid[i] == elements[i].(offset := SumSizes(elements[..i]))
    ensures stride == SumSizes(elements)
  {
    var offset := 0;
    stride := 0;
    laid := [];
    var i := 0;
    while i < |elements|
      invariant 0 <= i <= |elements|
      invariant |laid| == i
      invariant offset == stride == SumSizes(elements[..i])
      invariant forall j :: 0 <= j < i ==> laid[j] == elements[j].(offset := SumSizes(elements[..j]))
    {
      laid := laid + [elements[i].(offset := offset)];
      assert elements[..i + 1][..i] == elements[..i];
      offset := offset + elements[i].size;
      stride := stride + elements[i].size;
      i := i + 1;
    }
    assert elements[..i] == elements;
  }

  /** Laid-out elements are packed: the first starts at 0, each starts
      where the one before it ends, and the last ends at the stride. */
  predicate Packed(laid: seq<BufferElement>, stride: nat) {
    (|laid| == 0 ==> stride == 0)
    && (|laid| > 0 ==> laid[0].offset == 0 && laid[|laid| - 1].offset + laid[|laid| - 1].size == stride)
    && (forall i :: 0 < i < |laid| ==> laid[i].offset == laid[i - 1].offset + laid[i - 1].size)
  }

  lemma LayoutIsPacked(elements: seq<BufferElement>, laid: seq<BufferElement>, stride: nat)
    requires |laid| == |elements|
    requires forall i :: 0 <= i < |elements| ==> laid[i] == elements[i].(offset := SumSizes(elements[..i]))
    requires stride == SumSizes(elements)
    ensures Packed(laid, stride)
  {
    forall i | 0 < i < |laid|
      ensures laid[i].offset == laid[i - 1].offset + laid[i - 1].size
    {
      assert elements[..i][..i - 1] == elements[..i - 1];
    }
    if |laid| > 0 {
      assert elements[..|elements|] == elements;
      assert elements[..0] == [];
    }
  }
}

=== FILE: bytes.dfy ===
/** Bytes, fixed-width unsigned and two's-complement integers, and their
    big- and little-endian byte layouts. C++ integer widths are modelled by
    a byte count `n`; a value of an `n`-byte unsigned type is a `nat` below
    `Pow256(n)`. */
module Bytes {

  type byte = b: int | 0 <= b < 256

  function Pow256(n: nat): (r: nat)
    ensures r >= 1
  {
    if n == 0 then 1 else 256 * Pow256(n - 1)
  }

  function Reverse<T>(s: seq<T>): (r: seq<T>)
    ensures |r| == |s|
    ensures forall i :: 0 <= i < |s| ==> r[i] == s[|s| - 1 - i]
  {
    if |s| == 0 then [] else Reverse(s[1..]) + [s[0]]
  }

  /** The `n` bytes of `v` modulo 256^n, most significant first. */
  function BigEndian(v: nat, n: nat): (r: seq<byte>)
    ensures |r| == n
  {
    if n == 0 then [] else BigEndian(v / 256, n - 1) + [v % 256]
  }

  /** The unsigned value of a byte string read most significant first. */
  function FromBigEndian(s: seq<byte>): (r: nat)
    ensures r < Pow256(|s|)
  {
    if |s| == 0 then 0
    else
      var high := FromBigEndian(s[..|s| - 1]);
      assert high * 256 <= (Pow256(|s| - 1) - 1) * 256;
      high * 256 + s[|s| - 1]
  }

  /** The `n` bytes of `v` modulo 256^n, least significant first. */
  function LittleEndian(v: nat, n: nat): (r: seq<byte>)
    ensures |r| == n
  {
    if n == 0 then [] else [v % 256] + LittleEndian(v / 256, n - 1)
  }

  /** The unsigned value of a byte string read least significant first. */
  function FromLittleEndian(s: seq<byte>): (r: nat)
    ensures r < Pow256(|s|)
  {
    if |s| == 0 then 0
    else
      var high := FromLittleEndian(s[1..]);
      assert 256 * high <= 256 * (Pow256(|s| - 1) - 1);
      s[0] + 256 * high
  }

  /** The bit pattern of `v` in an `n`-byte two's-complement integer, which
      is also what a C++ conversion of `v` to an `n`-byte unsigned type gives. */
  function TwosComplement(v: int, n: nat): (r: nat)
    ensures r < Pow256(n)
    ensures 0 <= v < Pow256(n) ==> r == v
  {
    if 0 <= v < Pow256(n) then DivModUnique(v, Pow256(n), 0, v); v % Pow256(n)
    else v % Pow256(n)
  }

  /** Quotient and remainder are determined by any decomposition
      `x == k * p + r` with `0 <= r < p`. */
  lemma DivModUnique(x: int, p: int, k: int, r: int)
    requires p > 0
    requires 0 <= r < p
    requires x == k * p + r
    ensures x / p == k
    ensures x % p == r
  {
    var k' := x / p;
    var r' := x % p;
    assert x == k' * p + r';
    assert (k - k') * p == r' - r;
    if k > k' {
      MulAtLeast(k - k', p);
    } else if k < k' {
      MulAtLeast(k' - k, p);
    }
  }

  lemma MulAtLeast(d: int, p: int)
    requires d >= 1
    requires p > 0
    ensures d * p >= p
  {
    assert d * p == (d - 1) * p + p;
    assert (d - 1) * p >= 0;
  }

  /** The range of an `n`-byte signed integer. */
  predicate InSignedRange(v: int, n: nat)
    requires n >= 1
  {
    -(Pow256(n) / 2) <= v < Pow256(n) / 2
  }

  /** Reads an `n`-byte bit pattern as a two's-complement signed value. */
  function SignExtend(u: nat, n: nat): (r: int)
    requires n >= 1
    requires u < Pow256(n)
    ensures InSignedRange(r, n)
    ensures TwosComplement(r, n) == u
  {
    assert Pow256(n) / 2 == 128 * Pow256(n - 1);
    if u >= Pow256(n) / 2 then
      DivModUnique(u - Pow256(n), Pow256(n), -1, u);
      u - Pow256(n)
    else
      DivModUnique(u, Pow256(n), 0, u);
      u
  }

  lemma {:induction false} BigEndianRoundTrip(v: nat, n: nat)
    requires v < Pow256(n)
    ensures FromBigEndian(BigEndian(v, n)) == v
  {
    if n > 0 {
      var s := BigEndian(v, n);
      assert s[..n - 1] == BigEndian(v / 256, n - 1);
      QuotientBelow(v, Pow256(n - 1));
      BigEndianRoundTrip(v / 256, n - 1);
      assert FromBigEndian(s) == (v / 256) * 256 + v % 256;
    }
  }

  lemma {:induction false} FromBigEndianRoundTrip(s: seq<byte>)
    ensures BigEndian(FromBigEndian(s), |s|) == s
  {
    if |s| > 0 {
      var v := FromBigEndian(s);
      var high := FromBigEndian(s[..|s| - 1]);
      assert v / 256 == high && v % 256 == s[|s| - 1];
      FromBigEndianRoundTrip(s[..|s| - 1]);
      assert s == s[..|s| - 1] + [s[|s| - 1]];
    }
  }

  lemma {:induction false} LittleEndianRoundTrip(v: nat, n: nat)
    requires v < Pow256(n)
    ensures FromLittleEndian(LittleEndian(v, n)) == v
  {
    if n > 0 {
      var s := LittleEndian(v, n);
      assert s[1..] == LittleEndian(v / 256, n - 1);
      QuotientBelow(v, Pow256(n - 1));
      LittleEndianRoundTrip(v / 256, n - 1);
      assert FromLittleEndian(s) == v % 256 + 256 * (v / 256);
    }
  }

  lemma {:induction false} FromLittleEndianRoundTrip(s: seq<byte>)
    ensures LittleEndian(FromLittleEndian(s), |s|) == s
  {
    if |s| > 0 {
      var v := FromLittleEndian(s);
      var high := FromLittleEndian(s[1..]);
      assert v / 256 == high && v % 256 == s[0];
      FromLittleEndianRoundTrip(s[1..]);
      assert s == [s[0]] + s[1..];
    }
  }

  /** An element appended at the end comes first when reversed. */
  lemma ReverseAppendOne<T>(s: seq<T>, x: T)
    ensures Reverse(s + [x]) == [x] + Reverse(s)
  {
    var l := Reverse(s + [x]);
    var r := [x] + Reverse(s);
    assert |l| == |r|;
    forall i | 0 <= i < |l|
      ensures l[i] == r[i]
    {
      if i > 0 {
        assert l[i] == (s + [x])[|s| - i];
      }
    }
  }

  /** The quotient by 256 of a value below `256 * p` is below `p`. */
  lemma QuotientBelow(v: nat, p: nat)
    requires v < 256 * p
    ensures v / 256 < p
  {
    var q := v / 256;
    assert v == 256 * q + v % 256;
  }

  /** The little-endian layout is the big-endian one read backwards. */
  lemma {:induction false} LittleEndianIsReversedBigEndian(v: nat, n: nat)
    ensures LittleEndian(v, n) == Reverse(BigEndian(v, n))
  {
    if n > 0 {
      LittleEndianIsReversedBigEndian(v / 256, n - 1);
      var b := BigEndian(v / 256, n - 1);
      ReverseAppendOne(b, v % 256);
    }
  }

  /** Reading a big-endian string backwards gives the little-endian reading
      of the reversed string. */
  lemma {:induction false} FromBigEndianReversed(s: seq<byte>)
    ensures FromLittleEndian(Reverse(s)) == FromBigEndian(s)
  {
    if |s| > 0 {
      var init := s[..|s| - 1];
      assert Reverse(s) == [s[|s| - 1]] + Reverse(init);
      assert Reverse(s)[1..] == Reverse(init);
      FromBigEndianReversed(init);
    }
  }

  lemma DivModNested(x: nat, q: nat)
    requires q >= 1
    ensures (x % (256 * q)) % 256 == x % 256
    ensures (x % (256 * q)) / 256 == (x / 256) % q
  {
    var p := 256 * q;
    var k := x / p;
    var r := x % p;
    assert x == k * p + r;
    var r1 := r / 256;
    var r0 := r % 256;
    assert r == r1 * 256 + r0;
    assert r1 < q;
    assert x == (k * q + r1) * 256 + r0;
    DivModUnique(x, 256, k * q + r1, r0);
    DivModUnique(r, 256, r1, r0);
    DivModUnique(x / 256, q, k, r1);
  }

  /** Only the low `n` bytes of a value reach its `n`-byte layout. */
  lemma {:induction false} LittleEndianTruncates(v: nat, n: nat, m: nat)
    requires n <= m
    ensures LittleEndian(v % Pow256(m), n) == LittleEndian(v, n)
  {
    if n > 0 {
      DivModNested(v, Pow256(m - 1));
      LittleEndianTruncates(v / 256, n - 1, m - 1);
    }
  }

  /** A two's-complement pattern survives sign extension. */
  lemma SignExtendInverts(v: int, n: nat)
    requires n >= 1
    requires InSignedRange(v, n)
    ensures SignExtend(TwosComplement(v, n), n) == v
  {
    var p := Pow256(n);
    if v < 0 {
      DivModUnique(v, p, -1, v + p);
    } else {
      DivModUnique(v, p, 0, v);
    }
  }
}

=== FILE: can_driver.dfy ===
/** The CANopen driver's bookkeeping for one CAN module: the receive
    filters, the transmit buffers and the count of transmit buffers waiting
    to be sent again. The module is a value; the serial interfaces behind it
    are reduced to the outcome of a transmission, and the receive callbacks
    to handler numbers. */
module CanDriver {
  import opened Wrappers

  /** The bits of a standard 11-bit CAN identifier. */
  const CanIdMask: bv32 := 0x07FF
  /** The remote-request flag, stored next to the identifier. */
  const FlagRtr: bv32 := 0x8000
  /** Counters and sizes are 16-bit. */
  const U16Modulus: nat := 0x1_0000

  datatype ReturnError = NoError | IllegalArgument | TxOverflow | TxBusy

  /** A receive filter: a message whose identifier agrees with `ident` on
      the bits of `mask` is handed to `callback` with `owner`. */
  datatype RxSlot = RxSlot(ident: bv32, mask: bv32, owner: nat, callback: Option<nat>)

  datatype TxSlot = TxSlot(ident: bv32, dlc: nat, bufferFull: bool, syncFlag: bool)

  datatype CanModule = CanModule(
    hasInterface: bool,
    rx: seq<RxSlot>,
    tx: seq<TxSlot>,
    errorStatus: nat,
    normal: bool,
    txCount: nat)

  /** The filter every slot starts with: identifier 0, every bit compared,
      no callback. */
  const ClearedRxSlot: RxSlot := RxSlot(0, 0xFFFF_FFFF, 0, None)

  /** Initializes a module over the given receive and transmit arrays.
      `pointersValid` stands for the four pointer arguments all being set. */
  function Init(pointersValid: bool, rx: seq<RxSlot>, tx: seq<TxSlot>): (r: Result<CanModule, ReturnError>)
    requires |rx| < U16Modulus && |tx| < U16Modulus
    ensures r.Failure? <==> !pointersValid
    ensures r.Failure? ==> r.error == IllegalArgument
    ensures r.Success? ==> (r.value.hasInterface && !r.value.normal
                            && r.value.txCount == 0 && r.value.errorStatus == 0)
    ensures r.Success? ==> |r.value.rx| == |rx| && r.value.tx == tx
    ensures r.Success? ==> forall i :: 0 <= i < |rx| ==> r.value.rx[i] == ClearedRxSlot
  {
    if !pointersValid then Failure(IllegalArgument)
    else Success(CanModule(true, seq(|rx|, _ => ClearedRxSlot), tx, 0, false, 0))
  }

  /** Configures receive slot `index`: the identifier keeps its 11 bits and
      gains the remote flag when `rtr`; the mask keeps its 11 bits and
      always compares the remote flag. A bad index changes nothing. */
  function RxBufferInit(m: CanModule, index: nat, ident: bv16, mask: bv16, rtr: bool,
                        owner: nat, callback: Option<nat>): (r: (CanModule, ReturnError))
    ensures index >= |m.rx| ==> r == (m, IllegalArgument)
    ensures |r.0.rx| == |m.rx|
    ensures index < |m.rx| ==> r.1 == NoError
    ensures index < |m.rx| ==> r.0 == m.(rx := m.rx[index := r.0.rx[index]])
    ensures index < |m.rx| ==> r.0.rx[index].owner == owner && r.0.rx[index].callback == callback
  {
    if index < |m.rx| then
      var id := (ident as bv32 & CanIdMask) | (if rtr then FlagRtr else 0);
      var slot := RxSlot(id, (mask as bv32 & CanIdMask) | FlagRtr, owner, callback);
      (m.(rx := m.rx[index := slot]), NoError)
    else (m, IllegalArgument)
  }

  /** Configures transmit slot `index` and returns it, or returns `None` for
      a bad index. The slot is left not full. */
  function TxBufferInit(m: CanModule, index: nat, ident: bv16, rtr: bool, noOfBytes: nat, syncFlag: bool)
    : (r: (CanModule, Option<nat>))
    requires noOfBytes < 256
    ensures index >= |m.tx| ==> r == (m, None)
    ensures |r.0.tx| == |m.tx|
    ensures index < |m.tx| ==> r.1 == Some(index)
    ensures index < |m.tx| ==> r.0 == m.(tx := m.tx[index := r.0.tx[index]])
    ensures index < |m.tx| ==> (!r.0.tx[index].bufferFull && r.0.tx[index].dlc == noOfBytes
                                && r.0.tx[index].syncFlag == syncFlag)
    ensures index < |m.tx| ==> r.0.tx[index].ident & !(CanIdMask | FlagRtr) == 0
  {
    if index < |m.tx| then
      var id := (ident as bv32 & CanIdMask) | (if rtr then FlagRtr else 0);
      (m.(tx := m.tx[index := TxSlot(id, noOfBytes, false, syncFlag)]), Some(index))
    else (m, None)
  }

  /** Puts the module in normal mode. Opening the receive side cannot fail
      here, since every message is let through, so the module ends normal.
      The interfaces are dereferenced unchecked, so they must exist. */
  function SetNormalMode(m: CanModule): (r: CanModule)
    requires m.hasInterface
    ensures r.normal
    ensures r.rx == m.rx && r.tx == m.tx && r.txCount == m.txCount
    ensures r.hasInterface && r.errorStatus == m.errorStatus
  {
    m.(normal := true)
  }

  /** Closes the interfaces and leaves normal mode; without interfaces
      nothing changes. */
  function Disable(m: CanModule): (r: CanModule)
    ensures !m.hasInterface ==> r == m
    ensures m.hasInterface ==> !r.normal
    ensures r.rx == m.rx && r.tx == m.tx && r.txCount == m.txCount
    ensures r.hasInterface == m.hasInterface && r.errorStatus == m.errorStatus
  {
    if !m.hasInterface then m else m.(normal := false)
  }

  function Inc16(n: nat): nat { (n + 1) % U16Modulus }
  function Dec16(n: nat): nat { (n + U16Modulus - 1) % U16Modulus }

  /** Sends transmit buffer `index` on every interface; `allSent` is whether
      every interface took the whole packet. A buffer that was already full
      reports an overflow (unless this attempt fails, which reports busy); a
      failed attempt marks the buffer full for a later retry. The count
      moves only when the flag does, in 16-bit arithmetic. */
  function Send(m: CanModule, index: nat, allSent: bool): (r: (CanModule, ReturnError))
    requires index < |m.tx|
    ensures !m.hasInterface ==> r == (m, IllegalArgument)
    ensures m.hasInterface ==> r.0 == m.(tx := r.0.tx, txCount := r.0.txCount)
    ensures m.hasInterface ==> |r.0.tx| == |m.tx|
    ensures m.hasInterface ==> forall i :: 0 <= i < |m.tx| && i != index ==> r.0.tx[i] == m.tx[i]
    ensures m.hasInterface ==> r.0.tx[index].bufferFull == !allSent
    ensures m.hasInterface && !allSent ==> r.1 == TxBusy
    ensures m.hasInterface && allSent ==> r.1 == (if m.tx[index].bufferFull then TxOverflow else NoError)
    ensures m.hasInterface && m.tx[index].bufferFull == !allSent ==> r.0.txCount == m.txCount
  {
    if !m.hasInterface then (m, IllegalArgument)
    else
      var slot := m.tx[index];
      var err := if slot.bufferFull then TxOverflow else NoError;
      if allSent then
        if slot.bufferFull then
          (m.(tx := m.tx[index := slot.(bufferFull := false)], txCount := Dec16(m.txCount)), err)
        else (m, err)
      else
        if !slot.bufferFull then
          (m.(tx := m.tx[index := slot.(bufferFull := true)], txCount := Inc16(m.txCount)), TxBusy)
        else (m, TxBusy)
  }

  /** The first full transmit buffer, if any. */
  function FirstFull(tx: seq<TxSlot>): (r: Option<nat>)
    ensures r.None? <==> forall i :: 0 <= i < |tx| ==> !tx[i].bufferFull
    ensures r.Some? ==> r.value < |tx| && tx[r.value].bufferFull
    ensures r.Some? ==> forall i :: 0 <= i < r.value ==> !tx[i].bufferFull
  {
    if |tx| == 0 then None
    else if tx[0].bufferFull then Some(0)
    else
      var rest := FirstFull(tx[1..]);
      if rest.Some? then
        assert forall i :: 1 <= i <= rest.value ==> tx[i] == tx[1..][i - 1];
        Some(rest.value + 1)
      else
        assert forall i :: 1 <= i < |tx| ==> tx[i] == tx[1..][i - 1];
        None
  }

  /** The periodic retry: while the count says buffers wait, the first full
      buffer is cleared, counted down and sent again; if none is full the
      count is reset to zero. */
  function Process(m: CanModule, allSent: bool): (r: CanModule)
    ensures !m.hasInterface || m.txCount == 0 ==> r == m
    ensures m.hasInterface && m.txCount > 0 && FirstFull(m.tx).None? ==> r == m.(txCount := 0)
    ensures |r.tx| == |m.tx|
    ensures m.hasInterface && m.txCount > 0 && FirstFull(m.tx).Some? ==>
              var i := FirstFull(m.tx).value;
              r.tx == m.tx[i := m.tx[i].(bufferFull := !allSent)]
  {
    if !m.hasInterface || m.txCount == 0 then m
    else
      match FirstFull(m.tx)
      case None => m.(txCount := 0)
      case Some(i) =>
        var cleared := m.(tx := m.tx[i := m.tx[i].(bufferFull := false)], txCount := Dec16(m.txCount));
        Send(cleared, i, allSent).0
  }

  /** A received identifier passes a filter when it agrees with the filter's
      identifier on every bit of its mask. */
  predicate Matches(slot: RxSlot, ident: bv32) {
    (ident ^ slot.ident) & slot.mask == 0
  }

  /** The first receive slot whose filter the identifier passes. */
  function MatchRx(rx: seq<RxSlot>, ident: bv32): (r: Option<nat>)
    ensures r.None? <==> forall i :: 0 <= i < |rx| ==> !Matches(rx[i], ident)
    ensures r.Some? ==> r.value < |rx| && Matches(rx[r.value], ident)
    ensures r.Some? ==> forall i :: 0 <= i < r.value ==> !Matches(rx[i], ident)
  {
    if |rx| == 0 then None
    else if Matches(rx[0], ident) then Some(0)
    else
      var rest := MatchRx(rx[1..], ident);
      if rest.Some? then
        assert forall i :: 1 <= i <= rest.value ==> rx[i] == rx[1..][i - 1];
        Some(rest.value + 1)
      else
        assert forall i :: 1 <= i < |rx| ==> rx[i] == rx[1..][i - 1];
        None
  }

  /** One delivered message: the handler called, its owner, the identifier. */
  datatype Delivery = Delivery(callback: nat, owner: nat, ident: bv32)

  /** The delivery one received packet causes: a CAN frame passing a
      filter that has a callback reaches that first filter's handler. */
  function DeliveryFor(m: CanModule, packet: Option<bv32>): (r: Option<Delivery>)
    ensures r.Some? <==> packet.Some? && MatchRx(m.rx, packet.value).Some?
                         && m.rx[MatchRx(m.rx, packet.value).value].callback.Some?
    ensures r.Some? ==> var i := MatchRx(m.rx, packet.value).value;
                        r.value == Delivery(m.rx[i].callback.value, m.rx[i].owner, packet.value)
  {
    match packet
    case None => None
    case Some(id) =>
      match MatchRx(m.rx, id)
      case None => None
      case Some(i) =>
        if m.rx[i].callback.Some? then Some(Delivery(m.rx[i].callback.value, m.rx[i].owner, id)) else None
  }

  /** Delivers each received message to the first filter it passes, when
      that filter has a callback. `None` stands for a received packet that
      is not a CAN frame; it is skipped. */
  function PollReceive(m: CanModule, received: seq<Option<bv32>>): (r: seq<Delivery>)
    ensures |r| <= |received|
    ensures !m.hasInterface ==> r == []
    ensures m.hasInterface ==> forall j :: 0 <= j < |received| && DeliveryFor(m, received[j]).Some? ==>
              DeliveryFor(m, received[j]).value in r
  {
    if !m.hasInterface || |received| == 0 then []
    else
      var rest := PollReceive(m, received[1..]);
      assert forall j :: 1 <= j < |received| ==> received[j] == received[1..][j - 1];
      Delivered(m, received[0]) + rest
  }

  /** The deliveries one packet causes, as a list. */
  function Delivered(m: CanModule, packet: Option<bv32>): (r: seq<Delivery>)
    ensures |r| <= 1
    ensures r == [] <==> DeliveryFor(m, packet).None?
    ensures r != [] ==> r[0] == DeliveryFor(m, packet).value
  {
    match DeliveryFor(m, packet)
    case None => []
    case Some(d) => [d]
  }

  /** The number of full transmit buffers. */
  function FullCount(tx: seq<TxSlot>): (r: nat)
    ensures r <= |tx|
  {
    if |tx| == 0 then 0
    else (if tx[0].bufferFull then 1 else 0) + FullCount(tx[1..])
  }

  /** The count agrees with the buffers: it is the number of full ones. */
  predicate CountConsistent(m: CanModule) {
    |m.tx| < U16Modulus && m.txCount == FullCount(m.tx)
  }

  /** Changing one buffer's flag moves the number of full buffers by one. */
  lemma {:induction false} FullCountUpdate(tx: seq<TxSlot>, i: nat, s: TxSlot)
    requires i < |tx|
    ensures FullCount(tx[i := s]) + (if tx[i].bufferFull then 1 else 0)
         == FullCount(tx) + (if s.bufferFull then 1 else 0)
  {
    if i > 0 {
      assert tx[i := s][1..] == tx[1..][i - 1 := s];
      FullCountUpdate(tx[1..], i - 1, s);
    }
  }

  /** No buffer is full exactly when the number of full ones is zero. */
  lemma {:induction false} FullCountZero(tx: seq<TxSlot>)
    ensures FullCount(tx) == 0 <==> forall i :: 0 <= i < |tx| ==> !tx[i].bufferFull
  {
    if |tx| > 0 {
      FullCountZero(tx[1..]);
      assert forall i :: 1 <= i < |tx| ==> tx[i] == tx[1..][i - 1];
    }
  }

  /** A freshly initialized module is consistent when no transmit buffer
      starts out full. */
  lemma InitConsistent(pointersValid: bool, rx: seq<RxSlot>, tx: seq<TxSlot>)
    requires pointersValid
    requires |rx| < U16Modulus && |tx| < U16Modulus
    requires forall i :: 0 <= i < |tx| ==> !tx[i].bufferFull
    ensures CountConsistent(Init(pointersValid, rx, tx).value)
  {
    FullCountZero(tx);
  }

  /** Sending keeps the count equal to the number of full buffers. */
  lemma SendConsistent(m: CanModule, index: nat, allSent: bool)
    requires index < |m.tx|
    requires CountConsistent(m)
    ensures CountConsistent(Send(m, index, allSent).0)
  {
    var slot := m.tx[index];
    if m.hasInterface {
      if allSent && slot.bufferFull {
        FullCountUpdate(m.tx, index, slot.(bufferFull := false));
      } else if !allSent && !slot.bufferFull {
        FullCountUpdate(m.tx, index, slot.(bufferFull := true));
      }
    }
  }

  /** The retry keeps the count equal to the number of full buffers; a
      successful retry leaves one buffer fewer waiting. */
  lemma ProcessConsistent(m: CanModule, allSent: bool)
    requires CountConsistent(m)
    ensures CountConsistent(Process(m, allSent))
    ensures m.hasInterface && m.txCount > 0 && allSent ==> Process(m, allSent).txCount == m.txCount - 1
  {
    if m.hasInterface && m.txCount > 0 {
      FullCountZero(m.tx);
      var i := FirstFull(m.tx).value;
      var cleared := m.(tx := m.tx[i := m.tx[i].(bufferFull := false)], txCount := Dec16(m.txCount));
      FullCountUpdate(m.tx, i, m.tx[i].(bufferFull := false));
      assert CountConsistent(cleared);
      SendConsistent(cleared, i, allSent);
    }
  }

  /** Whatever the count says, a retry pass with no full buffer brings it
      back in line. */
  lemma ProcessResynchronizes(m: CanModule, allSent: bool)
    requires m.hasInterface && |m.tx| < U16Modulus
    requires forall i :: 0 <= i < |m.tx| ==> !m.tx[i].bufferFull
    ensures CountConsistent(Process(m, allSent))
  {
    FullCountZero(m.tx);
  }

  /** Configuring a receive filter leaves the transmit side consistent. */
  lemma RxBufferInitConsistent(m: CanModule, index: nat, ident: bv16, mask: bv16, rtr: bool,
                               owner: nat, callback: Option<nat>)
    requires CountConsistent(m)
    ensures CountConsistent(RxBufferInit(m, index, ident, mask, rtr, owner, callback).0)
  {
  }

  /** Configuring a transmit buffer that is not waiting keeps the count
      consistent. */
  lemma TxBufferInitConsistent(m: CanModule, index: nat, ident: bv16, rtr: bool, noOfBytes: nat, syncFlag: bool)
    requires noOfBytes < 256
    requires CountConsistent(m)
    requires index < |m.tx| ==> !m.tx[index].bufferFull
    ensures CountConsistent(TxBufferInit(m, index, ident, rtr, noOfBytes, syncFlag).0)
  {
    if index < |m.tx| {
      FullCountUpdate(m.tx, index, TxBufferInit(m, index, ident, rtr, noOfBytes, syncFlag).0.tx[index]);
    }
  }

  /** Switching modes leaves the transmit count as consistent as it was,
      and disabling then re-enabling gives back a normal module. */
  lemma ModeChangesConsistent(m: CanModule)
    requires m.hasInterface
    ensures CountConsistent(SetNormalMode(m)) == CountConsistent(m)
    ensures CountConsistent(Disable(m)) == CountConsistent(m)
    ensures SetNormalMode(Disable(m)) == m.(normal := true)
    ensures Disable(SetNormalMode(m)) == m.(normal := false)
  {
  }

  /** After a filter is configured, an identifier passes it exactly when its
      remote flag is the configured one and it agrees with the configured
      identifier on the masked identifier bits. */
  lemma RxFilterMeaning(m: CanModule, index: nat, ident: bv16, mask: bv16, rtr: bool,
                        owner: nat, callback: Option<nat>, received: bv32)
    requires index < |m.rx|
    ensures Matches(RxBufferInit(m, index, ident, mask, rtr, owner, callback).0.rx[index], received)
        <==> ((received & FlagRtr != 0) == rtr
              && (received ^ ident as bv32) & mask as bv32 & CanIdMask == 0)
  {
  }

  /** A freshly cleared filter passes identifier 0 and nothing else. */
  lemma ClearedSlotMatchesOnlyZero(ident: bv32)
    ensures Matches(ClearedRxSlot, ident) <==> ident == 0
  {
  }

  /** Every message delivered went to the first filter it passes. */
  lemma {:induction false} PollReceiveFirstMatch(m: CanModule, received: seq<Option<bv32>>, k: nat)
    requires k < |PollReceive(m, received)|
    ensures exists j :: 0 <= j < |received| && received[j] == Some(PollReceive(m, received)[k].ident)
    ensures MatchRx(m.rx, PollReceive(m, received)[k].ident).Some?
    ensures var i := MatchRx(m.rx, PollReceive(m, received)[k].ident).value;
            m.rx[i].callback == Some(PollReceive(m, received)[k].callback)
            && m.rx[i].owner == PollReceive(m, received)[k].owner
  {
    var here := PollReceive(m, received[..1]);
    assert received[..1][1..] == [];
    assert PollReceive(m, received) == here + PollReceive(m, received[1..]);
    if k < |here| {
      assert received[0] == Some(PollReceive(m, received)[k].ident);
    } else {
      PollReceiveFirstMatch(m, received[1..], k - |here|);
      var j :| 0 <= j < |received[1..]| && received[1..][j] == Some(PollReceive(m, received)[k].ident);
      assert received[j + 1] == received[1..][j];
    }
  }

  /** Polling a batch delivers what polling its two halves delivers, in
      the order received. */
  lemma {:induction false} PollReceiveAppend(m: CanModule, a: seq<Option<bv32>>, b: seq<Option<bv32>>)
    ensures PollReceive(m, a + b) == PollReceive(m, a) + PollReceive(m, b)
    decreases |a|
  {
    if m.hasInterface && |a| > 0 {
      var here := Delivered(m, a[0]);
      var rest := PollReceive(m, a[1..]);
      var tail := PollReceive(m, b);
      calc {
        PollReceive(m, a + b);
        { ConsTail(a, b); PollReceiveCons(m, a + b); }
        here + PollReceive(m, a[1..] + b);
        { PollReceiveAppend(m, a[1..], b); }
        here + (rest + tail);
        (here + rest) + tail;
        { PollReceiveCons(m, a); }
        PollReceive(m, a) + tail;
      }
    } else if |a| == 0 {
      assert a + b == b;
    }
  }

  /** A poll with interfaces delivers for its first packet, then for the
      rest. */
  lemma PollReceiveCons(m: CanModule, received: seq<Option<bv32>>)
    requires m.hasInterface && |received| > 0
    ensures PollReceive(m, received) == Delivered(m, received[0]) + PollReceive(m, received[1..])
  {
  }

  /** The head and tail of `a + b` when `a` is not empty. */
  lemma ConsTail<T>(a: seq<T>, b: seq<T>)
    requires |a| > 0
    ensures (a + b)[0] == a[0] && (a + b)[1..] == a[1..] + b
  {
  }

  /** A single received packet causes its own delivery and nothing else;
      with the append lemma, this fixes every poll's deliveries and their
      order. */
  lemma PollReceiveOne(m: CanModule, packet: Option<bv32>)
    requires m.hasInterface
    ensures PollReceive(m, [packet]) == (match DeliveryFor(m, packet) case None => [] case Some(d) => [d])
  {
    assert [packet][1..] == [];
  }
}

=== FILE: char_conv.dfy ===
/** Fixed-width hex-ASCII conversion of integers: a `size`-byte integer is
    written as exactly `2 * size` hex digits, most significant first. The
    integer type is modelled by its byte count; a signed value is converted
    through its two's-complement bit pattern (`Bytes.TwosComplement`). */
module CharConv {
  import opened Bytes
  import opened Hex

  /** The number of characters of a `size`-byte integer, two per byte:
      exactly as many hex digits as hold every value of the type. */
  function SizeInChars(size: nat): (r: nat)
    ensures Pow16(r) == Pow256(size)
  {
    Pow16Twice(size);
    2 * size
  }

  /** Reads `2 * size` characters, most significant nibble first; a
      character that is not a hex digit contributes a zero nibble. Each
      nibble is or-ed in at its own shift, and the shifted nibbles never
      overlap, so or-ing is adding. */
  method AsciiToT(data: seq<char>, size: nat) returns (v: nat)
    requires 2 * size <= |data|
    ensures v == FromHex(data[..2 * size])
    ensures v < Pow256(size)
  {
    var charsForT := 2 * size;
    v := 0;
    var i := 0;
    while i < charsForT
      invariant 0 <= i <= charsForT
      invariant v == FromHex(data[..i]) * Pow16(charsForT - i)
    {
      var value := NibbleValue(data[i]);
      var shift := Pow16(charsForT - 1 - i);
      AccumulateNibble(FromHex(data[..i]), value, shift);
      assert data[..i + 1][..i] == data[..i];
      v := v + value * shift;
      i := i + 1;
    }
    assert data[..charsForT] == data[..2 * size];
    Pow16Twice(size);
  }

  lemma AccumulateNibble(high: nat, value: nat, shift: nat)
    ensures high * (16 * shift) + value * shift == (high * 16 + value) * shift
  {
  }

  /** Writes `2 * size` upper-case digits, the least significant nibble
      last, dropping whatever does not fit. */
  method TToAscii(t: nat, size: nat) returns (out: seq<char>)
    ensures |out| == SizeInChars(size)
    ensures AllUpperHex(out)
    ensures out == ToHex(t, 2 * size)
    ensures t < Pow256(size) ==> FromHex(out) == t
  {
    out := [];
    var rest := t;
    var i := 2 * size;
    while i > 0
      invariant 0 <= i <= 2 * size
      invariant ToHex(rest, i) + out == ToHex(t, 2 * size)
    {
      assert ToHex(rest, i) == ToHex(rest / 16, i - 1) + [HexDigit(rest % 16)];
      out := [HexDigit(rest % 16)] + out;
      rest := rest / 16;
      i := i - 1;
    }
    assert ToHex(rest, 0) + out == out;
    if t < Pow256(size) {
      Pow16Twice(size);
      ToHexRoundTrip(t, 2 * size);
    }
  }

  /** Reading back what was written restores every value of the width. */
  lemma TToAsciiRoundTrip(t: nat, size: nat)
    requires t < Pow256(size)
    ensures FromHex(ToHex(t, SizeInChars(size))) == t
  {
    Pow16Twice(size);
    ToHexRoundTrip(t, 2 * size);
  }

  /** Writing what was read gives the same digits, in upper case. */
  lemma {:induction false} AsciiToTThenTToAscii(data: seq<char>)
    requires forall i :: 0 <= i < |data| ==> IsHexDigit(data[i])
    ensures forall i :: 0 <= i < |data| ==> NibbleValue(ToHex(FromHex(data), |data|)[i]) == NibbleValue(data[i])
    ensures AllUpperHex(data) ==> ToHex(FromHex(data), |data|) == data
  {
    var upper := seq(|data|, i requires 0 <= i < |data| => HexDigit(NibbleValue(data[i])));
    FromHexNibbleWise(data, upper);
    FromHexRoundTrip(upper);
    if AllUpperHex(data) {
      forall i | 0 <= i < |data|
        ensures upper[i] == data[i]
      {
        HexDigitOfNibble(data[i]);
      }
    }
  }

  /** Characters that are not hex digits read as zero. */
  lemma {:induction false} NonHexReadsZero(data: seq<char>)
    requires forall i :: 0 <= i < |data| ==> !IsHexDigit(data[i])
    ensures FromHex(data) == 0
  {
    if |data| > 0 {
      NonHexReadsZero(data[..|data| - 1]);
    }
  }

  /** `2 * size` copies of one hex digit, in either case, read as the value
      whose every nibble is that digit. */
  lemma RepeatedDigit(d: char, size: nat)
    requires IsHexDigit(d)
    ensures ToHex(FromHex(seq(2 * size, _ => d)), 2 * size)
         == seq(2 * size, _ => HexDigit(NibbleValue(d)))
  {
    var s := seq(2 * size, _ => d);
    var upper := seq(2 * size, _ => HexDigit(NibbleValue(d)));
    FromHexNibbleWise(s, upper);
    FromHexRoundTrip(upper);
  }
}

=== FILE: decimal.dfy ===
/** Natural numbers in decimal, as `std::to_string` and `std::format`
    write them. */
module DecimalText {

  /** The decimal digits of a natural number, as `std::to_string` writes it. */
  function Decimal(n: nat): (s: string)
    ensures |s| >= 1
    ensures forall i :: 0 <= i < |s| ==> '0' <= s[i] <= '9'
    ensures |s| > 1 ==> s[0] != '0'
  {
    if n < 10 then [('0' as int + n) as char]
    else Decimal(n / 10) + [('0' as int + n % 10) as char]
  }

  /** The value of a string of decimal digits. */
  function DecimalValue(s: string): nat
    requires forall i :: 0 <= i < |s| ==> '0' <= s[i] <= '9'
  {
    if |s| == 0 then 0
    else DecimalValue(s[..|s| - 1]) * 10 + (s[|s| - 1] as int - '0' as int)
  }

  lemma {:induction false} DecimalRoundTrip(n: nat)
    ensures DecimalValue(Decimal(n)) == n
  {
    if n >= 10 {
      var s := Decimal(n);
      assert s[..|s| - 1] == Decimal(n / 10);
      DecimalRoundTrip(n / 10);
    }
  }

  /** Different numbers are written differently. */
  lemma DecimalInjective(a: nat, b: nat)
    requires Decimal(a) == Decimal(b)
    ensures a == b
  {
    DecimalRoundTrip(a);
    DecimalRoundTrip(b);
  }
}

=== FILE: emergency.dfy ===
/** A CANopen node's emergency history. An emergency with the "no error"
    code announces that an earlier error condition is over: it resolves the
    first active entry with the same error status instead of being
    recorded, unless there is no such entry. The clock is a parameter. */
module Emergency {
  import opened Wrappers

  /** The emergency error code "error reset or no error" of CiA 301. */
  const NoErrorCode: nat := 0

  datatype EmergencyMessage = EmergencyMessage(
    nodeId: nat,
    errorCode: nat,
    errorRegister: nat,
    errorStatus: nat,
    information: nat,
    timestamp: int,
    isActive: bool,
    resolutionTime: int)

  /** Whether an entry is an active error with the given status. */
  predicate ActiveWith(e: EmergencyMessage, status: nat) {
    e.errorStatus == status && e.isActive
  }

  /** The first active entry with the given status. */
  function FindActive(history: seq<EmergencyMessage>, status: nat): (r: Option<nat>)
    ensures r.None? <==> forall i :: 0 <= i < |history| ==> !ActiveWith(history[i], status)
    ensures r.Some? ==> r.value < |history| && ActiveWith(history[r.value], status)
    ensures r.Some? ==> forall i :: 0 <= i < r.value ==> !ActiveWith(history[i], status)
  {
    if |history| == 0 then None
    else if ActiveWith(history[0], status) then Some(0)
    else
      var rest := FindActive(history[1..], status);
      if rest.Some? then
        assert forall i :: 1 <= i <= rest.value ==> history[i] == history[1..][i - 1];
        Some(rest.value + 1)
      else
        assert forall i :: 1 <= i < |history| ==> history[i] == history[1..][i - 1];
        None
  }

  /** Records one received emergency at time `now`. */
  function AddEmergency(history: seq<EmergencyMessage>, em: EmergencyMessage, now: int)
    : (r: seq<EmergencyMessage>)
    ensures em.errorCode != NoErrorCode ==> r == history + [em]
    ensures em.errorCode == NoErrorCode && FindActive(history, em.errorStatus).None? ==> r == history + [em]
    ensures em.errorCode == NoErrorCode && FindActive(history, em.errorStatus).Some? ==>
              var i := FindActive(history, em.errorStatus).value;
              |r| == |history|
              && (forall j :: 0 <= j < |history| && j != i ==> r[j] == history[j])
              && !r[i].isActive && r[i].resolutionTime == now
              && r[i] == history[i].(isActive := false, resolutionTime := now)
  {
    if em.errorCode == NoErrorCode then
      match FindActive(history, em.errorStatus)
      case None => history + [em]
      case Some(i) => history[i := history[i].(isActive := false, resolutionTime := now)]
    else history + [em]
  }

  /** The number of active entries with a given status. */
  function ActiveCount(history: seq<EmergencyMessage>, status: nat): (r: nat)
    ensures r <= |history|
  {
    if |history| == 0 then 0
    else (if ActiveWith(history[0], status) then 1 else 0) + ActiveCount(history[1..], status)
  }

  lemma {:induction false} ActiveCountAppend(history: seq<EmergencyMessage>, e: EmergencyMessage, status: nat)
    ensures ActiveCount(history + [e], status)
         == ActiveCount(history, status) + (if ActiveWith(e, status) then 1 else 0)
  {
    if |history| > 0 {
      assert (history + [e])[1..] == history[1..] + [e];
      ActiveCountAppend(history[1..], e, status);
    }
  }

  lemma {:induction false} ActiveCountUpdate(history: seq<EmergencyMessage>, i: nat, e: EmergencyMessage, status: nat)
    requires i < |history|
    ensures ActiveCount(history[i := e], status) + (if ActiveWith(history[i], status) then 1 else 0)
         == ActiveCount(history, status) + (if ActiveWith(e, status) then 1 else 0)
  {
    if i > 0 {
      assert history[i := e][1..] == history[1..][i - 1 := e];
      ActiveCountUpdate(history[1..], i - 1, e, status);
    }
  }

  /** A "no error" message that finds an active error with its status
      resolves exactly one of them and leaves every other status's active
      count alone; any other message adds itself to its status's count when
      it is active. */
  lemma ResolutionCounts(history: seq<EmergencyMessage>, em: EmergencyMessage, now: int, status: nat)
    ensures em.errorCode == NoErrorCode && FindActive(history, em.errorStatus).Some? ==>
              ActiveCount(AddEmergency(history, em, now), status)
              == ActiveCount(history, status) - (if status == em.errorStatus then 1 else 0)
    ensures !(em.errorCode == NoErrorCode && FindActive(history, em.errorStatus).Some?) ==>
              ActiveCount(AddEmergency(history, em, now), status)
              == ActiveCount(history, status) + (if ActiveWith(em, status) then 1 else 0)
  {
    if em.errorCode == NoErrorCode && FindActive(history, em.errorStatus).Some? {
      var i := FindActive(history, em.errorStatus).value;
      ActiveCountUpdate(history, i, history[i].(isActive := false, resolutionTime := now), status);
    } else {
      ActiveCountAppend(history, em, status);
    }
  }
}

=== FILE: hex.dfy ===
/** Hexadecimal ASCII digits as the C++ code reads and writes them: any of
    `0-9`, `a-f`, `A-F` is read, only `0-9`, `A-F` is written. A string of
    digits is read most significant digit first. */
module Hex {
  import opened Bytes

  function Pow16(k: nat): (r: nat)
    ensures r >= 1
  {
    if k == 0 then 1 else 16 * Pow16(k - 1)
  }

  /** Two hex digits per byte. */
  lemma {:induction false} Pow16Twice(n: nat)
    ensures Pow16(2 * n) == Pow256(n)
  {
    if n > 0 {
      Pow16Twice(n - 1);
      assert Pow16(2 * n) == 16 * (16 * Pow16(2 * (n - 1)));
    }
  }

  predicate IsUpperHexDigit(c: char) {
    ('0' <= c <= '9') || ('A' <= c <= 'F')
  }

  predicate IsHexDigit(c: char) {
    IsUpperHexDigit(c) || ('a' <= c <= 'f')
  }

  /** The nibble a character stands for; a character that is not a hex
      digit stands for 0. */
  function NibbleValue(c: char): (r: nat)
    ensures r < 16
    ensures !IsHexDigit(c) ==> r == 0
    ensures '0' <= c <= '9' ==> r == c as int - '0' as int
    ensures 'A' <= c <= 'F' ==> r == c as int - 'A' as int + 10
    ensures 'a' <= c <= 'f' ==> r == c as int - 'a' as int + 10
  {
    if 'a' <= c <= 'f' then c as int - 'a' as int + 10
    else if 'A' <= c <= 'F' then c as int - 'A' as int + 10
    else if '0' <= c <= '9' then c as int - '0' as int
    else 0
  }

  /** The upper-case digit of a nibble. */
  function HexDigit(v: nat): (c: char)
    requires v < 16
    ensures IsUpperHexDigit(c)
    ensures NibbleValue(c) == v
  {
    if v <= 9 then ('0' as int + v) as char else ('A' as int + v - 10) as char
  }

  /** Writing a digit back after reading it gives its upper-case form. */
  lemma HexDigitOfNibble(c: char)
    requires IsHexDigit(c)
    ensures IsUpperHexDigit(c) ==> HexDigit(NibbleValue(c)) == c
    ensures 'a' <= c <= 'f' ==> HexDigit(NibbleValue(c)) == (c as int - 32) as char
  {
  }

  /** Reading a digit string most significant first. */
  function FromHex(s: seq<char>): (r: nat)
    ensures r < Pow16(|s|)
  {
    if |s| == 0 then 0
    else
      var high := FromHex(s[..|s| - 1]);
      assert high * 16 <= (Pow16(|s| - 1) - 1) * 16;
      high * 16 + NibbleValue(s[|s| - 1])
  }

  /** The `k` upper-case digits of `v` modulo 16^k, most significant first. */
  function ToHex(v: nat, k: nat): (r: seq<char>)
    ensures |r| == k
    ensures forall i :: 0 <= i < k ==> IsUpperHexDigit(r[i])
  {
    if k == 0 then [] else ToHex(v / 16, k - 1) + [HexDigit(v % 16)]
  }

  predicate AllUpperHex(s: seq<char>) {
    forall i :: 0 <= i < |s| ==> IsUpperHexDigit(s[i])
  }

  lemma {:induction false} ToHexRoundTrip(v: nat, k: nat)
    requires v < Pow16(k)
    ensures FromHex(ToHex(v, k)) == v
  {
    if k > 0 {
      var s := ToHex(v, k);
      assert s[..k - 1] == ToHex(v / 16, k - 1);
      ToHexRoundTrip(v / 16, k - 1);
    }
  }

  lemma {:induction false} FromHexRoundTrip(s: seq<char>)
    requires AllUpperHex(s)
    ensures ToHex(FromHex(s), |s|) == s
  {
    if |s| > 0 {
      var init := s[..|s| - 1];
      var v := FromHex(s);
      assert v / 16 == FromHex(init) && v % 16 == NibbleValue(s[|s| - 1]);
      FromHexRoundTrip(init);
      HexDigitOfNibble(s[|s| - 1]);
      assert s == init + [s[|s| - 1]];
    }
  }

  /** The strings that agree digit by digit on their nibble values read the
      same. */
  lemma {:induction false} FromHexNibbleWise(s: seq<char>, t: seq<char>)
    requires |s| == |t|
    requires forall i :: 0 <= i < |s| ==> NibbleValue(s[i]) == NibbleValue(t[i])
    ensures FromHex(s) == FromHex(t)
  {
    if |s| > 0 {
      FromHexNibbleWise(s[..|s| - 1], t[..|t| - 1]);
    }
  }

  /** A byte as two digits, high nibble first. */
  lemma ByteAsTwoDigits(b: byte)
    ensures ToHex(b, 2) == [HexDigit(b / 16), HexDigit(b % 16)]
    ensures FromHex([HexDigit(b / 16), HexDigit(b % 16)]) == b
  {
    assert ToHex(b, 2) == ToHex(b / 16, 1) + [HexDigit(b % 16)];
    assert ToHex(b / 16, 1) == ToHex(b / 256, 0) + [HexDigit((b / 16) % 16)];
    assert FromHex([HexDigit(b / 16), HexDigit(b % 16)])
        == FromHex([HexDigit(b / 16)]) * 16 + b % 16;
    assert [HexDigit(b / 16), HexDigit(b % 16)][..1] == [HexDigit(b / 16)];
  }
}

=== FILE: log_sink.dfy ===
/** The rotating, sanitizing log file sink. Each message is sanitized
    (control bytes, backslashes and double quotes escaped), formatted and
    appended to the current file; when the estimated size would pass the
    limit, the files are rotated: `log.txt` becomes `log.1.txt`,
    `log.1.txt` becomes `log.2.txt`, and so on up to the file count, and a
    fresh `log.txt` is started.

    The file system is a map from rotation index to file contents: index 0
    is the base file, index `i` the file `CalcFilename(base, i)`, and
    `CalcFilenameInjective` shows that distinct indices name distinct
    files. Formatting is the logging library's and is a parameter: the
    formatted bytes of the sanitized message. */
module LogSink {
  import opened Bytes
  import opened Wrappers
  import opened DecimalText

  const Backslash: byte := 0x5C
  const Quote: byte := 0x22
  const DigitZero: byte := 0x30

  /** The largest file count the sink accepts. */
  const MaxFilesLimit: nat := 200000

  /** `std::iscntrl` in the "C" locale: the bytes 0 to 31 and 127. */
  predicate IsControl(b: byte) {
    b < 0x20 || b == 0x7F
  }

  /** The lower-case hex digit of a nibble, as `std::hex` writes it. */
  function LowerHexDigit(v: nat): (d: byte)
    requires v < 16
    ensures IsLowerHexDigit(d) && DigitValue(d) == v
  {
    if v < 10 then 0x30 + v else 0x61 + (v - 10)
  }

  predicate IsLowerHexDigit(d: byte) {
    (0x30 <= d <= 0x39) || (0x61 <= d <= 0x66)
  }

  function DigitValue(d: byte): (v: nat)
    requires IsLowerHexDigit(d)
    ensures v < 16
  {
    if d <= 0x39 then d - 0x30 else d - 0x61 + 10
  }

  /** The text one payload byte becomes. */
  function Escape(b: byte): (r: seq<byte>)
    ensures IsControl(b) ==> |r| == 4 && r[0] == Backslash && r[1] == DigitZero
                             && IsLowerHexDigit(r[2]) && IsLowerHexDigit(r[3])
                             && 16 * DigitValue(r[2]) + DigitValue(r[3]) == b
    ensures b == Backslash ==> r == [Backslash, Backslash]
    ensures b == Quote ==> r == [Backslash, Quote]
    ensures !IsControl(b) && b != Backslash && b != Quote ==> r == [b]
  {
    if IsControl(b) then [Backslash, DigitZero, LowerHexDigit(b / 16), LowerHexDigit(b % 16)]
    else if b == Backslash then [Backslash, Backslash]
    else if b == Quote then [Backslash, Quote]
    else [b]
  }

  /** The sanitized payload: each byte escaped in turn. */
  function Sanitize(payload: seq<byte>): (r: seq<byte>)
    ensures |r| >= |payload|
    decreases |payload|
  {
    if |payload| == 0 then []
    else Escape(payload[0]) + Sanitize(payload[1..])
  }

  /** Reads sanitized text back: the escapes `Sanitize` writes, and any
      other byte that `Sanitize` keeps as it is. Anything else is rejected. */
  function Unsanitize(s: seq<byte>): (r: Option<seq<byte>>)
    decreases |s|
  {
    if |s| == 0 then Some([])
    else
      var (b, used) :- UnescapeOne(s);
      var rest :- Unsanitize(s[used..]);
      Some([b] + rest)
  }

  /** The first escaped byte of `s` and how many bytes it took. */
  function UnescapeOne(s: seq<byte>): (r: Option<(byte, nat)>)
    requires |s| > 0
    ensures r.Some? ==> 1 <= r.value.1 <= |s| && s[..r.value.1] == Escape(r.value.0)
  {
    if s[0] != Backslash then
      if IsControl(s[0]) || s[0] == Quote then None else Some((s[0], 1))
    else if |s| >= 2 && (s[1] == Backslash || s[1] == Quote) then Some((s[1], 2))
    else if |s| >= 4 && s[1] == DigitZero && IsLowerHexDigit(s[2]) && IsLowerHexDigit(s[3]) then
      var b := 16 * DigitValue(s[2]) + DigitValue(s[3]);
      if IsControl(b) then
        assert LowerHexDigit(b / 16) == s[2] && LowerHexDigit(b % 16) == s[3];
        Some((b, 4))
      else None
    else None
  }

  /** Reading the escape of `b` in front of any text gives `b` back and
      consumes exactly the escape. */
  lemma UnescapeEscape(b: byte, rest: seq<byte>)
    ensures var s := Escape(b) + rest;
            |s| > 0 && UnescapeOne(s) == Some((b, |Escape(b)|))
  {
    var s := Escape(b) + rest;
    assert s[..|Escape(b)|] == Escape(b);
    if IsControl(b) {
      assert s[1] == DigitZero && s[2] == Escape(b)[2] && s[3] == Escape(b)[3];
    }
  }

  /** Sanitized text reads back as the payload it came from. */
  lemma {:induction false} SanitizeRoundTrip(payload: seq<byte>)
    ensures Unsanitize(Sanitize(payload)) == Some(payload)
    decreases |payload|
  {
    if |payload| > 0 {
      var e := Escape(payload[0]);
      var rest := Sanitize(payload[1..]);
      UnescapeEscape(payload[0], rest);
      assert (e + rest)[|e|..] == rest;
      SanitizeRoundTrip(payload[1..]);
      assert [payload[0]] + payload[1..] == payload;
    }
  }

  /** Text that reads back is exactly the sanitized form of what it reads
      as: so no two payloads are sanitized alike. */
  lemma {:induction false} UnsanitizeRoundTrip(s: seq<byte>)
    requires Unsanitize(s).Some?
    ensures Sanitize(Unsanitize(s).value) == s
    decreases |s|
  {
    if |s| > 0 {
      UnsanitizeStep(s);
      var one := UnescapeOne(s).value;
      var b, used := one.0, one.1;
      var tail := s[used..];
      var rest := Unsanitize(tail).value;
      UnsanitizeRoundTrip(tail);
      SanitizeCons(b, rest);
      SplitAt(s, Escape(b), used);
    }
  }

  /** A sequence is its prefix followed by the rest. */
  lemma SplitAt<T>(s: seq<T>, prefix: seq<T>, n: nat)
    requires n <= |s| && s[..n] == prefix
    ensures s == prefix + s[n..]
  {
  }

  /** Text that reads back starts with an escape, and what follows it
      reads back too. */
  lemma UnsanitizeStep(s: seq<byte>)
    requires |s| > 0 && Unsanitize(s).Some?
    ensures UnescapeOne(s).Some?
    ensures var (b, used) := UnescapeOne(s).value;
            Unsanitize(s[used..]).Some? && Unsanitize(s).value == [b] + Unsanitize(s[used..]).value
  {
  }

  /** Sanitizing a payload with a first byte escapes that byte first. */
  lemma SanitizeCons(b: byte, rest: seq<byte>)
    ensures Sanitize([b] + rest) == Escape(b) + Sanitize(rest)
  {
    assert ([b] + rest)[1..] == rest;
  }

  /** Sanitized text holds no control byte, and every double quote in it
      is escaped. */
  lemma {:induction false} SanitizedIsClean(payload: seq<byte>)
    ensures forall i :: 0 <= i < |Sanitize(payload)| ==> !IsControl(Sanitize(payload)[i])
    ensures forall i :: 0 <= i < |Sanitize(payload)| && Sanitize(payload)[i] == Quote ==>
              i > 0 && Sanitize(payload)[i - 1] == Backslash
    decreases |payload|
  {
    if |payload| > 0 {
      var e := Escape(payload[0]);
      var rest := Sanitize(payload[1..]);
      SanitizedIsClean(payload[1..]);
      assert Sanitize(payload) == e + rest;
      forall i | 0 <= i < |e + rest|
        ensures !IsControl((e + rest)[i])
        ensures (e + rest)[i] == Quote ==> i > 0 && (e + rest)[i - 1] == Backslash
      {
        if i >= |e| {
          assert (e + rest)[i] == rest[i - |e|];
          if (e + rest)[i] == Quote {
            if i - |e| > 0 {
              assert (e + rest)[i - 1] == rest[i - |e| - 1];
            }
          }
        }
      }
    }
  }

  /** The name of rotation file `index`: the base name itself for index 0,
      else the index inserted before the extension. Splitting the name at
      its extension is the logging library's; `split` is its result, the
      stem and the extension (with its dot), which together make up the
      name. */
  function CalcFilename(filename: string, index: nat, split: (string, string)): (r: string)
    requires split.0 + split.1 == filename
    ensures index == 0 ==> r == filename
    ensures index > 0 ==> |r| > |filename| + 1
    ensures index > 0 ==> r[..|split.0| + 1] == split.0 + "." && r[|r| - |split.1|..] == split.1
    ensures index > 0 ==> r[|split.0| + 1..|r| - |split.1|] == Decimal(index)
  {
    if index == 0 then filename
    else
      var r := split.0 + "." + Decimal(index) + split.1;
      assert r[..|split.0| + 1] == split.0 + ".";
      assert r[|r| - |split.1|..] == split.1;
      assert r[|split.0| + 1..|r| - |split.1|] == Decimal(index);
      r
  }

  /** Distinct rotation indices name distinct files. */
  lemma CalcFilenameInjective(filename: string, split: (string, string), i: nat, j: nat)
    requires split.0 + split.1 == filename
    requires CalcFilename(filename, i, split) == CalcFilename(filename, j, split)
    ensures i == j
  {
    var r := CalcFilename(filename, i, split);
    if i > 0 && j > 0 {
      DecimalInjective(i, j);
    }
  }

  datatype SinkError = MaxSizeZero | TooManyFiles

  /** The sink's settings and its running estimate of the current file's
      size. */
  datatype Sink = Sink(maxSize: nat, maxFiles: nat, currentSize: nat)

  /** The file system as the sink sees it: rotation index to contents. */
  type Files = map<nat, seq<byte>>

  /** The size of the current file; a file not there yet is empty. */
  function RealSize(files: Files): nat {
    if 0 in files then |files[0]| else 0
  }

  /** The file at an index, if there is one. */
  function Lookup(files: Files, k: nat): Option<seq<byte>> {
    if k in files then Some(files[k]) else None
  }

  /** Where rotation leaves index `k` once the indices above `i` are done.
      Those hold what was one index below; with no file below, they are
      empty if their own file moved up and untouched if it did not. Index
      `i` has just moved up, unless it is the top; the rest, and everything
      past the file count, is untouched. */
  function Stage(files: Files, maxFiles: nat, i: nat, k: nat): Option<seq<byte>> {
    if k > maxFiles then Lookup(files, k)
    else if k > i then
      if k - 1 in files then Some(files[k - 1])
      else if k < maxFiles && k in files then None
      else Lookup(files, k)
    else if k == i && i < maxFiles && k in files then None
    else Lookup(files, k)
  }

  /** `r` is `files` after a rotation: index `k - 1` has moved to index
      `k` for every `k` from 1 to the file count, replacing what was there;
      a file with nothing below it has moved away unless it is the top one;
      indices past the file count are untouched, and the current file is
      empty. */
  ghost predicate Rotation(files: Files, maxFiles: nat, r: Files) {
    && Lookup(r, 0) == Some([])
    && (forall k :: 1 <= k <= maxFiles && k - 1 in files ==> Lookup(r, k) == Some(files[k - 1]))
    && (forall k :: 1 <= k < maxFiles && k - 1 !in files && k in files ==> Lookup(r, k) == None)
    && (forall k :: 1 <= k <= maxFiles && k - 1 !in files && (k == maxFiles || k !in files) ==>
          Lookup(r, k) == Lookup(files, k))
    && (forall k :: k > maxFiles ==> Lookup(r, k) == Lookup(files, k))
  }

  /** Rotates the files: index `i - 1` moves to index `i`, from the file
      count down to 1, replacing what was there; an index with no file
      moves nothing. Then the current file is started empty. */
  method Rotate(files: Files, maxFiles: nat) returns (r: Files)
    ensures Rotation(files, maxFiles, r)
  {
    r := files;
    var i := maxFiles;
    while i > 0
      invariant 0 <= i <= maxFiles
      invariant forall k :: Lookup(r, k) == Stage(files, maxFiles, i, k)
    {
      if i - 1 in r {
        var moved := r[i := r[i - 1]] - {i - 1};
        forall k | true
          ensures Lookup(moved, k) == Stage(files, maxFiles, i - 1, k)
        {
          assert Lookup(r, k) == Stage(files, maxFiles, i, k);
          assert Lookup(r, i - 1) == Stage(files, maxFiles, i, i - 1);
        }
        r := moved;
      } else {
        forall k | true
          ensures Lookup(r, k) == Stage(files, maxFiles, i - 1, k)
        {
          assert Lookup(r, k) == Stage(files, maxFiles, i, k);
          assert Lookup(r, i - 1) == Stage(files, maxFiles, i, i - 1);
        }
      }
      i := i - 1;
    }
    var before := r;
    r := r[0 := []];
    forall k | k > 0
      ensures Lookup(r, k) == Stage(files, maxFiles, 0, k)
    {
      assert Lookup(before, k) == Stage(files, maxFiles, 0, k);
    }
  }

  /** Opens the sink: a zero size limit, then a file count above the
      limit, is an error. The current file is opened (created empty if
      missing) and its size is the starting estimate; rotating on open
      starts over with an empty file when the current one is not empty. */
  method MakeSink(maxSize: nat, maxFiles: nat, rotateOnOpen: bool, files: Files)
    returns (r: Result<(Sink, Files), SinkError>)
    ensures maxSize == 0 ==> r == Failure(MaxSizeZero)
    ensures maxSize > 0 && maxFiles > MaxFilesLimit ==> r == Failure(TooManyFiles)
    ensures r.Failure? <==> maxSize == 0 || maxFiles > MaxFilesLimit
    ensures r.Success? ==> var (sink, files') := r.value;
              sink.maxSize == maxSize && sink.maxFiles == maxFiles
              && sink.currentSize == RealSize(files')
              && (rotateOnOpen && RealSize(files) > 0 ==>
                    sink.currentSize == 0 && Rotation(OpenCurrent(files), maxFiles, files'))
              && (!(rotateOnOpen && RealSize(files) > 0) ==> files' == OpenCurrent(files))
  {
    if maxSize == 0 {
      return Failure(MaxSizeZero);
    }
    if maxFiles > MaxFilesLimit {
      return Failure(TooManyFiles);
    }
    var current := OpenCurrent(files);
    var size := RealSize(current);
    if rotateOnOpen && size > 0 {
      current := Rotate(current, maxFiles);
      size := 0;
    }
    return Success((Sink(maxSize, maxFiles, size), current));
  }

  /** Opening the current file for appending creates it when missing. */
  function OpenCurrent(files: Files): (r: Files)
    ensures 0 in r && RealSize(r) == RealSize(files)
    ensures forall i :: i != 0 ==> (i in r <==> i in files) && (i in files ==> r[i] == files[i])
  {
    if 0 in files then files else files[0 := []]
  }

  /** The sink and the file system agree: the estimate is the current
      file's real size. */
  predicate Consistent(sink: Sink, files: Files) {
    0 in files && sink.currentSize == |files[0]|
  }

  /** Writes one formatted message. When the estimate would pass the limit
      the real size is checked, and only a non-empty file is rotated; then
      the message is appended and the estimate updated. */
  method SinkIt(sink: Sink, files: Files, formatted: seq<byte>) returns (sink': Sink, files': Files)
    requires 0 in files
    ensures var rotate := sink.currentSize + |formatted| > sink.maxSize && RealSize(files) > 0;
            0 in files'
            && (rotate ==> sink'.currentSize == |formatted| && files'[0] == formatted
                           && Rotation(files, sink.maxFiles, files'[0 := []]))
            && (!rotate ==> sink'.currentSize == sink.currentSize + |formatted|
                            && files' == files[0 := files[0] + formatted])
    ensures sink'.maxSize == sink.maxSize && sink'.maxFiles == sink.maxFiles
  {
    var newSize := sink.currentSize + |formatted|;
    files' := files;
    if newSize > sink.maxSize {
      if RealSize(files) > 0 {
        files' := Rotate(files, sink.maxFiles);
        newSize := |formatted|;
        var rotated := files';
        files' := files'[0 := files'[0] + formatted];
        assert files'[0 := []] == rotated;
        sink' := sink.(currentSize := newSize);
        return;
      }
    }
    files' := files'[0 := files'[0] + formatted];
    sink' := sink.(currentSize := newSize);
  }

  /** Writing keeps the estimate equal to the real size. */
  method SinkItConsistent(sink: Sink, files: Files, formatted: seq<byte>) returns (sink': Sink, files': Files)
    requires Consistent(sink, files)
    ensures Consistent(sink', files')
    ensures sink.currentSize <= sink.maxSize && |formatted| <= sink.maxSize ==> sink'.currentSize <= sink'.maxSize
  {
    sink', files' := SinkIt(sink, files, formatted);
  }
}

=== FILE: ode_codec.dfy ===
/** The byte form of CANopen object-dictionary values exchanged with Lua
    scripts: `SerializeOde` turns a script value into the bytes sent to a
    node for one dictionary entry, `DeserializeOde` turns the bytes read back
    into a script value. Integers travel little-endian in as many bytes as
    their type has; floating-point values are modelled by their bit
    patterns. */
module OdeCodec {
  import opened Bytes
  import opened Wrappers
  import Serialization

  /** The data type recorded in a dictionary entry. `Integer(size)` and
      `Unsigned(size)` stand for the `size`-byte types; a size outside 1..8
      names no type and is treated like an unknown code. */
  datatype DataType =
    | Boolean
    | Real32
    | Real64
    | Integer(size: nat)
    | Unsigned(size: nat)
    | VisibleString
    | OctetString
    | UnicodeString
    | Domain
    | TimeOfDay
    | TimeDifference
    | PdoCommunicationParameter
    | PdoMapping
    | SdoParameter
    | Identity
    | Unknown

  /** A script value, after its conversion to the C++ type the entry's data
      type asks for. A string is its bytes; a time is its `ms`/`days` pair. */
  datatype OdeValue =
    | BoolValue(b: bool)
    | IntValue(i: int)
    | UIntValue(u: nat)
    | RealValue(bits: nat)
    | TextValue(text: seq<byte>)
    | DomainValue(data: seq<byte>)
    | TimeValue(ms: nat, days: nat)

  /** Why an entry cannot be converted: a structured type the codec does
      not handle, a span too short for the value, or a decoding call that
      never returns. */
  datatype OdeError = NotImplemented | NotEnoughData | Unterminated

  /** The milliseconds of a time value keep their low 28 bits. */
  const MsModulus: nat := 0x1000_0000

  predicate IsText(dt: DataType) {
    dt == VisibleString || dt == OctetString || dt == UnicodeString
  }

  predicate IsTime(dt: DataType) {
    dt == TimeOfDay || dt == TimeDifference
  }

  /** The data types both directions handle; every other one throws. */
  predicate Implemented(dt: DataType) {
    match dt
    case Integer(k) => 1 <= k <= 8
    case Unsigned(k) => 1 <= k <= 8
    case PdoCommunicationParameter | PdoMapping | SdoParameter | Identity | Unknown => false
    case _ => true
  }

  /** The value has the kind and the C++ range the entry's type converts it
      to: 64-bit integers, `uint32_t`/`uint16_t` time fields, float bit
      patterns of the type's width. */
  predicate Accepts(dt: DataType, v: OdeValue) {
    match dt
    case Boolean => v.BoolValue?
    case Real32 => v.RealValue? && v.bits < Pow256(4)
    case Real64 => v.RealValue? && v.bits < Pow256(8)
    case Integer(_) => v.IntValue? && InSignedRange(v.i, 8)
    case Unsigned(_) => v.UIntValue? && v.u < Pow256(8)
    case VisibleString | OctetString | UnicodeString => v.TextValue?
    case Domain => v.DomainValue?
    case TimeOfDay | TimeDifference => v.TimeValue? && v.ms < Pow256(4) && v.days < Pow256(2)
    case _ => true
  }

  lemma {:induction false} Pow256Add(a: nat, b: nat)
    ensures Pow256(a + b) == Pow256(a) * Pow256(b)
  {
    if a > 0 {
      Pow256Add(a - 1, b);
    }
  }

  /** Reducing modulo a multiple of `p` first changes nothing modulo `p`. */
  lemma ModOfMultiple(v: int, p: int, q: int)
    requires p >= 1 && q >= 1
    ensures (v % (p * q)) % p == v % p
  {
    var pq := p * q;
    var k := v / pq;
    var r := v % pq;
    var k2 := r / p;
    var r2 := r % p;
    assert v == k * pq + r;
    assert r == k2 * p + r2;
    assert k * pq == (k * q) * p;
    assert v == (k * q + k2) * p + r2;
    DivModUnique(v, p, k * q + k2, r2);
  }

  /** Reducing modulo a larger power of 256 first changes nothing. */
  lemma ModOfMod(v: int, n: nat, m: nat)
    requires n <= m
    ensures (v % Pow256(m)) % Pow256(n) == v % Pow256(n)
  {
    Pow256Add(n, m - n);
    ModOfMultiple(v, Pow256(n), Pow256(m - n));
  }

  /** The low `size` bytes of the 64-bit two's-complement form, least
      significant first: the two's-complement form of the value in `size`
      bytes. */
  function SerializeInteger(value: int, size: nat): (r: seq<byte>)
    requires InSignedRange(value, 8)
    requires size <= 8
    ensures r == LittleEndian(TwosComplement(value, size), size)
  {
    var word := TwosComplement(value, 8);
    LittleEndianTruncates(word, size, size);
    LittleEndianTruncates(TwosComplement(value, size), size, size);
    ModOfMod(value, size, 8);
    LittleEndian(word, size)
  }

  /** The low `size` bytes of a 64-bit unsigned value, least significant
      first. */
  function SerializeUnsigned(value: nat, size: nat): (r: seq<byte>)
    requires value < Pow256(8)
    requires size <= 8
    ensures |r| == size
    ensures FromLittleEndian(r) == value % Pow256(size)
  {
    LittleEndianTruncates(value, size, size);
    LittleEndianRoundTrip(value % Pow256(size), size);
    LittleEndian(value, size)
  }

  /** A time: the low 28 bits of the milliseconds in four bytes, then the
      days in two. */
  function SerializeTime(ms: nat, days: nat): (r: seq<byte>)
    requires ms < Pow256(4)
    requires days < Pow256(2)
    ensures |r| == 6
    ensures FromLittleEndian(r[..4]) == ms % MsModulus
    ensures FromLittleEndian(r[4..]) == days
  {
    var masked := ms % MsModulus;
    assert Pow256(4) == 0x1_0000_0000 by {
      assert Pow256(2) == 0x1_0000;
    }
    DivModUnique(masked, Pow256(4), 0, masked);
    DivModUnique(days, Pow256(2), 0, days);
    var low := SerializeUnsigned(masked, 4);
    var high := SerializeUnsigned(days, 2);
    assert (low + high)[..4] == low;
    assert (low + high)[4..] == high;
    low + high
  }

  /** A string is zero-padded up to the entry's minimum length and never
      cut. */
  function PadText(text: seq<byte>, minLength: nat): (r: seq<byte>)
    ensures |r| == if |text| < minLength then minLength else |text|
    ensures r[..|text|] == text
    ensures forall i :: |text| <= i < |r| ==> r[i] == 0
  {
    if |text| < minLength then text + seq(minLength - |text|, _ => 0 as byte)
    else text
  }

  /** The bytes written for one dictionary entry. */
  function SerializeOde(dt: DataType, v: OdeValue, stringLengthMin: nat): (r: Result<seq<byte>, OdeError>)
    requires Accepts(dt, v)
    ensures r.Failure? <==> !Implemented(dt)
    ensures r.Failure? ==> r.error == NotImplemented
    ensures r.Success? && dt.Integer? ==> |r.value| == dt.size
    ensures r.Success? && dt.Unsigned? ==> |r.value| == dt.size
    ensures r.Success? && IsTime(dt) ==> |r.value| == 6
    ensures r.Success? && IsText(dt) ==> |r.value| >= stringLengthMin
  {
    match dt
    case Boolean => Success([if v.b then 1 else 0])
    case Real32 => Success(LittleEndian(v.bits, 4))
    case Real64 => Success(LittleEndian(v.bits, 8))
    case Integer(k) =>
      if 1 <= k <= 8 then Success(SerializeInteger(v.i, k)) else Failure(NotImplemented)
    case Unsigned(k) =>
      if 1 <= k <= 8 then Success(SerializeUnsigned(v.u, k)) else Failure(NotImplemented)
    case VisibleString | OctetString | UnicodeString => Success(PadText(v.text, stringLengthMin))
    case Domain => Success(v.data)
    case TimeOfDay | TimeDifference => Success(SerializeTime(v.ms, v.days))
    case _ => Failure(NotImplemented)
  }

  /** Reads up to eight bytes, least significant first, into the low bytes
      of a zeroed 64-bit integer, then shifts the read bytes to the top and
      back down arithmetically: the pair of shifts sign-extends from the
      top bit of the last byte read. */
  function DeserializeInteger(value: seq<byte>): (r: int)
    requires 1 <= |value| <= 8
    ensures InSignedRange(r, |value|)
    ensures r == SignExtend(FromLittleEndian(value), |value|)
  {
    var n := |value|;
    var u := FromLittleEndian(value);
    var shift := Pow256(8 - n);
    var shifted := (u * shift) % Pow256(8);
    ShiftsSignExtend(u, n);
    SignExtend(shifted, 8) / shift
  }

  /** Shifting an `n`-byte pattern to the top of a 64-bit word, reading the
      word as signed and shifting back down (rounding toward minus infinity,
      like an arithmetic shift) gives the pattern read as an `n`-byte signed
      value. */
  lemma ShiftsSignExtend(u: nat, n: nat)
    requires 1 <= n <= 8
    requires u < Pow256(n)
    ensures (u * Pow256(8 - n)) % Pow256(8) < Pow256(8)
    ensures SignExtend((u * Pow256(8 - n)) % Pow256(8), 8) / Pow256(8 - n) == SignExtend(u, n)
  {
    var k := Pow256(8 - n);
    var p := Pow256(n - 1);
    var h := p * 128;
    assert Pow256(n) == 2 * h;
    Pow256Add(n - 1, 8 - n);
    assert Pow256(8) == (2 * h) * k by {
      assert Pow256(8) == 256 * Pow256(7);
      MulAssoc(256, p, k);
    }
    ShiftArith(u, h, k);
    var uk, mk := u * k, (2 * h) * k;
    DivModUnique(uk, mk, 0, uk);
    assert Pow256(8) / 2 == h * k;
    assert Pow256(n) / 2 == h;
    SignExtendCases(uk, 8);
    SignExtendCases(u, n);
  }

  lemma MulAssoc(c: int, a: int, b: int)
    ensures (c * a) * b == c * (a * b)
  {
  }

  /** The two cases of reading an `n`-byte pattern as signed. */
  lemma SignExtendCases(u: nat, n: nat)
    requires n >= 1 && u < Pow256(n)
    ensures SignExtend(u, n) == if u >= Pow256(n) / 2 then u - Pow256(n) else u
  {
  }

  /** The arithmetic behind `ShiftsSignExtend`, with `2 * h` for the
      `n`-byte modulus and `k` for the shift factor. */
  lemma ShiftArith(u: int, h: int, k: int)
    requires h >= 1 && k >= 1
    requires 0 <= u < 2 * h
    ensures 0 <= u * k < (2 * h) * k
    ensures ((2 * h) * k) / 2 == h * k
    ensures u >= h <==> u * k >= h * k
    ensures (u * k - (2 * h) * k) / k == u - 2 * h
    ensures (u * k) / k == u
  {
    var uk, hk, mk := u * k, h * k, (2 * h) * k;
    MulSub(2 * h, h, k);
    assert mk == 2 * hk;
    MulNonneg(u, k);
    MulSub(2 * h, u, k);
    MulAtLeast(2 * h - u, k);
    DivModUnique(mk, 2, hk, 0);
    MulSub(u, h, k);
    if u >= h {
      MulNonneg(u - h, k);
    } else {
      MulAtLeast(h - u, k);
    }
    MulSub(u, 2 * h, k);
    DivModUnique(uk - mk, k, u - 2 * h, 0);
    DivModUnique(uk, k, u, 0);
  }

  lemma MulSub(a: int, b: int, k: int)
    ensures a * k - b * k == (a - b) * k
  {
  }

  lemma MulNonneg(a: int, k: int)
    requires a >= 0 && k >= 0
    ensures a * k >= 0
  {
  }

  /** Reads up to eight bytes, least significant first, zero-extended. */
  function DeserializeUnsigned(value: seq<byte>): (r: nat)
    requires |value| <= 8
    ensures r < Pow256(|value|)
    ensures LittleEndian(r, |value|) == value
  {
    FromLittleEndianRoundTrip(value);
    FromLittleEndian(value)
  }

  /** A time: the low 28 bits of the first four bytes, the days from the
      next two. */
  function DeserializeTime(value: seq<byte>): (r: OdeValue)
    requires |value| >= 6
    ensures r.TimeValue? && r.ms < MsModulus && r.days < Pow256(2)
  {
    TimeValue(DeserializeUnsigned(value[..4]) % MsModulus, DeserializeUnsigned(value[4..6]))
  }

  /** A floating-point entry as the decoder reads it, through the generic
      deserializer's `Deserialize<float>` or `Deserialize<double>`: that
      call never returns, unless the span is empty, where its end-of-data
      assertion fails first. */
  function DeserializeRealAsWritten(isDouble: bool, value: seq<byte>): (r: Result<OdeValue, OdeError>)
    ensures r.Failure?
    ensures r == Failure(Unterminated) <==> |value| > 0
  {
    var read := Serialization.Deserialize(Serialization.Floating(isDouble), value);
    if read == Failure(Serialization.Unterminated) then Failure(Unterminated)
    else Failure(NotEnoughData)
  }

  /** The bytes of a floating-point value read in the order the encoder
      writes them: least significant first. */
  function DeserializeReal(isDouble: bool, value: seq<byte>): (r: Result<OdeValue, OdeError>)
    ensures r.Failure? <==> |value| < (if isDouble then 8 else 4)
    ensures r.Success? ==> r.value.RealValue?
    ensures r.Success? ==> LittleEndian(r.value.bits, if isDouble then 8 else 4)
                            == value[..if isDouble then 8 else 4]
  {
    var width := if isDouble then 8 else 4;
    if |value| < width then Failure(NotEnoughData)
    else
      FromLittleEndianRoundTrip(value[..width]);
      Success(RealValue(FromLittleEndian(value[..width])))
  }

  /** What the decoder needs of the span: a byte for a boolean, one to eight
      bytes for a signed integer (the shift is by the span's own length), at
      most eight for an unsigned one, six for a time. */
  predicate SpanFits(dt: DataType, value: seq<byte>) {
    match dt
    case Boolean => |value| >= 1
    case Integer(k) => 1 <= k <= 8 ==> 1 <= |value| <= 8
    case Unsigned(k) => 1 <= k <= 8 ==> |value| <= 8
    case TimeOfDay | TimeDifference => |value| >= 6
    case _ => true
  }

  /** The script value read from one dictionary entry's bytes. Integers are
      read at the span's length, whatever the entry's type says. */
  function DeserializeOde(dt: DataType, value: seq<byte>): (r: Result<OdeValue, OdeError>)
    requires SpanFits(dt, value)
    ensures !Implemented(dt) ==> r == Failure(NotImplemented)
    ensures Implemented(dt) && !(dt.Real32? || dt.Real64?) ==> r.Success?
    ensures r.Success? && dt == Boolean ==> r.value == BoolValue(value[0] != 0)
    ensures r.Success? && IsText(dt) ==> r.value == TextValue(value)
    ensures r.Success? && dt == Domain ==> r.value == DomainValue(value)
    ensures r.Success? && dt.Integer? ==> r.value.IntValue? && InSignedRange(r.value.i, |value|)
    ensures r.Success? && dt.Unsigned? ==> r.value.UIntValue? && r.value.u < Pow256(|value|)
  {
    match dt
    case Boolean => Success(BoolValue(value[0] != 0))
    case Real32 => DeserializeReal(false, value)
    case Real64 => DeserializeReal(true, value)
    case Integer(k) =>
      if 1 <= k <= 8 then Success(IntValue(DeserializeInteger(value))) else Failure(NotImplemented)
    case Unsigned(k) =>
      if 1 <= k <= 8 then Success(UIntValue(DeserializeUnsigned(value))) else Failure(NotImplemented)
    case VisibleString | OctetString | UnicodeString => Success(TextValue(value))
    case Domain => Success(DomainValue(value))
    case TimeOfDay | TimeDifference => Success(DeserializeTime(value))
    case _ => Failure(NotImplemented)
  }

  /** What a value becomes after a trip through its entry: integers wrap to
      the type's width, strings gain their padding, milliseconds lose their
      top four bits. */
  function Normalized(dt: DataType, v: OdeValue, stringLengthMin: nat): OdeValue
    requires Accepts(dt, v)
  {
    match dt
    case Integer(k) => if 1 <= k <= 8 then IntValue(SignExtend(TwosComplement(v.i, k), k)) else v
    case Unsigned(k) => UIntValue(v.u % Pow256(k))
    case VisibleString | OctetString | UnicodeString =>
      if |v.text| < stringLengthMin then TextValue(v.text + seq(stringLengthMin - |v.text|, _ => 0 as byte))
      else v
    case TimeOfDay | TimeDifference => TimeValue(v.ms % MsModulus, v.days)
    case _ => v
  }

  /** Every value the encoder writes is read back as its normalized form. */
  lemma OdeRoundTrip(dt: DataType, v: OdeValue, stringLengthMin: nat)
    requires Implemented(dt)
    requires Accepts(dt, v)
    ensures SerializeOde(dt, v, stringLengthMin).Success?
    ensures SpanFits(dt, SerializeOde(dt, v, stringLengthMin).value)
    ensures DeserializeOde(dt, SerializeOde(dt, v, stringLengthMin).value)
         == Success(Normalized(dt, v, stringLengthMin))
  {
    match dt
    case Real32 =>
      RealRoundTrip(false, v.bits);
    case Real64 =>
      RealRoundTrip(true, v.bits);
    case Integer(k) =>
      IntegerRoundTrip(v.i, k);
    case Unsigned(k) =>
      UnsignedRoundTrip(v.u, k);
    case TimeOfDay =>
      TimeRoundTrip(v.ms, v.days);
    case TimeDifference =>
      TimeRoundTrip(v.ms, v.days);
    case _ =>
  }

  /** An integer comes back wrapped to its type's width. */
  lemma IntegerRoundTrip(i: int, k: nat)
    requires InSignedRange(i, 8) && 1 <= k <= 8
    ensures |SerializeInteger(i, k)| == k
    ensures DeserializeInteger(SerializeInteger(i, k)) == SignExtend(TwosComplement(i, k), k)
  {
    LittleEndianRoundTrip(TwosComplement(i, k), k);
  }

  /** An unsigned value comes back reduced to its type's width. */
  lemma UnsignedRoundTrip(u: nat, k: nat)
    requires u < Pow256(8) && 1 <= k <= 8
    ensures DeserializeUnsigned(SerializeUnsigned(u, k)) == u % Pow256(k)
  {
  }

  /** A time comes back with the top bits of its milliseconds cleared. */
  lemma TimeRoundTrip(ms: nat, days: nat)
    requires ms < Pow256(4) && days < Pow256(2)
    ensures DeserializeTime(SerializeTime(ms, days)) == TimeValue(ms % MsModulus, days)
  {
    var bytes := SerializeTime(ms, days);
    assert bytes[4..6] == bytes[4..];
  }

  /** A value that fits its entry comes back unchanged. */
  lemma NormalizedFits(dt: DataType, v: OdeValue, stringLengthMin: nat)
    requires Implemented(dt)
    requires Accepts(dt, v)
    requires dt.Integer? ==> InSignedRange(v.i, dt.size)
    requires dt.Unsigned? ==> v.u < Pow256(dt.size)
    requires IsText(dt) ==> |v.text| >= stringLengthMin
    requires IsTime(dt) ==> v.ms < MsModulus
    ensures Normalized(dt, v, stringLengthMin) == v
  {
    match dt
    case Integer(k) =>
      SignExtendInverts(v.i, k);
    case Unsigned(k) =>
      DivModUnique(v.u, Pow256(k), 0, v.u);
    case TimeOfDay =>
      DivModUnique(v.ms, MsModulus, 0, v.ms);
    case TimeDifference =>
      DivModUnique(v.ms, MsModulus, 0, v.ms);
    case _ =>
  }

  /** No real the encoder writes is ever decoded as written, whereas the
      corrected decoder gives every bit pattern back. */
  lemma RealNeverReadBackAsWritten(isDouble: bool, bits: nat)
    requires bits < Pow256(if isDouble then 8 else 4)
    ensures DeserializeRealAsWritten(isDouble, LittleEndian(bits, if isDouble then 8 else 4)) == Failure(Unterminated)
    ensures DeserializeReal(isDouble, LittleEndian(bits, if isDouble then 8 else 4)) == Success(RealValue(bits))
  {
    RealRoundTrip(isDouble, bits);
  }

  /** Read least significant first, every float and double bit pattern
      comes back. */
  lemma RealRoundTrip(isDouble: bool, bits: nat)
    requires bits < Pow256(if isDouble then 8 else 4)
    ensures DeserializeReal(isDouble, LittleEndian(bits, if isDouble then 8 else 4)) == Success(RealValue(bits))
  {
    var w := if isDouble then 8 else 4;
    var bytes := LittleEndian(bits, w);
    assert bytes[..w] == bytes;
    LittleEndianRoundTrip(bits, w);
  }
}

=== FILE: renderer_batch.dfy ===
/** The batching counters of the 2D renderer. Quads are queued until the
    index buffer is full, then drawn in one call. Textured quads name their
    texture by a slot in a table of at most 32 textures bound for the call;
    slot 0 holds the white texture and slot 1 the font atlas. Textures are
    identified by numbers; vertex contents (positions, colours) are not
    modelled. */
module RendererBatch {

  const MaxQuads: nat := 100000
  const MaxVertices: nat := MaxQuads * 4
  const MaxIndices: nat := MaxQuads * 6
  const MaxTextureSlots: nat := 32
  /** The slots taken by the white texture and the font atlas. */
  const ReservedSlots: nat := 2

  /** The six indices of quad `k`: two triangles over its four vertices. */
  function QuadCorner(j: nat): nat
    requires j < 6
  {
    [0, 1, 2, 2, 3, 0][j]
  }

  /** Fills the index buffer for `quads` quads. */
  method QuadIndices(quads: nat) returns (indices: seq<nat>)
    ensures |indices| == 6 * quads
    ensures forall i :: 0 <= i < |indices| ==> indices[i] == 4 * (i / 6) + QuadCorner(i % 6)
    ensures forall i :: 0 <= i < |indices| ==> indices[i] / 4 == i / 6
  {
    indices := [];
    var offset := 0;
    var i := 0;
    while i < 6 * quads
      invariant i % 6 == 0 && i <= 6 * quads
      invariant |indices| == i
      invariant offset == 4 * (i / 6)
      invariant forall k :: 0 <= k < i ==> indices[k] == 4 * (k / 6) + QuadCorner(k % 6)
    {
      indices := indices + [offset + 0, offset + 1, offset + 2, offset + 2, offset + 3, offset + 0];
      forall k | i <= k < i + 6
        ensures indices[k] == 4 * (k / 6) + QuadCorner(k % 6)
      {
        assert k / 6 == i / 6 && k % 6 == k - i;
      }
      offset := offset + 4;
      i := i + 6;
    }
    forall k | 0 <= k < |indices|
      ensures indices[k] / 4 == k / 6
    {
      assert QuadCorner(k % 6) < 4;
    }
  }

  /** One frame's queue: queued indices and vertices, the live prefix of the
      texture-slot table, and the statistics. */
  datatype Batch = Batch(
    indexCount: nat,
    vertexCount: nat,
    slots: seq<nat>,
    quadCount: nat,
    drawCalls: nat,
    frameCount: nat)

  /** A batch in the state the renderer keeps between calls. */
  predicate Valid(b: Batch) {
    b.indexCount <= MaxIndices
    && b.indexCount % 6 == 0
    && 6 * b.vertexCount == 4 * b.indexCount
    && ReservedSlots <= |b.slots| <= MaxTextureSlots
  }

  /** Draws what is queued: one draw call. */
  function Flush(b: Batch): (r: Batch)
    ensures r.drawCalls == b.drawCalls + 1
    ensures r == b.(drawCalls := r.drawCalls)
  {
    b.(drawCalls := b.drawCalls + 1)
  }

  /** Draws what is queued and starts an empty queue that keeps only the
      reserved texture slots. */
  function FlushAndReset(b: Batch): (r: Batch)
    requires |b.slots| >= ReservedSlots
    ensures r.indexCount == 0 && r.vertexCount == 0
    ensures r.slots == b.slots[..ReservedSlots]
    ensures r.drawCalls == b.drawCalls + 1 && r.quadCount == b.quadCount && r.frameCount == b.frameCount
  {
    Flush(b).(indexCount := 0, vertexCount := 0, slots := b.slots[..ReservedSlots])
  }

  /** Starts a frame: the same reset, without drawing, and one more frame. */
  function BeginScene(b: Batch): (r: Batch)
    requires |b.slots| >= ReservedSlots
    ensures r.indexCount == 0 && r.vertexCount == 0
    ensures r.slots == b.slots[..ReservedSlots]
    ensures r.frameCount == b.frameCount + 1 && r.drawCalls == b.drawCalls && r.quadCount == b.quadCount
  {
    b.(indexCount := 0, vertexCount := 0, slots := b.slots[..ReservedSlots], frameCount := b.frameCount + 1)
  }

  /** A full queue is drawn first. */
  function MakeRoom(b: Batch): (r: Batch)
    requires |b.slots| >= ReservedSlots
    ensures b.indexCount >= MaxIndices ==> r == FlushAndReset(b)
    ensures b.indexCount < MaxIndices ==> r == b
  {
    if b.indexCount >= MaxIndices then FlushAndReset(b) else b
  }

  /** Queues one quad's four vertices and six indices. */
  function Queue(b: Batch): (r: Batch)
    ensures r.indexCount == b.indexCount + 6 && r.vertexCount == b.vertexCount + 4
    ensures r.quadCount == b.quadCount + 1
    ensures r.slots == b.slots && r.drawCalls == b.drawCalls && r.frameCount == b.frameCount
  {
    b.(indexCount := b.indexCount + 6, vertexCount := b.vertexCount + 4, quadCount := b.quadCount + 1)
  }

  /** A flat-colour quad, drawn with the white texture. */
  function DrawQuad(b: Batch): (r: Batch)
    requires |b.slots| >= ReservedSlots
    ensures r.quadCount == b.quadCount + 1
    ensures b.indexCount < MaxIndices ==> r.indexCount == b.indexCount + 6 && r.drawCalls == b.drawCalls
    ensures b.indexCount >= MaxIndices ==> r.indexCount == 6 && r.drawCalls == b.drawCalls + 1
  {
    Queue(MakeRoom(b))
  }

  /** The first slot from 1 on that holds the texture, or 0 if none does. */
  function FindSlot(slots: seq<nat>, texture: nat, from: nat): (i: nat)
    requires 1 <= from
    ensures i == 0 || (from <= i < |slots| && slots[i] == texture)
    ensures i == 0 <==> forall k :: from <= k < |slots| ==> slots[k] != texture
    ensures i != 0 ==> forall k :: from <= k < i ==> slots[k] != texture
    decreases |slots| - from
  {
    if from >= |slots| then 0
    else if slots[from] == texture then from
    else FindSlot(slots, texture, from + 1)
  }

  /** A textured quad as the renderer draws it: the texture's slot is
      reused if it is bound already, else the texture is put in the next
      slot, with no check that a slot is left. Returns the batch and the
      slot the quad's vertices name. */
  function DrawTexturedQuadAsWritten(b: Batch, texture: nat): (r: (Batch, nat))
    requires |b.slots| >= ReservedSlots
    ensures |r.0.slots| <= |MakeRoom(b).slots| + 1
  {
    var b1 := MakeRoom(b);
    var found := FindSlot(b1.slots, texture, 1);
    if found != 0 then (Queue(b1), found)
    else (Queue(b1.(slots := b1.slots + [texture])), |b1.slots|)
  }

  /** The same with the slot table's bound respected: when the texture is
      not bound and every slot is taken, the queue is drawn first. */
  function DrawTexturedQuad(b: Batch, texture: nat): (r: (Batch, nat))
    requires Valid(b)
    ensures Valid(r.0)
    ensures 1 <= r.1 < |r.0.slots| && r.0.slots[r.1] == texture
    ensures forall k :: 1 <= k < r.1 ==> r.0.slots[k] != texture
    ensures r.0.quadCount == b.quadCount + 1
  {
    var b1 := MakeRoom(b);
    var found := FindSlot(b1.slots, texture, 1);
    if found != 0 then (Queue(b1), found)
    else
      var b2 := if |b1.slots| >= MaxTextureSlots then FlushAndReset(b1) else b1;
      assert FindSlot(b2.slots, texture, 1) == 0;
      (Queue(b2.(slots := b2.slots + [texture])), |b2.slots|)
  }

  /** Drawing keeps a valid batch valid; with a bound texture, nothing but
      the counters changes. */
  lemma DrawKeepsValid(b: Batch, texture: nat)
    requires Valid(b)
    ensures Valid(DrawQuad(b))
    ensures var (r, slot) := DrawTexturedQuad(b, texture);
            FindSlot(b.slots, texture, 1) != 0 && b.indexCount < MaxIndices ==>
              r.slots == b.slots && slot == FindSlot(b.slots, texture, 1)
  {
  }

  /** A frame's first batch: the two reserved textures and nothing queued. */
  function Fresh(white: nat, font: nat): (b: Batch)
    ensures Valid(b)
  {
    Batch(0, 0, [white, font], 0, 0, 0)
  }

  /** Draws one quad with each texture in turn, as the renderer does. */
  function DrawAllAsWritten(b: Batch, textures: seq<nat>): (r: Batch)
    requires |b.slots| >= ReservedSlots
    ensures |r.slots| >= ReservedSlots
    decreases |textures|
  {
    if |textures| == 0 then b
    else DrawAllAsWritten(DrawTexturedQuadAsWritten(b, textures[0]).0, textures[1..])
  }

  /** Thirty-one distinct textures after the two reserved ones fill the 32
      slots and put the last one in a 33rd, outside the table. */
  lemma SlotOverflowAsWritten()
    ensures var textures := seq(31, i => i + 2);
            |DrawAllAsWritten(Fresh(0, 1), textures).slots| == MaxTextureSlots + 1
  {
    var textures := seq(31, i => i + 2);
    DistinctTexturesAppend(Fresh(0, 1), textures);
  }

  /** While nothing needs flushing, each texture not bound yet takes a new
      slot. */
  lemma {:induction false} DistinctTexturesAppend(b: Batch, textures: seq<nat>)
    requires |b.slots| >= ReservedSlots
    requires b.indexCount + 6 * |textures| <= MaxIndices
    requires forall i, k :: 0 <= i < |textures| && 0 <= k < |b.slots| ==> textures[i] != b.slots[k]
    requires forall i, j :: 0 <= i < j < |textures| ==> textures[i] != textures[j]
    ensures DrawAllAsWritten(b, textures).slots == b.slots + textures
    decreases |textures|
  {
    if |textures| > 0 {
      var b1 := DrawTexturedQuadAsWritten(b, textures[0]).0;
      assert FindSlot(b.slots, textures[0], 1) == 0;
      assert b1.slots == b.slots + [textures[0]];
      forall i, k | 0 <= i < |textures[1..]| && 0 <= k < |b1.slots|
        ensures textures[1..][i] != b1.slots[k]
      {
        if k == |b.slots| {
          assert textures[1..][i] == textures[i + 1];
        }
      }
      DistinctTexturesAppend(b1, textures[1..]);
      assert b.slots + [textures[0]] + textures[1..] == b.slots + textures;
    }
  }
}

=== FILE: serial_packet.dfy ===
/** The framed serial packets exchanged with test-bench devices:
    `SYN`, a header, `STX`, the payload in two hex digits per byte, `ETX`,
    the CRC in 8 hex digits, `EOT`. The header is `SOH` followed by the
    packet id, command id, modifiers, block id and payload size, each in
    fixed-width hex. The C++ field types are not part of this model, so
    their widths in bytes are a parameter. */
module SerialPacket {
  import opened Bytes
  import opened Hex
  import opened Wrappers
  import opened CharConv

  const Soh: char := 0x01 as char
  const Syn: char := 0x16 as char
  const Stx: char := 0x02 as char
  const Etx: char := 0x03 as char
  const Eot: char := 0x04 as char
  const CrcWidth: nat := 4

  /** Byte widths of the packet id, command id, block id and payload size
      types; the modifiers are one byte. */
  datatype Widths = Widths(pkt: nat, cmd: nat, blk: nat, size: nat)

  datatype Header = Header(packetId: nat, commandId: nat, modifiers: nat, blockId: nat, payloadSize: nat)

  datatype Packet = Packet(header: Header, payload: seq<byte>, crc: nat)

  datatype DecodeError =
    | MissingData(what: string)
    | BadDelimiter(what: string)
    | BadPayload(index: nat)
      /** The decoder as written reads beyond the received bytes. */
    | ReadPastEnd

  function PacketIdOffset(w: Widths): nat { 1 }
  function CommandIdOffset(w: Widths): nat { PacketIdOffset(w) + SizeInChars(w.pkt) }
  function ModifiersOffset(w: Widths): nat { CommandIdOffset(w) + SizeInChars(w.cmd) }
  function BlockIdOffset(w: Widths): nat { ModifiersOffset(w) + SizeInChars(1) }
  function PayloadSizeOffset(w: Widths): nat { BlockIdOffset(w) + SizeInChars(w.blk) }

  function HeaderSize(w: Widths): (n: nat)
    ensures n == 1 + 2 * (w.pkt + w.cmd + 1 + w.blk + w.size)
  {
    PayloadSizeOffset(w) + SizeInChars(w.size)
  }

  /** The offset of `STX` in a packet. */
  function PayloadStartOffset(w: Widths): nat { HeaderSize(w) + 1 }

  /** `SYN`, header, `STX`, `ETX`, CRC and `EOT`: a packet with no payload. */
  function MinimumPacketSize(w: Widths): (n: nat)
    ensures n == HeaderSize(w) + 12
  {
    1 + HeaderSize(w) + 1 + 1 + SizeInChars(CrcWidth) + 1
  }

  /** A header whose fields fit their types. */
  predicate HeaderFits(w: Widths, h: Header) {
    && h.packetId < Pow256(w.pkt)
    && h.commandId < Pow256(w.cmd)
    && h.modifiers < 256
    && h.blockId < Pow256(w.blk)
    && h.payloadSize < Pow256(w.size)
  }

  // ---------------------------------------------------------------------
  // Header
  // ---------------------------------------------------------------------

  /** `SOH`, then each field in upper-case hex, in declaration order. */
  function EncodeHeader(w: Widths, h: Header): (s: seq<char>)
    ensures |s| == HeaderSize(w)
    ensures s[0] == Soh
  {
    [Soh]
      + ToHex(h.packetId, SizeInChars(w.pkt))
      + ToHex(h.commandId, SizeInChars(w.cmd))
      + ToHex(h.modifiers, SizeInChars(1))
      + ToHex(h.blockId, SizeInChars(w.blk))
      + ToHex(h.payloadSize, SizeInChars(w.size))
  }

  /** The value of the hex field of `len` characters at `off`. */
  function Field(data: seq<char>, off: nat, len: nat): (v: nat)
    requires off + len <= |data|
    ensures v < Pow16(len)
  {
    FromHex(data[off..off + len])
  }

  /** Reads a header: the text must be exactly a header long and start with
      `SOH`. */
  function DecodeHeader(w: Widths, data: seq<char>): (r: Result<Header, DecodeError>)
    ensures |data| != HeaderSize(w) ==> r == Failure(MissingData("header"))
    ensures |data| == HeaderSize(w) && data[0] != Soh ==> r == Failure(BadDelimiter("header"))
    ensures r.Success? ==> HeaderFits(w, r.value)
  {
    if |data| != HeaderSize(w) then Failure(MissingData("header"))
    else if data[0] != Soh then Failure(BadDelimiter("header"))
    else
      Success(Header(
        Field(data, PacketIdOffset(w), SizeInChars(w.pkt)),
        Field(data, CommandIdOffset(w), SizeInChars(w.cmd)),
        Field(data, ModifiersOffset(w), SizeInChars(1)),
        Field(data, BlockIdOffset(w), SizeInChars(w.blk)),
        Field(data, PayloadSizeOffset(w), SizeInChars(w.size))))
  }

  /** The characters after a prefix of `s` form the next field. */
  lemma FieldAfterPrefix(s: seq<char>, pre: seq<char>, x: seq<char>)
    requires pre + x <= s
    ensures |pre| + |x| <= |s|
    ensures s[|pre|..|pre| + |x|] == x
  {
    assert s[|pre|..|pre| + |x|] == (pre + x)[|pre|..];
  }

  /** A field written by `ToHex` after a prefix of `s` reads back. */
  lemma FieldReadsBack(s: seq<char>, pre: seq<char>, v: nat, n: nat)
    requires pre + ToHex(v, SizeInChars(n)) <= s
    requires v < Pow256(n)
    ensures |pre| + SizeInChars(n) <= |s|
    ensures Field(s, |pre|, SizeInChars(n)) == v
  {
    FieldAfterPrefix(s, pre, ToHex(v, SizeInChars(n)));
    TToAsciiRoundTrip(v, n);
  }

  /** A header text whose fields read as `h`'s decodes to `h`. */
  lemma DecodeHeaderFields(w: Widths, data: seq<char>, h: Header)
    requires |data| == HeaderSize(w) && data[0] == Soh
    requires Field(data, PacketIdOffset(w), SizeInChars(w.pkt)) == h.packetId
    requires Field(data, CommandIdOffset(w), SizeInChars(w.cmd)) == h.commandId
    requires Field(data, ModifiersOffset(w), SizeInChars(1)) == h.modifiers
    requires Field(data, BlockIdOffset(w), SizeInChars(w.blk)) == h.blockId
    requires Field(data, PayloadSizeOffset(w), SizeInChars(w.size)) == h.payloadSize
    ensures DecodeHeader(w, data) == Success(h)
  {
  }

  lemma HeaderRoundTrip(w: Widths, h: Header)
    requires HeaderFits(w, h)
    ensures DecodeHeader(w, EncodeHeader(w, h)) == Success(h)
  {
    var s := EncodeHeader(w, h);
    var q1 := [Soh] + ToHex(h.packetId, SizeInChars(w.pkt));
    var q2 := q1 + ToHex(h.commandId, SizeInChars(w.cmd));
    var q3 := q2 + ToHex(h.modifiers, SizeInChars(1));
    var q4 := q3 + ToHex(h.blockId, SizeInChars(w.blk));
    assert s == q4 + ToHex(h.payloadSize, SizeInChars(w.size));
    assert q4 <= s && q3 <= q4 && q2 <= q3 && q1 <= q2;
    assert |q1| == CommandIdOffset(w) && |q2| == ModifiersOffset(w);
    assert |q3| == BlockIdOffset(w) && |q4| == PayloadSizeOffset(w);
    FieldReadsBack(s, [Soh], h.packetId, w.pkt);
    FieldReadsBack(s, q1, h.commandId, w.cmd);
    FieldReadsBack(s, q2, h.modifiers, 1);
    FieldReadsBack(s, q3, h.blockId, w.blk);
    FieldReadsBack(s, q4, h.payloadSize, w.size);
    DecodeHeaderFields(w, s, h);
  }

  /** The header the packet constructor builds. An automatic id takes the
      last id handed out; a command (non-response) header whose id equals
      the last id advances it, wrapping at the width of the id type. The
      result is the header and the next last id. `isResponse` is the
      response flag of `mods`, whose bit layout is not part of this model. */
  function NewHeader(w: Widths, automaticId: nat, lastId: nat, pktId: nat, cmdId: nat,
                     mods: nat, isResponse: bool, blkId: nat, payloadSize: nat): (r: (Header, nat))
    requires lastId < Pow256(w.pkt)
    ensures r.0.packetId == (if pktId == automaticId then lastId else pktId)
    ensures r.1 < Pow256(w.pkt)
    ensures pktId == automaticId && !isResponse ==> r.1 == (lastId + 1) % Pow256(w.pkt)
    ensures !isResponse && r.0.packetId == lastId ==> r.1 == (lastId + 1) % Pow256(w.pkt)
    ensures !isResponse && r.0.packetId != lastId ==> r.1 == lastId
    ensures isResponse ==> r.1 == lastId
    ensures r.1 != lastId ==> r.0.packetId == lastId
  {
    var id := if pktId == automaticId then lastId else pktId;
    var next := if !isResponse && id == lastId then (lastId + 1) % Pow256(w.pkt) else lastId;
    (Header(id, cmdId, mods, blkId, payloadSize), next)
  }

  /** Automatic command headers get consecutive ids. */
  lemma AutomaticIdsConsecutive(w: Widths, automaticId: nat, lastId: nat, mods: nat)
    requires lastId < Pow256(w.pkt)
    requires Pow256(w.pkt) > 1
    ensures var (h1, l1) := NewHeader(w, automaticId, lastId, automaticId, 0, mods, false, 0, 0);
            var (h2, _) := NewHeader(w, automaticId, l1, automaticId, 0, mods, false, 0, 0);
            h2.packetId == (h1.packetId + 1) % Pow256(w.pkt)
  {
  }

  // ---------------------------------------------------------------------
  // Packet
  // ---------------------------------------------------------------------

  /** Two upper-case digits per payload byte. */
  function PayloadText(payload: seq<byte>): (s: seq<char>)
    ensures |s| == 2 * |payload|
  {
    if |payload| == 0 then [] else ToHex(payload[0], 2) + PayloadText(payload[1..])
  }

  /** The packet constructor: its payload size is the payload length
      truncated to 8 bits, its CRC is 0. */
  function MakePacket(w: Widths, automaticId: nat, lastId: nat, cmdId: nat, blkId: nat,
                      data: seq<byte>, mods: nat, isResponse: bool, pktId: nat): (r: (Packet, nat))
    requires lastId < Pow256(w.pkt)
    ensures r.0.payload == data && r.0.crc == 0
    ensures r.0.header.payloadSize == |data| % 256
    ensures r.0.header.packetId == (if pktId == automaticId then lastId else pktId)
  {
    var (h, next) := NewHeader(w, automaticId, lastId, pktId, cmdId, mods, isResponse, blkId, |data| % 256);
    (Packet(h, data, 0), next)
  }

  function EncodePacket(w: Widths, p: Packet): (s: seq<char>)
    ensures |s| == MinimumPacketSize(w) + 2 * |p.payload|
    ensures s[0] == Syn && s[|s| - 1] == Eot
    ensures s[PayloadStartOffset(w)] == Stx
    ensures s[PayloadStartOffset(w) + 2 * |p.payload| + 1] == Etx
  {
    [Syn] + EncodeHeader(w, p.header) + [Stx] + PayloadText(p.payload) + [Etx]
      + ToHex(p.crc, SizeInChars(CrcWidth)) + [Eot]
  }

  /** The payload bytes read from `n` digit pairs starting at `start`. */
  function ReadPayload(raw: seq<char>, start: nat, n: nat): (r: seq<byte>)
    requires start + 2 * n <= |raw|
    ensures |r| == n
    ensures forall i :: 0 <= i < n ==> r[i] == FromHex(raw[start + 2 * i..start + 2 * i + 2])
    decreases n
  {
    if n == 0 then []
    else
      Pow16Twice(1);
      [Field(raw, start, 2) as byte] + ReadPayload(raw, start + 2, n - 1)
  }

  /** The packet decoder as the C++ writes it: the only length check is
      against the size of an empty packet, and it rejects that size too;
      the `ETX` index and the CRC digits are then read without checking
      that they exist. `ReadPastEnd` stands for those out-of-range reads. */
  function DecodePacketAsWritten(w: Widths, raw: seq<char>): (r: Result<Packet, DecodeError>)
    ensures |raw| <= MinimumPacketSize(w) ==> r == Failure(MissingData("packet"))
  {
    if |raw| <= MinimumPacketSize(w) then Failure(MissingData("packet"))
    else if raw[0] != Syn then Failure(BadDelimiter("packet"))
    else
      var header :- DecodeHeader(w, raw[1..1 + HeaderSize(w)]);
      DecodeFrameAsWritten(w, raw, header)
  }

  /** The part of the as-written decoder after the header. */
  function DecodeFrameAsWritten(w: Widths, raw: seq<char>, header: Header): (r: Result<Packet, DecodeError>)
    requires |raw| > MinimumPacketSize(w)
    ensures PayloadStartOffset(w) + 2 * header.payloadSize + 1 >= |raw| && raw[PayloadStartOffset(w)] == Stx
            ==> r == Failure(ReadPastEnd)
    ensures r.Success? ==> r.value.header == header
  {
    var start := PayloadStartOffset(w);
    if raw[start] != Stx then Failure(BadDelimiter("payload"))
    else
      var endIdx := start + 2 * header.payloadSize + 1;
      if endIdx >= |raw| then Failure(ReadPastEnd)
      else if raw[endIdx] != Etx then Failure(BadPayload(endIdx))
      else if endIdx + 1 + SizeInChars(CrcWidth) > |raw| then Failure(ReadPastEnd)
      else
        Success(Packet(header, ReadPayload(raw, start + 1, header.payloadSize),
                       Field(raw, endIdx + 1, SizeInChars(CrcWidth))))
  }

  /** The packet decoder with the length checks a packet needs: at least
      an empty packet, and, once the header is read, room for the payload
      its size announces. The CRC is read but not checked, and `EOT` is not
      looked at. */
  function DecodePacket(w: Widths, raw: seq<char>): (r: Result<Packet, DecodeError>)
    ensures |raw| < MinimumPacketSize(w) ==> r == Failure(MissingData("packet"))
    ensures |raw| >= MinimumPacketSize(w) && raw[0] != Syn ==> r == Failure(BadDelimiter("packet"))
    ensures r != Failure(ReadPastEnd)
    ensures r.Success? ==>
      && DecodeHeader(w, raw[1..1 + HeaderSize(w)]) == Success(r.value.header)
      && |raw| >= MinimumPacketSize(w) + 2 * r.value.header.payloadSize
      && raw[PayloadStartOffset(w)] == Stx
      && raw[PayloadStartOffset(w) + 2 * r.value.header.payloadSize + 1] == Etx
      && |r.value.payload| == r.value.header.payloadSize
      && r.value.crc < Pow256(CrcWidth)
  {
    if |raw| < MinimumPacketSize(w) then Failure(MissingData("packet"))
    else if raw[0] != Syn then Failure(BadDelimiter("packet"))
    else
      var header :- DecodeHeader(w, raw[1..1 + HeaderSize(w)]);
      DecodeFrame(w, raw, header)
  }

  /** The part of the checked decoder after the header: the delimiters
      around the payload, the room the payload needs, the payload and the
      CRC. */
  function DecodeFrame(w: Widths, raw: seq<char>, header: Header): (r: Result<Packet, DecodeError>)
    requires |raw| >= MinimumPacketSize(w)
    ensures r != Failure(ReadPastEnd)
    ensures r.Success? ==>
      && r.value.header == header
      && |raw| >= MinimumPacketSize(w) + 2 * header.payloadSize
      && raw[PayloadStartOffset(w)] == Stx
      && raw[PayloadStartOffset(w) + 2 * header.payloadSize + 1] == Etx
      && |r.value.payload| == header.payloadSize
      && r.value.crc < Pow256(CrcWidth)
  {
    var start := PayloadStartOffset(w);
    if raw[start] != Stx then Failure(BadDelimiter("payload"))
    else if |raw| < MinimumPacketSize(w) + 2 * header.payloadSize then Failure(MissingData("packet"))
    else
      var endIdx := start + 2 * header.payloadSize + 1;
      if raw[endIdx] != Etx then Failure(BadPayload(endIdx))
      else
        Success(Packet(header, ReadPayload(raw, start + 1, header.payloadSize),
                       Field(raw, endIdx + 1, SizeInChars(CrcWidth))))
  }

  /** A packet whose header fits, announces its payload length, and whose
      CRC fits 32 bits. */
  predicate PacketFits(w: Widths, p: Packet) {
    HeaderFits(w, p.header) && p.header.payloadSize == |p.payload| && p.crc < Pow256(CrcWidth)
  }

  lemma {:induction false} ReadPayloadText(raw: seq<char>, pre: seq<char>, payload: seq<byte>)
    requires pre + PayloadText(payload) <= raw
    ensures |pre| + 2 * |payload| <= |raw|
    ensures ReadPayload(raw, |pre|, |payload|) == payload
    decreases |payload|
  {
    if |payload| > 0 {
      var first := ToHex(payload[0], 2);
      assert PayloadText(payload) == first + PayloadText(payload[1..]);
      assert pre + first + PayloadText(payload[1..]) == pre + PayloadText(payload);
      ReadPayloadText(raw, pre + first, payload[1..]);
      FieldAfterPrefix(raw, pre, first);
      Pow16Twice(1);
      ToHexRoundTrip(payload[0], 2);
    }
  }

  /** A header framed by `SYN` in front and anything behind reads back
      from its place. */
  lemma HeaderInFrame(w: Widths, h: Header, raw: seq<char>, hdr: seq<char>, tail: seq<char>)
    requires HeaderFits(w, h)
    requires hdr == EncodeHeader(w, h)
    requires raw == [Syn] + hdr + tail
    ensures |raw| == 1 + HeaderSize(w) + |tail|
    ensures raw[0] == Syn
    ensures DecodeHeader(w, raw[1..1 + HeaderSize(w)]) == Success(h)
    ensures raw[1 + HeaderSize(w)..] == tail
  {
    var n := |hdr|;
    assert raw[1..1 + n] == hdr;
    assert raw[1 + n..] == tail;
    HeaderRoundTrip(w, h);
  }

  /** Where the encoder puts the header of a packet. */
  lemma EncodedHeaderPart(w: Widths, p: Packet)
    requires PacketFits(w, p)
    ensures var raw := EncodePacket(w, p);
            && raw[0] == Syn
            && DecodeHeader(w, raw[1..1 + HeaderSize(w)]) == Success(p.header)
  {
    var raw := EncodePacket(w, p);
    var hdr := EncodeHeader(w, p.header);
    var payload, crc := PayloadText(p.payload), ToHex(p.crc, SizeInChars(CrcWidth));
    PrefixOfAppends([Syn] + hdr, [Stx], payload, [Etx], crc, [Eot]);
    HeaderInFrame(w, p.header, raw, hdr, raw[1 + |hdr|..]);
  }

  /** The first part of a run of appends is a prefix of it. */
  lemma PrefixOfAppends<T>(a: seq<T>, b: seq<T>, c: seq<T>, d: seq<T>, e: seq<T>, f: seq<T>)
    ensures var s := a + b + c + d + e + f;
            |a| <= |s| && s == a + s[|a|..]
  {
    var s := a + b + c + d + e + f;
    assert s == a + (b + c + d + e + f);
  }

  /** Where the encoder puts the payload and the CRC of a packet. */
  lemma EncodedPayloadPart(w: Widths, p: Packet)
    requires PacketFits(w, p)
    ensures var raw := EncodePacket(w, p);
            var start := PayloadStartOffset(w);
            var endIdx := start + 2 * |p.payload| + 1;
            && |raw| == MinimumPacketSize(w) + 2 * |p.payload|
            && ReadPayload(raw, start + 1, |p.payload|) == p.payload
            && Field(raw, endIdx + 1, SizeInChars(CrcWidth)) == p.crc
  {
    var raw := EncodePacket(w, p);
    var q2 := [Syn] + EncodeHeader(w, p.header) + [Stx];
    var q4 := q2 + PayloadText(p.payload) + [Etx];
    var crc := ToHex(p.crc, SizeInChars(CrcWidth));
    assert raw == q4 + crc + [Eot];
    assert q4 + crc <= raw;
    assert q2 + PayloadText(p.payload) <= raw;
    ReadPayloadText(raw, q2, p.payload);
    FieldReadsBack(raw, q4, p.crc, CrcWidth);
  }

  /** Decoding what the encoder writes restores the packet. */
  lemma DecodeEncode(w: Widths, p: Packet)
    requires PacketFits(w, p)
    ensures DecodePacket(w, EncodePacket(w, p)) == Success(p)
  {
    EncodedHeaderPart(w, p);
    EncodedPayloadPart(w, p);
    DecodeAccepts(w, EncodePacket(w, p), p);
  }

  /** Text with a packet's delimiters, header, payload and CRC in their
      places decodes to that packet. */
  lemma DecodeAccepts(w: Widths, raw: seq<char>, p: Packet)
    requires p.header.payloadSize == |p.payload|
    requires |raw| == MinimumPacketSize(w) + 2 * |p.payload|
    requires raw[0] == Syn && raw[PayloadStartOffset(w)] == Stx
    requires raw[PayloadStartOffset(w) + 2 * |p.payload| + 1] == Etx
    requires DecodeHeader(w, raw[1..1 + HeaderSize(w)]) == Success(p.header)
    requires ReadPayload(raw, PayloadStartOffset(w) + 1, |p.payload|) == p.payload
    requires Field(raw, PayloadStartOffset(w) + 2 * |p.payload| + 2, SizeInChars(CrcWidth)) == p.crc
    ensures DecodePacket(w, raw) == Success(p)
  {
    FrameAccepts(w, raw, p);
    DecodeAfterHeader(w, raw, p.header);
  }

  /** Once the header decodes, the checked decoder goes on to the rest. */
  lemma DecodeAfterHeader(w: Widths, raw: seq<char>, h: Header)
    requires |raw| >= MinimumPacketSize(w) && raw[0] == Syn
    requires DecodeHeader(w, raw[1..1 + HeaderSize(w)]) == Success(h)
    ensures DecodePacket(w, raw) == DecodeFrame(w, raw, h)
  {
  }

  /** The part after the header of such text decodes to the payload and
      CRC. */
  lemma FrameAccepts(w: Widths, raw: seq<char>, p: Packet)
    requires p.header.payloadSize == |p.payload|
    requires |raw| == MinimumPacketSize(w) + 2 * |p.payload|
    requires raw[PayloadStartOffset(w)] == Stx
    requires raw[PayloadStartOffset(w) + 2 * |p.payload| + 1] == Etx
    requires ReadPayload(raw, PayloadStartOffset(w) + 1, |p.payload|) == p.payload
    requires Field(raw, PayloadStartOffset(w) + 2 * |p.payload| + 2, SizeInChars(CrcWidth)) == p.crc
    ensures DecodeFrame(w, raw, p.header) == Success(p)
  {
    var start := PayloadStartOffset(w);
    var endIdx := start + 2 * p.header.payloadSize + 1;
    assert raw[start] == Stx;
    assert raw[endIdx] == Etx;
    assert DecodeFrame(w, raw, p.header).Success?;
    assert DecodeFrame(w, raw, p.header).value.payload == p.payload;
    assert DecodeFrame(w, raw, p.header).value.crc == p.crc;
  }

  /** A packet with an empty payload encodes to exactly the minimum size,
      which the as-written decoder rejects as missing data. */
  lemma EmptyPayloadRejectedAsWritten(w: Widths, p: Packet)
    requires PacketFits(w, p) && p.payload == []
    ensures |EncodePacket(w, p)| == MinimumPacketSize(w)
    ensures DecodePacketAsWritten(w, EncodePacket(w, p)) == Failure(MissingData("packet"))
    ensures DecodePacket(w, EncodePacket(w, p)) == Success(p)
  {
    DecodeEncode(w, p);
  }

  /** A packet one character longer than the minimum, announcing a payload
      of 6 bytes, makes the as-written decoder index past its end looking
      for `ETX`. */
  lemma ShortPacketReadsPastEndAsWritten(w: Widths, h: Header)
    requires HeaderFits(w, h) && h.payloadSize == 6
    ensures var raw := [Syn] + EncodeHeader(w, h) + [Stx] + seq(11, _ => '0');
            && |raw| == MinimumPacketSize(w) + 1
            && DecodePacketAsWritten(w, raw) == Failure(ReadPastEnd)
            && DecodePacket(w, raw) == Failure(MissingData("packet"))
  {
    var hdr := EncodeHeader(w, h);
    var raw := [Syn] + hdr + [Stx] + seq(11, _ => '0');
    ShortPacketParts(w, h, raw);
    ShortPacketReadsPast(w, h, raw);
    ShortPacketTooShort(w, h, raw);
  }

  /** The as-written decoder looks for `ETX` past the end of a text one
      character longer than an empty packet whose header announces 6
      payload bytes. */
  lemma ShortPacketReadsPast(w: Widths, h: Header, raw: seq<char>)
    requires h.payloadSize == 6
    requires |raw| == MinimumPacketSize(w) + 1
    requires raw[0] == Syn && raw[PayloadStartOffset(w)] == Stx
    requires DecodeHeader(w, raw[1..1 + HeaderSize(w)]) == Success(h)
    ensures DecodePacketAsWritten(w, raw) == Failure(ReadPastEnd)
  {
    assert DecodePacketAsWritten(w, raw) == DecodeFrameAsWritten(w, raw, h);
    assert PayloadStartOffset(w) + 2 * 6 + 1 >= |raw|;
  }

  /** The checked decoder finds that text too short for its payload. */
  lemma ShortPacketTooShort(w: Widths, h: Header, raw: seq<char>)
    requires h.payloadSize == 6
    requires |raw| == MinimumPacketSize(w) + 1
    requires raw[0] == Syn && raw[PayloadStartOffset(w)] == Stx
    requires DecodeHeader(w, raw[1..1 + HeaderSize(w)]) == Success(h)
    ensures DecodePacket(w, raw) == Failure(MissingData("packet"))
  {
    DecodeAfterHeader(w, raw, h);
    assert |raw| < MinimumPacketSize(w) + 2 * 6;
  }

  lemma ShortPacketParts(w: Widths, h: Header, raw: seq<char>)
    requires HeaderFits(w, h)
    requires raw == [Syn] + EncodeHeader(w, h) + [Stx] + seq(11, _ => '0')
    ensures |raw| == MinimumPacketSize(w) + 1
    ensures raw[0] == Syn && raw[PayloadStartOffset(w)] == Stx
    ensures DecodeHeader(w, raw[1..1 + HeaderSize(w)]) == Success(h)
  {
    var hdr := EncodeHeader(w, h);
    var tail := [Stx] + seq(11, _ => '0');
    assert raw == [Syn] + hdr + tail;
    HeaderInFrame(w, h, raw, hdr, tail);
    assert raw[PayloadStartOffset(w)] == tail[0];
  }
}

=== FILE: serializer.dfy ===
/** The generic big-endian serializer and deserializer. A value is an
    arithmetic or enum scalar (its width in bytes and its bit pattern), a
    container (any type with `size()`, `begin()` and `end()`, which includes
    `std::string` and `std::array`), or an aggregate (a struct, walked field
    by field in declaration order). Floating-point scalars are their bit
    patterns. */
module Serialization {
  import opened Bytes
  import opened Wrappers

  datatype Value =
    | Scalar(width: nat, bits: nat)
    | Container(elems: seq<Value>)
    | Aggregate(fields: seq<Value>)

  /** The bytes of a value: a scalar most significant byte first, a
      container as its element count truncated to 16 bits followed by its
      elements, an aggregate as its fields one after the other. */
  function Serialize(v: Value): (r: seq<byte>)
    ensures v.Scalar? ==> |r| == v.width
    ensures v.Scalar? && v.bits < Pow256(v.width) ==> FromBigEndian(r) == v.bits
    ensures v.Container? ==> |r| >= 2 && FromBigEndian(r[..2]) == |v.elems| % 0x1_0000
    decreases v
  {
    match v
    case Scalar(w, bits) =>
      if bits < Pow256(w) then BigEndianRoundTrip(bits, w); BigEndian(bits, w)
      else BigEndian(bits, w)
    case Container(elems) =>
      var count := BigEndian(|elems| % 0x1_0000, 2);
      BigEndianRoundTrip(|elems| % 0x1_0000, 2);
      assert (count + SerializeAll(elems))[..2] == count;
      count + SerializeAll(elems)
    case Aggregate(fields) => SerializeAll(fields)
  }

  function SerializeAll(vs: seq<Value>): seq<byte>
    decreases vs
  {
    if |vs| == 0 then [] else Serialize(vs[0]) + SerializeAll(vs[1..])
  }

  /** The number of bytes a value takes, computed from its structure. */
  function SerialSize(v: Value): nat
    decreases v
  {
    match v
    case Scalar(w, _) => w
    case Container(elems) => 2 + SerialSizeAll(elems)
    case Aggregate(fields) => SerialSizeAll(fields)
  }

  function SerialSizeAll(vs: seq<Value>): nat
    decreases vs
  {
    if |vs| == 0 then 0 else SerialSize(vs[0]) + SerialSizeAll(vs[1..])
  }

  lemma {:induction false} SerializeLength(v: Value)
    ensures |Serialize(v)| == SerialSize(v)
    decreases v
  {
    match v
    case Scalar(_, _) =>
    case Container(elems) => SerializeAllLength(elems);
    case Aggregate(fields) => SerializeAllLength(fields);
  }

  lemma {:induction false} SerializeAllLength(vs: seq<Value>)
    ensures |SerializeAll(vs)| == SerialSizeAll(vs)
    decreases vs
  {
    if |vs| > 0 {
      SerializeLength(vs[0]);
      SerializeAllLength(vs[1..]);
    }
  }

  /** A scalar takes exactly its width, big-endian. */
  lemma ScalarLayout(w: nat, bits: nat)
    requires bits < Pow256(w)
    ensures |Serialize(Scalar(w, bits))| == w
    ensures FromBigEndian(Serialize(Scalar(w, bits))) == bits
  {
    BigEndianRoundTrip(bits, w);
  }

  /** A container of `n` scalars of width `w` takes `2 + n * w` bytes, and
      starts with its count. */
  lemma {:induction false} ScalarContainerSize(elems: seq<Value>, w: nat)
    requires forall i :: 0 <= i < |elems| ==> elems[i].Scalar? && elems[i].width == w
    requires |elems| < 0x1_0000
    ensures |Serialize(Container(elems))| == 2 + |elems| * w
    ensures FromBigEndian(Serialize(Container(elems))[..2]) == |elems|
  {
    ScalarSizeAll(elems, w);
    SerializeAllLength(elems);
    BigEndianRoundTrip(|elems|, 2);
  }

  lemma {:induction false} ScalarSizeAll(elems: seq<Value>, w: nat)
    requires forall i :: 0 <= i < |elems| ==> elems[i].Scalar? && elems[i].width == w
    ensures SerialSizeAll(elems) == |elems| * w
  {
    if |elems| > 0 {
      ScalarSizeAll(elems[1..], w);
    }
  }

  // ---------------------------------------------------------------------
  // Deserializing
  // ---------------------------------------------------------------------

  /** What a deserializing call is asked to produce: an integral type of a
      given width, `bool`, `float` or `double`, an array-like type of a fixed
      number of elements, or an aggregate. A `bool` is an integral type of
      one byte, but the integral overload casts each byte it reads to the
      requested type, and the cast to `bool` turns every non-zero byte
      into 1. */
  datatype Shape =
    | Integral(width: nat)
    | Boolean
    | Floating(isDouble: bool)
    | ArrayLike(elem: Shape, count: nat)
    | Struct(fieldShapes: seq<Shape>)

  /** `sizeof` of a shape, without padding. */
  function SizeOf(s: Shape): nat
    decreases s
  {
    match s
    case Integral(w) => w
    case Boolean => 1
    case Floating(isDouble) => if isDouble then 8 else 4
    case ArrayLike(e, n) => n * SizeOf(e)
    case Struct(fs) => SizeOfAll(fs)
  }

  function SizeOfAll(fs: seq<Shape>): nat
    decreases fs
  {
    if |fs| == 0 then 0 else SizeOf(fs[0]) + SizeOfAll(fs[1..])
  }

  /** How a read goes wrong. `ReachedEnd` and `NotEnoughData` are the
      deserializer's assertions: an element or field is asked for with no
      bytes left, or an integral value with fewer bytes than its width.
      `Unterminated` is a call that never returns: a `float` or `double`
      asked for by name cannot select the overloads written for them, whose
      first template parameter is the iterator type, so it reaches the
      aggregate overload, which reflects the scalar as a single field of its
      own type and asks for that field again from the same position. */
  datatype DeserializeError = ReachedEnd | NotEnoughData | Unterminated

  /** Whether reading the shape asks for a `float` or `double` somewhere. */
  predicate HasFloating(s: Shape)
    decreases s
  {
    match s
    case Integral(_) => false
    case Boolean => false
    case Floating(_) => true
    case ArrayLike(e, n) => n > 0 && HasFloating(e)
    case Struct(fs) => exists i :: 0 <= i < |fs| && HasFloating(fs[i])
  }

  /** Reads a value of the given shape from the front of `bytes`. An
      array-like value or an aggregate is read element by element, each
      next one `sizeof` its predecessor further on. Trailing bytes are
      ignored. */
  function Deserialize(s: Shape, bytes: seq<byte>): (r: Result<Value, DeserializeError>)
    ensures r.Success? ==> SizeOf(s) <= |bytes|
    ensures r.Success? && s.Integral? ==> r.value == Scalar(s.width, FromBigEndian(bytes[..s.width]))
    ensures s.Integral? ==> (r.Failure? <==> |bytes| < s.width)
    ensures s.Boolean? ==> (r.Failure? <==> |bytes| == 0)
    ensures r.Success? && s.Boolean? ==> r.value.Scalar? && r.value.width == 1 && r.value.bits <= 1
    ensures r.Success? && s.Boolean? ==> (r.value.bits == 0 <==> bytes[0] == 0)
    ensures r.Success? ==> !HasFloating(s)
    ensures s.Floating? ==> r == Failure(if |bytes| == 0 then ReachedEnd else Unterminated)
    decreases s, 0
  {
    match s
    case Integral(w) =>
      if |bytes| < w then Failure(NotEnoughData)
      else Success(Scalar(w, FromBigEndian(bytes[..w])))
    case Boolean =>
      if |bytes| < 1 then Failure(NotEnoughData)
      else Success(Scalar(1, if bytes[0] == 0 then 0 else 1))
    case Floating(_) =>
      if |bytes| == 0 then Failure(ReachedEnd) else Failure(Unterminated)
    case ArrayLike(e, n) =>
      var elems :- DeserializeRepeated(e, n, bytes);
      Success(Container(elems))
    case Struct(fs) =>
      var fields :- DeserializeFields(fs, bytes);
      Success(Aggregate(fields))
  }

  function DeserializeRepeated(e: Shape, n: nat, bytes: seq<byte>): (r: Result<seq<Value>, DeserializeError>)
    ensures r.Success? ==> n * SizeOf(e) <= |bytes| && |r.value| == n
    ensures r.Success? && n > 0 ==> !HasFloating(e)
    decreases e, n
  {
    if n == 0 then Success([])
    else if |bytes| == 0 then Failure(ReachedEnd)
    else
      var first :- Deserialize(e, bytes);
      var rest :- DeserializeRepeated(e, n - 1, bytes[SizeOf(e)..]);
      Success([first] + rest)
  }

  function DeserializeFields(fs: seq<Shape>, bytes: seq<byte>): (r: Result<seq<Value>, DeserializeError>)
    ensures r.Success? ==> SizeOfAll(fs) <= |bytes| && |r.value| == |fs|
    ensures r.Success? ==> forall i :: 0 <= i < |fs| ==> !HasFloating(fs[i])
    decreases fs, 0
  {
    if |fs| == 0 then Success([])
    else if |bytes| == 0 then Failure(ReachedEnd)
    else
      var first :- Deserialize(fs[0], bytes);
      var rest :- DeserializeFields(fs[1..], bytes[SizeOf(fs[0])..]);
      assert forall i :: 1 <= i < |fs| ==> fs[i] == fs[1..][i - 1];
      Success([first] + rest)
  }

  /** A `float` or `double` is never read, on its own or as a field after
      an integral one: the call does not return. */
  lemma FloatingNeverReturns(isDouble: bool, bytes: seq<byte>)
    requires |bytes| >= 2
    ensures Deserialize(Floating(isDouble), bytes) == Failure(Unterminated)
    ensures Deserialize(Struct([Integral(1), Floating(isDouble)]), bytes) == Failure(Unterminated)
  {
    var fs := [Integral(1), Floating(isDouble)];
    assert fs[1..] == [Floating(isDouble)];
    assert Deserialize(Integral(1), bytes).Success?;
    assert Deserialize(Floating(isDouble), bytes[1..]) == Failure(Unterminated);
    assert DeserializeFields(fs[1..], bytes[1..]) == Failure(Unterminated);
    assert DeserializeFields(fs, bytes) == Failure(Unterminated);
  }

  /** A `bool` reads like a one-byte integral exactly when the byte is 0 or
      1; any larger byte reads as 1, where the one-byte integral keeps it. */
  lemma BooleanAsIntegral(bytes: seq<byte>)
    requires |bytes| >= 1
    ensures bytes[0] <= 1 <==> Deserialize(Boolean, bytes) == Deserialize(Integral(1), bytes)
    ensures bytes[0] > 1 ==> Deserialize(Boolean, bytes) == Success(Scalar(1, 1))
  {
  }

  /** A `bool` written by the serializer, as the single byte 0 or 1, is read
      back as itself, whatever follows it. */
  lemma BooleanRoundTrip(b: bool, trailing: seq<byte>)
    ensures var bits := if b then 1 else 0;
            Deserialize(Boolean, Serialize(Scalar(1, bits)) + trailing) == Success(Scalar(1, bits))
  {
  }

  // ---------------------------------------------------------------------
  // Round trip
  // ---------------------------------------------------------------------

  /** The values the deserializer can read back: scalars of at least one
      byte whose bits fit, nested in aggregates of at least one field.
      Containers are excluded, because the deserializer reads no count; an
      empty aggregate is excluded, because it takes no bytes and the
      deserializer asserts that bytes are left before each field. */
  predicate Readable(v: Value)
    decreases v
  {
    match v
    case Scalar(w, bits) => w >= 1 && bits < Pow256(w)
    case Container(_) => false
    case Aggregate(fields) =>
      |fields| >= 1 && forall i :: 0 <= i < |fields| ==> Readable(fields[i])
  }

  /** The shape a readable value has. */
  function ShapeOf(v: Value): Shape
    requires Readable(v)
    decreases v
  {
    match v
    case Scalar(w, _) => Integral(w)
    case Aggregate(fields) => Struct(seq(|fields|, i requires 0 <= i < |fields| => ShapeOf(fields[i])))
  }

  lemma {:induction false} ShapeSize(v: Value)
    requires Readable(v)
    ensures SizeOf(ShapeOf(v)) == SerialSize(v)
    decreases v
  {
    if v.Aggregate? {
      ShapeSizeAll(v.fields);
    }
  }

  lemma {:induction false} ShapeSizeAll(vs: seq<Value>)
    requires forall i :: 0 <= i < |vs| ==> Readable(vs[i])
    ensures SizeOfAll(seq(|vs|, i requires 0 <= i < |vs| => ShapeOf(vs[i]))) == SerialSizeAll(vs)
    decreases vs
  {
    if |vs| > 0 {
      var shapes := seq(|vs|, i requires 0 <= i < |vs| => ShapeOf(vs[i]));
      var tail := seq(|vs| - 1, i requires 0 <= i < |vs| - 1 => ShapeOf(vs[1..][i]));
      assert shapes[1..] == tail;
      ShapeSize(vs[0]);
      ShapeSizeAll(vs[1..]);
    }
  }

  /** Reading back what the serializer wrote, with anything after it,
      restores the value. */
  lemma {:induction false} DeserializeSerialize(v: Value, trailing: seq<byte>)
    requires Readable(v)
    ensures Deserialize(ShapeOf(v), Serialize(v) + trailing) == Success(v)
    decreases v
  {
    match v
    case Scalar(w, bits) =>
      var s := Serialize(v) + trailing;
      assert s[..w] == Serialize(v);
      BigEndianRoundTrip(bits, w);
    case Aggregate(fields) =>
      DeserializeSerializeAll(fields, trailing);
  }

  lemma {:induction false} DeserializeSerializeAll(vs: seq<Value>, trailing: seq<byte>)
    requires forall i :: 0 <= i < |vs| ==> Readable(vs[i])
    ensures DeserializeFields(seq(|vs|, i requires 0 <= i < |vs| => ShapeOf(vs[i])), SerializeAll(vs) + trailing)
         == Success(vs)
    decreases vs
  {
    var shapes := seq(|vs|, i requires 0 <= i < |vs| => ShapeOf(vs[i]));
    if |vs| > 0 {
      var tail := seq(|vs| - 1, i requires 0 <= i < |vs| - 1 => ShapeOf(vs[1..][i]));
      assert shapes[1..] == tail;
      var bytes := SerializeAll(vs) + trailing;
      var first := Serialize(vs[0]);
      var restBytes := SerializeAll(vs[1..]) + trailing;
      assert bytes == first + restBytes;
      SerializeLength(vs[0]);
      ShapeSize(vs[0]);
      ReadableNonEmpty(vs[0]);
      DeserializeSerialize(vs[0], restBytes);
      assert bytes[SizeOf(shapes[0])..] == restBytes;
      DeserializeSerializeAll(vs[1..], trailing);
      assert shapes[0] == ShapeOf(vs[0]);
      assert Deserialize(shapes[0], bytes) == Success(vs[0]);
      assert DeserializeFields(shapes[1..], restBytes) == Success(vs[1..]);
      assert [vs[0]] + vs[1..] == vs;
    }
  }

  /** Every readable value takes at least one byte. */
  lemma {:induction false} ReadableNonEmpty(v: Value)
    requires Readable(v)
    ensures |Serialize(v)| >= 1
    decreases v
  {
    SerializeLength(v);
    if v.Aggregate? {
      ReadableNonEmpty(v.fields[0]);
      SerializeLength(v.fields[0]);
      SerializeAllLength(v.fields[1..]);
    }
  }

  /** A fixed array written by the serializer does not read back as the same
      array: the serializer writes the 16-bit count first and the
      deserializer takes it for the first element. */
  lemma ArrayCountReadAsFirstElement(elems: seq<Value>)
    requires 1 <= |elems| < 0x1_0000
    requires forall i :: 0 <= i < |elems| ==> elems[i].Scalar? && elems[i].width == 2
    ensures var r := Deserialize(ArrayLike(Integral(2), |elems|), Serialize(Container(elems)));
            r.Success? && r.value.elems[0] == Scalar(2, |elems|)
  {
    var bytes := Serialize(Container(elems));
    ScalarContainerSize(elems, 2);
    var r := DeserializeRepeated(Integral(2), |elems|, bytes);
    if |elems| > 1 {
      ArrayReadsAll(|elems| - 1, bytes[2..]);
    }
  }

  lemma {:induction false} ArrayReadsAll(n: nat, bytes: seq<byte>)
    requires |bytes| >= 2 * n
    ensures DeserializeRepeated(Integral(2), n, bytes).Success?
  {
    if n > 0 {
      ArrayReadsAll(n - 1, bytes[2..]);
    }
  }
}

=== FILE: slcan_commands.dfy ===
/** The SLCAN command letters. Each command is identified on the wire by
    one ASCII letter; `Invalid` stands for the byte 0 and every byte that is
    not a command letter. */
module SlcanCommands {

  datatype Command =
    | OpenChannel
    | CloseChannel
    | SetBitRate
    | SetMode
    | SetAutoRetry
    | GetVersion
    | ReportError
    | TransmitDataFrame
    | TransmitExtDataFrame
    | TransmitRemoteFrame
    | TransmitExtRemoteFrame
    | Invalid

  /** The byte a command is stored as. */
  function CommandChar(cmd: Command): char {
    match cmd
    case OpenChannel => 'O'
    case CloseChannel => 'C'
    case SetBitRate => 'S'
    case SetMode => 'M'
    case SetAutoRetry => 'A'
    case GetVersion => 'V'
    case ReportError => 'E'
    case TransmitDataFrame => 't'
    case TransmitExtDataFrame => 'T'
    case TransmitRemoteFrame => 'r'
    case TransmitExtRemoteFrame => 'R'
    case Invalid => 0 as char
  }

  predicate IsCommandLetter(c: char) {
    c in {'O', 'C', 'S', 'M', 'A', 'V', 'E', 't', 'T', 'r', 'R'}
  }

  /** The command a received byte names. */
  function CommandFromChar(c: char): (cmd: Command)
    ensures cmd == Invalid <==> !IsCommandLetter(c)
    ensures cmd != Invalid ==> CommandChar(cmd) == c
  {
    match c
    case 'O' => OpenChannel
    case 'C' => CloseChannel
    case 'S' => SetBitRate
    case 'M' => SetMode
    case 'A' => SetAutoRetry
    case 'V' => GetVersion
    case 'E' => ReportError
    case 't' => TransmitDataFrame
    case 'T' => TransmitExtDataFrame
    case 'r' => TransmitRemoteFrame
    case 'R' => TransmitExtRemoteFrame
    case _ => Invalid
  }

  /** Every command is recovered from its letter; `Invalid` is recovered
      from its byte 0 as well. */
  lemma CommandCharRoundTrip(cmd: Command)
    ensures CommandFromChar(CommandChar(cmd)) == cmd
    ensures cmd != Invalid ==> IsCommandLetter(CommandChar(cmd))
  {
  }

  /** True for the four frame-carrying commands. */
  function CommandIsTransmit(cmd: Command): (r: bool)
    ensures r ==> CommandChar(cmd) in {'t', 'T', 'r', 'R'} && CommandFromChar(CommandChar(cmd)) == cmd
    ensures !r ==> CommandChar(cmd) !in {'t', 'T', 'r', 'R'}
  {
    match cmd
    case TransmitDataFrame | TransmitExtDataFrame
      | TransmitRemoteFrame | TransmitExtRemoteFrame => true
    case _ => false
  }

  /** A received byte names a transmit command exactly when it is one of
      `t`, `T`, `r`, `R`. */
  lemma TransmitLetters(c: char)
    ensures CommandIsTransmit(CommandFromChar(c)) <==> c in {'t', 'T', 'r', 'R'}
  {
  }

  /** The display name of a command. */
  function CommandToStr(cmd: Command): (s: string)
    ensures |s| > 0
    ensures s == "Invalid" <==> cmd == Invalid
  {
    match cmd
    case OpenChannel => "Open Channel"
    case CloseChannel => "Close Channel"
    case SetBitRate => "Set Bit Rate"
    case SetMode => "Set Mode"
    case SetAutoRetry => "Set Auto Retry"
    case GetVersion => "Get Version"
    case ReportError => "Report Error"
    case TransmitDataFrame => "Transmit Data Frame"
    case TransmitExtDataFrame => "Transmit Extended Data Frame"
    case TransmitRemoteFrame => "Transmit Remote Frame"
    case TransmitExtRemoteFrame => "Transmit Extended Remote Frame"
    case Invalid => "Invalid"
  }

  /** Distinct commands have distinct names. */
  lemma CommandToStrInjective(a: Command, b: Command)
    requires CommandToStr(a) == CommandToStr(b)
    ensures a == b
  {
  }
}

=== FILE: slcan_packet.dfy ===
/** SLCAN packets: the ASCII framing of CAN frames and adapter commands on a
    serial line. A frame is `t`/`T`/`r`/`R`, the identifier in 3 (standard)
    or 8 (extended) hex digits, then for data frames one DLC digit and two
    digits per data byte, then `\r`. Setting commands (`S`, `M`, `A`) carry
    one digit. The C++ keeps the setting and the frame in one union; here
    they are two fields, and the one a command does not use is zero. */
module SlcanPacket {
  import opened Bytes
  import opened Hex
  import opened Wrappers
  import opened SlcanCommands

  /** Size of the parser's work buffer. */
  const Mtu: nat := 30
  const StdIdLen: nat := 3
  const ExtIdLen: nat := 8
  const MaxDataLen: nat := 8

  /** A CAN frame. The C++ keeps a DLC and an 8-byte array; here the data is
      exactly the first DLC bytes, which is all any operation reads. */
  datatype CanPacket = CanPacket(id: nat, isExtended: bool, isRemote: bool, data: seq<byte>)

  const NoFrame := CanPacket(0, false, false, [])

  datatype Packet = Packet(command: Command, setting: nat, frame: CanPacket)

  const InvalidPacket := Packet(Invalid, 0, NoFrame)

  predicate IsExtendedCommand(cmd: Command) {
    cmd == TransmitExtDataFrame || cmd == TransmitExtRemoteFrame
  }

  predicate IsRemoteCommand(cmd: Command) {
    cmd == TransmitRemoteFrame || cmd == TransmitExtRemoteFrame
  }

  predicate IsSettingCommand(cmd: Command) {
    cmd == SetBitRate || cmd == SetMode || cmd == SetAutoRetry
  }

  function IdLen(isExtended: bool): nat {
    if isExtended then ExtIdLen else StdIdLen
  }

  /** The transmit command for a frame of the given kind. */
  function CommandFromHeader(isExtended: bool, isRemote: bool): (cmd: Command)
    ensures CommandIsTransmit(cmd)
    ensures IsExtendedCommand(cmd) == isExtended
    ensures IsRemoteCommand(cmd) == isRemote
  {
    if !isExtended && !isRemote then TransmitDataFrame
    else if isExtended && !isRemote then TransmitExtDataFrame
    else if !isExtended && isRemote then TransmitRemoteFrame
    else TransmitExtRemoteFrame
  }

  /** The four transmit commands are exactly the images of the four kinds. */
  lemma CommandFromHeaderOnto(cmd: Command)
    requires CommandIsTransmit(cmd)
    ensures CommandFromHeader(IsExtendedCommand(cmd), IsRemoteCommand(cmd)) == cmd
  {
  }

  // ---------------------------------------------------------------------
  // Parsing (serial -> CAN)
  // ---------------------------------------------------------------------

  /** The characters after the command letter, without a final `\r`. */
  function Body(raw: seq<char>): (b: seq<char>)
    requires |raw| >= 2
    ensures raw[|raw| - 1] == '\r' ==> b == raw[1..|raw| - 1]
    ensures raw[|raw| - 1] != '\r' ==> b == raw[1..]
  {
    if raw[|raw| - 1] == '\r' then raw[1..|raw| - 1] else raw[1..]
  }

  predicate AllHex(s: seq<char>) {
    forall i :: 0 <= i < |s| ==> IsHexDigit(s[i])
  }

  /** The frame of a transmit command, read from an all-hex body, or `None`
      when the body is too short for the identifier, lacks the DLC digit,
      has a DLC above 8, or has fewer than two digits per data byte. Digits
      after the data are ignored. */
  function ParseFrame(cmd: Command, body: seq<char>): (r: Option<CanPacket>)
    requires CommandIsTransmit(cmd)
    ensures r.Some? <==>
      |body| >= IdLen(IsExtendedCommand(cmd)) &&
      (IsRemoteCommand(cmd) ||
        (var n := IdLen(IsExtendedCommand(cmd));
         |body| > n && NibbleValue(body[n]) <= MaxDataLen
         && 2 * NibbleValue(body[n]) <= |body| - n - 1))
    ensures r.Some? ==>
      var n := IdLen(IsExtendedCommand(cmd));
      && r.value.id == FromHex(body[..n])
      && r.value.isExtended == IsExtendedCommand(cmd)
      && r.value.isRemote == IsRemoteCommand(cmd)
      && (r.value.isRemote ==> r.value.data == [])
      && (!r.value.isRemote ==>
            |r.value.data| == NibbleValue(body[n]) &&
            forall i :: 0 <= i < |r.value.data| ==>
              r.value.data[i] == NibbleValue(body[n + 1 + 2 * i]) * 16 + NibbleValue(body[n + 2 + 2 * i]))
  {
    var isExtended := IsExtendedCommand(cmd);
    var isRemote := IsRemoteCommand(cmd);
    var idLen := IdLen(isExtended);
    if |body| < idLen then None
    else
      var id := FromHex(body[..idLen]);
      if isRemote then Some(CanPacket(id, isExtended, true, []))
      else
        var rest := body[idLen..];
        if |rest| == 0 then None
        else
          var dataLen := NibbleValue(rest[0]);
          if dataLen > MaxDataLen then None
          else if dataLen * 2 > |rest| - 1 then None
          else
            Some(CanPacket(id, isExtended, false, ReadData(rest[1..], dataLen)))
  }

  /** The first `k` bytes written as digit pairs at the start of `digits`. */
  function ReadData(digits: seq<char>, k: nat): (r: seq<byte>)
    requires 2 * k <= |digits|
    ensures |r| == k
    ensures forall i :: 0 <= i < k ==> r[i] == DataByte(digits[2 * i], digits[2 * i + 1])
  {
    if k == 0 then []
    else ReadData(digits, k - 1) + [DataByte(digits[2 * k - 2], digits[2 * k - 1])]
  }

  /** A data byte from its high and low digits. */
  function DataByte(high: char, low: char): (b: byte)
    ensures b == FromHex([high, low])
  {
    assert [high, low][..1] == [high];
    NibbleValue(high) * 16 + NibbleValue(low)
  }

  /** The packet a received line describes, with the setting character read
      right after the command letter. `settingFromChar` stands for the
      bit-rate, mode and auto-retransmit conversions of the setting commands,
      which are not part of this model. A packet the parser rejects is
      `InvalidPacket`; the C++ leaves the fields it had already filled in. */
  function Parse(raw: seq<char>, settingFromChar: char -> nat): (p: Packet)
    requires |raw| >= 2
    requires |Body(raw)| <= Mtu
    ensures !IsCommandLetter(raw[0]) ==> p == InvalidPacket
    ensures !AllHex(Body(raw)) ==> p == InvalidPacket
    ensures p.command == Invalid || p.command == CommandFromChar(raw[0])
    ensures var cmd := CommandFromChar(raw[0]);
            p == InvalidPacket <==>
              (!IsCommandLetter(raw[0]) || !AllHex(Body(raw))
               || (IsSettingCommand(cmd) && |Body(raw)| == 0)
               || (CommandIsTransmit(cmd) && ParseFrame(cmd, Body(raw)).None?))
    ensures p != InvalidPacket ==> p.command == CommandFromChar(raw[0])
    ensures CommandIsTransmit(p.command) ==> ParseFrame(p.command, Body(raw)) == Some(p.frame)
    ensures IsSettingCommand(p.command) ==> |Body(raw)| >= 1 && p.setting == settingFromChar(raw[1])
    ensures p != InvalidPacket && !IsSettingCommand(p.command) && !CommandIsTransmit(p.command) ==>
              p.setting == 0 && p.frame == NoFrame
  {
    var cmd := CommandFromChar(raw[0]);
    var body := Body(raw);
    if cmd == Invalid || !AllHex(body) then InvalidPacket
    else if IsSettingCommand(cmd) then
      if |body| == 0 then InvalidPacket
      else Packet(cmd, settingFromChar(body[0]), NoFrame)
    else if CommandIsTransmit(cmd) then
      match ParseFrame(cmd, body)
      case None => InvalidPacket
      case Some(frame) => Packet(cmd, 0, frame)
    else Packet(cmd, 0, NoFrame)
  }

  /** The character the C++ parser hands to the setting conversion: it
      indexes the line after dropping the command letter, so its `data[1]`
      is the character two places after the command, or a read past the end
      of a two-character line. */
  function SettingCharAsWritten(raw: seq<char>): (c: Option<char>)
    requires |raw| >= 2
    ensures c.Some? <==> |raw| >= 3
    ensures c.Some? ==> c.value == raw[2]
  {
    if |raw| >= 3 then Some(raw[2]) else None
  }

  // ---------------------------------------------------------------------
  // Serialising (CAN -> serial)
  // ---------------------------------------------------------------------

  /** One value as one character: a nibble becomes its upper-case digit,
      anything larger is written as the raw byte. */
  function AddToBuff(val: byte): (c: char)
    ensures val < 16 ==> c == HexDigit(val)
    ensures val >= 16 ==> c as int == val
  {
    if val <= 9 then ('0' as int + val) as char
    else if val <= 15 then ('A' as int + val - 10) as char
    else val as char
  }

  /** Two characters per data byte, high nibble first. */
  function DataDigits(data: seq<byte>): (s: seq<char>)
    ensures |s| == 2 * |data|
    ensures forall i :: 0 <= i < |data| ==>
      s[2 * i] == HexDigit(data[i] / 16) && s[2 * i + 1] == HexDigit(data[i] % 16)
  {
    if |data| == 0 then []
    else [AddToBuff(data[0] / 16), AddToBuff(data[0] % 16)] + DataDigits(data[1..])
  }

  /** A packet the C++ can hold: the DLC and the setting are bytes. */
  predicate Representable(p: Packet) {
    |p.frame.data| < 256 && p.setting < 256
  }

  /** The characters `toSerial` writes for a packet, terminator included. */
  function SerialText(p: Packet): (s: seq<char>)
    requires Representable(p)
    ensures |s| >= 2
    ensures s[0] == CommandChar(p.command) && s[|s| - 1] == '\r'
  {
    var payload :=
      match p.command
      case SetBitRate | SetMode | SetAutoRetry => [AddToBuff(p.setting)]
      case TransmitDataFrame | TransmitExtDataFrame =>
        ToHex(p.frame.id, IdLen(IsExtendedCommand(p.command)))
          + [AddToBuff(|p.frame.data|)] + DataDigits(p.frame.data)
      case TransmitRemoteFrame | TransmitExtRemoteFrame =>
        ToHex(p.frame.id, IdLen(IsExtendedCommand(p.command)))
      case _ => [];
    [CommandChar(p.command)] + payload + ['\r']
  }

  /** The number of characters a packet needs on the wire, as the C++
      computes it: nothing for an `Invalid` packet. */
  function SizeOfSerialPacketAsWritten(p: Packet): (n: nat)
    ensures p.command != Invalid ==> n == SizeOfSerialPacket(p)
    ensures p.command == Invalid ==> n == 0
  {
    if p.command == Invalid then 0 else SizeOfSerialPacket(p)
  }

  /** The number of characters a packet needs on the wire. An `Invalid`
      packet still gets its command byte and terminator written, so it
      needs two. */
  function SizeOfSerialPacket(p: Packet): (n: nat)
    ensures n >= 2
    ensures Representable(p) ==> n == |SerialText(p)|
  {
    match p.command
    case OpenChannel | CloseChannel | GetVersion | ReportError => 2
    case SetBitRate | SetMode | SetAutoRetry => 3
    case TransmitDataFrame => 3 + StdIdLen + |p.frame.data| * 2
    case TransmitExtDataFrame => 3 + ExtIdLen + |p.frame.data| * 2
    case TransmitRemoteFrame => 1 + StdIdLen + 1
    case TransmitExtRemoteFrame => 1 + ExtIdLen + 1
    case Invalid => 2
  }

  datatype SerialError = BufferTooSmall

  /** `toSerial` as the C++ writes it: the size check uses the size that
      counts nothing for an `Invalid` packet. */
  function ToSerialAsWritten(p: Packet, capacity: nat): (r: Result<seq<char>, SerialError>)
    requires Representable(p)
    ensures r.Success? <==> capacity >= SizeOfSerialPacketAsWritten(p)
    ensures r.Success? ==> r.value == SerialText(p)
  {
    if capacity < SizeOfSerialPacketAsWritten(p) then Failure(BufferTooSmall)
    else Success(SerialText(p))
  }

  /** The characters of a packet, or `BufferTooSmall` (the C++ -1) when the
      buffer cannot hold them; what is written always fits. */
  function ToSerial(p: Packet, capacity: nat): (r: Result<seq<char>, SerialError>)
    requires Representable(p)
    ensures r.Success? <==> capacity >= SizeOfSerialPacket(p)
    ensures r.Success? ==> |r.value| == SizeOfSerialPacket(p) <= capacity
    ensures r.Success? ==> r.value[0] == CommandChar(p.command) && r.value[|r.value| - 1] == '\r'
  {
    if capacity < SizeOfSerialPacket(p) then Failure(BufferTooSmall)
    else Success(SerialText(p))
  }

  /** The as-written size check lets an `Invalid` packet write two
      characters into a buffer of none. */
  lemma InvalidPacketOverflows()
    ensures ToSerialAsWritten(InvalidPacket, 0).Success?
    ensures |ToSerialAsWritten(InvalidPacket, 0).value| == 2
    ensures ToSerial(InvalidPacket, 0).Failure?
  {
  }

  /** Every other packet passes both size checks alike. */
  lemma ToSerialAgreesOnValidCommands(p: Packet, capacity: nat)
    requires Representable(p)
    requires p.command != Invalid
    ensures ToSerial(p, capacity) == ToSerialAsWritten(p, capacity)
  {
  }

  /** The frame of a transmit packet, or `None` for any other command. */
  function ToCanPacket(p: Packet): (r: Option<CanPacket>)
    ensures r.Some? <==> CommandIsTransmit(p.command)
    ensures r.Some? ==> r.value == p.frame
  {
    if CommandIsTransmit(p.command) then Some(p.frame) else None
  }

  /** The packet carrying a CAN frame, its command chosen by the frame's
      kind. */
  function FromCanPacket(header: CanPacket): (p: Packet)
    requires |header.data| <= MaxDataLen
    ensures CommandIsTransmit(p.command)
    ensures ToCanPacket(p) == Some(header)
  {
    Packet(CommandFromHeader(header.isExtended, header.isRemote), 0, header)
  }

  /** The data-frame constructor as the C++ writes it: it records a data
      frame but tags it with a remote-frame command. */
  function DataPacketAsWritten(id: nat, extended: bool, data: seq<byte>): (p: Packet)
    requires |data| <= MaxDataLen
    ensures IsRemoteCommand(p.command) && !p.frame.isRemote
  {
    Packet(if extended then TransmitExtRemoteFrame else TransmitRemoteFrame,
           0, CanPacket(id, extended, false, data))
  }

  /** The data-frame constructor with the command chosen from the frame. */
  function DataPacket(id: nat, extended: bool, data: seq<byte>): (p: Packet)
    requires |data| <= MaxDataLen
    ensures WellFormed(p) <== id < Pow16(IdLen(extended))
    ensures !IsRemoteCommand(p.command) && p.frame.data == data
  {
    FromCanPacket(CanPacket(id, extended, false, data))
  }

  /** A remote-frame command writes no data digits, so the as-written data
      packet reaches the line without its data. */
  lemma DataPacketAsWrittenDropsData()
    ensures var p := DataPacketAsWritten(0x123, false, [0xAB]);
            SerialText(p) == ['r', '1', '2', '3', '\r']
    ensures var p := DataPacket(0x123, false, [0xAB]);
            SerialText(p) == ['t', '1', '2', '3', '1', 'A', 'B', '\r']
  {
    AsWrittenSampleText();
    CorrectedSampleText();
  }

  /** The text the as-written data packet for 0x123, [0xAB] is written as. */
  lemma AsWrittenSampleText()
    ensures SerialText(DataPacketAsWritten(0x123, false, [0xAB])) == ['r', '1', '2', '3', '\r']
  {
    var p := Packet(TransmitRemoteFrame, 0, CanPacket(0x123, false, false, [0xAB]));
    assert DataPacketAsWritten(0x123, false, [0xAB]) == p;
    SampleIdDigits();
    assert SerialText(p) == [CommandChar(TransmitRemoteFrame)] + ToHex(0x123, 3) + ['\r'];
  }

  /** The text the corrected data packet for 0x123, [0xAB] is written as. */
  lemma CorrectedSampleText()
    ensures SerialText(DataPacket(0x123, false, [0xAB])) == ['t', '1', '2', '3', '1', 'A', 'B', '\r']
  {
    var p := Packet(TransmitDataFrame, 0, CanPacket(0x123, false, false, [0xAB]));
    assert DataPacket(0x123, false, [0xAB]) == p;
    SampleIdDigits();
    SampleDataDigits();
    assert SerialText(p) == [CommandChar(TransmitDataFrame)] + ToHex(0x123, 3) + [AddToBuff(1)] + DataDigits([0xAB]) + ['\r'];
  }

  /** The digits of identifier 0x123. */
  lemma SampleIdDigits()
    ensures ToHex(0x123, 3) == ['1', '2', '3']
  {
    assert ToHex(0x1, 1) == ['1'] by {
      assert ToHex(0x1, 1) == ToHex(0, 0) + ['1'];
    }
    assert ToHex(0x12, 2) == ['1', '2'] by {
      assert ToHex(0x12, 2) == ToHex(0x1, 1) + ['2'];
    }
    assert ToHex(0x123, 3) == ToHex(0x12, 2) + ['3'];
  }

  /** The digits of data byte 0xAB. */
  lemma SampleDataDigits()
    ensures DataDigits([0xAB]) == ['A', 'B']
  {
    assert DataDigits([0xAB]) == [AddToBuff(0xA), AddToBuff(0xB)] + DataDigits([]);
  }

  // ---------------------------------------------------------------------
  // Round trip
  // ---------------------------------------------------------------------

  /** The packets `toSerial` writes in full: a real command, digits that fit
      their field, at most 8 data bytes, and no data on a remote frame. */
  predicate WellFormed(p: Packet) {
    match p.command
    case Invalid => false
    case OpenChannel | CloseChannel | GetVersion | ReportError =>
      p.setting == 0 && p.frame == NoFrame
    case SetBitRate | SetMode | SetAutoRetry =>
      p.setting < 16 && p.frame == NoFrame
    case _ =>
      && p.setting == 0
      && p.frame.isExtended == IsExtendedCommand(p.command)
      && p.frame.isRemote == IsRemoteCommand(p.command)
      && p.frame.id < Pow16(IdLen(p.frame.isExtended))
      && |p.frame.data| <= MaxDataLen
      && (p.frame.isRemote ==> p.frame.data == [])
  }

  /** Data digits read back as the data. */
  lemma {:induction false} DataDigitsRoundTrip(data: seq<byte>)
    ensures AllHex(DataDigits(data))
    ensures forall i :: 0 <= i < |data| ==>
      DataByte(DataDigits(data)[2 * i], DataDigits(data)[2 * i + 1]) == data[i]
  {
    if |data| > 0 {
      DataDigitsRoundTrip(data[1..]);
    }
    var s := DataDigits(data);
    forall i | 0 <= i < |data|
      ensures DataByte(s[2 * i], s[2 * i + 1]) == data[i]
    {
      assert s[2 * i] == HexDigit(data[i] / 16);
    }
    forall j | 0 <= j < |s|
      ensures IsHexDigit(s[j])
    {
      var i := j / 2;
      assert j == 2 * i || j == 2 * i + 1;
    }
  }

  /** A transmit frame's text: identifier digits, then for a data frame
      the DLC digit and the data digits. */
  function FrameDigits(p: Packet): seq<char>
    requires CommandIsTransmit(p.command)
    requires |p.frame.data| <= MaxDataLen
  {
    var idText := ToHex(p.frame.id, IdLen(IsExtendedCommand(p.command)));
    if IsRemoteCommand(p.command) then idText
    else idText + [HexDigit(|p.frame.data|)] + DataDigits(p.frame.data)
  }

  /** The body of a written transmit packet is its frame's digits. */
  lemma FrameDigitsAreBody(p: Packet)
    requires WellFormed(p)
    requires CommandIsTransmit(p.command)
    ensures Body(SerialText(p)) == FrameDigits(p)
  {
    var s := SerialText(p);
    assert Body(s) == s[1..|s| - 1];
  }

  /** A transmit packet's frame digits are hex and read back as its frame. */
  lemma ParseFrameDigits(p: Packet)
    requires WellFormed(p)
    requires CommandIsTransmit(p.command)
    ensures AllHex(FrameDigits(p))
    ensures ParseFrame(p.command, FrameDigits(p)) == Some(p.frame)
  {
    var n := IdLen(IsExtendedCommand(p.command));
    ToHexRoundTrip(p.frame.id, n);
    if IsRemoteCommand(p.command) {
      assert FrameDigits(p)[..n] == FrameDigits(p);
    } else {
      ParseDataFrameDigits(p.command, ToHex(p.frame.id, n), p.frame.data);
    }
  }

  /** A data frame's identifier digits, DLC digit and data digits are hex
      and read back as that frame. */
  lemma ParseDataFrameDigits(cmd: Command, idText: seq<char>, data: seq<byte>)
    requires CommandIsTransmit(cmd) && !IsRemoteCommand(cmd)
    requires |idText| == IdLen(IsExtendedCommand(cmd))
    requires AllUpperHex(idText)
    requires |data| <= MaxDataLen
    ensures AllHex(idText + [HexDigit(|data|)] + DataDigits(data))
    ensures ParseFrame(cmd, idText + [HexDigit(|data|)] + DataDigits(data))
         == Some(CanPacket(FromHex(idText), IsExtendedCommand(cmd), false, data))
  {
    var digits := DataDigits(data);
    var body := idText + [HexDigit(|data|)] + digits;
    assert AllHex(body) by {
      DataDigitsRoundTrip(data);
      FrameBodyAllHex(idText, HexDigit(|data|), digits);
    }
    ParseDataBody(cmd, idText, data, body);
  }

  /** The identifier and the data of a data frame's body read back. */
  lemma ParseDataBody(cmd: Command, idText: seq<char>, data: seq<byte>, body: seq<char>)
    requires CommandIsTransmit(cmd) && !IsRemoteCommand(cmd)
    requires |idText| == IdLen(IsExtendedCommand(cmd))
    requires |data| <= MaxDataLen
    requires body == idText + [HexDigit(|data|)] + DataDigits(data)
    ensures ParseFrame(cmd, body).Some?
    ensures ParseFrame(cmd, body).value.data == data
    ensures ParseFrame(cmd, body).value.id == FromHex(idText)
  {
    var n := |idText|;
    DlcInBody(idText, data, body);
    ParseFrameAccepts(cmd, body, n, |data|);
    var parsed := ParseFrame(cmd, body).value.data;
    forall i | 0 <= i < |data|
      ensures parsed[i] == data[i]
    {
      DataByteInBody(idText, data, body, i);
    }
  }

  /** The DLC digit of a data frame's body, and where the identifier ends. */
  lemma DlcInBody(idText: seq<char>, data: seq<byte>, body: seq<char>)
    requires |data| <= MaxDataLen
    requires body == idText + [HexDigit(|data|)] + DataDigits(data)
    ensures |body| == |idText| + 1 + 2 * |data|
    ensures body[..|idText|] == idText
    ensures NibbleValue(body[|idText|]) == |data|
  {
    assert body[..|idText|] == idText;
  }

  /** The digit pair of byte `i` of a data frame's body reads back as that
      byte. */
  lemma DataByteInBody(idText: seq<char>, data: seq<byte>, body: seq<char>, i: nat)
    requires |data| <= MaxDataLen && i < |data|
    requires body == idText + [HexDigit(|data|)] + DataDigits(data)
    ensures |idText| + 2 + 2 * i < |body|
    ensures NibbleValue(body[|idText| + 1 + 2 * i]) * 16 + NibbleValue(body[|idText| + 2 + 2 * i]) == data[i]
  {
    var digits := DataDigits(data);
    ThreeParts(idText, HexDigit(|data|), digits);
    assert body[|idText| + 1 + 2 * i] == digits[2 * i];
    assert body[|idText| + 1 + (2 * i + 1)] == digits[2 * i + 1];
  }

  /** Identifier digits, a digit and data digits make an all-hex body. */
  lemma FrameBodyAllHex(idText: seq<char>, c: char, digits: seq<char>)
    requires AllUpperHex(idText) && IsHexDigit(c) && AllHex(digits)
    ensures AllHex(idText + [c] + digits)
  {
    var body := idText + [c] + digits;
    ThreeParts(idText, c, digits);
    forall j | 0 <= j < |body|
      ensures IsHexDigit(body[j])
    {
      if j > |idText| {
        assert body[j] == digits[j - |idText| - 1];
      }
    }
  }

  /** Where the parts of `a + [c] + b` sit. */
  lemma ThreeParts<T>(a: seq<T>, c: T, b: seq<T>)
    ensures var s := a + [c] + b;
            && |s| == |a| + 1 + |b|
            && s[..|a|] == a && s[|a|] == c
            && forall j :: 0 <= j < |b| ==> s[|a| + 1 + j] == b[j]
  {
    var s := a + [c] + b;
    assert s[..|a|] == a;
  }

  /** A data frame's body with a DLC digit of `k` and room for `k` bytes is
      accepted, with `k` bytes. */
  lemma ParseFrameAccepts(cmd: Command, body: seq<char>, n: nat, k: nat)
    requires CommandIsTransmit(cmd) && !IsRemoteCommand(cmd)
    requires n == IdLen(IsExtendedCommand(cmd))
    requires k <= MaxDataLen
    requires |body| == n + 1 + 2 * k
    requires NibbleValue(body[n]) == k
    ensures ParseFrame(cmd, body).Some?
    ensures |ParseFrame(cmd, body).value.data| == k
    ensures forall i :: 0 <= i < k ==> ParseFrame(cmd, body).value.data[i]
                                       == NibbleValue(body[n + 1 + 2 * i]) * 16 + NibbleValue(body[n + 2 + 2 * i])
  {
  }

  /** Parsing what `toSerial` writes gives back the packet, provided the
      setting conversion reads a digit as its value. */
  lemma ParseSerialText(p: Packet, settingFromChar: char -> nat)
    requires WellFormed(p)
    requires forall v :: 0 <= v < 16 ==> settingFromChar(HexDigit(v)) == v
    ensures Representable(p)
    ensures |Body(SerialText(p))| <= Mtu
    ensures Parse(SerialText(p), settingFromChar) == p
  {
    var s := SerialText(p);
    var cmd := p.command;
    CommandCharRoundTrip(cmd);
    if CommandIsTransmit(cmd) {
      FrameDigitsAreBody(p);
      ParseFrameDigits(p);
    } else if IsSettingCommand(cmd) {
      assert Body(s) == [HexDigit(p.setting)];
    } else {
      assert Body(s) == [];
    }
  }

  /** A remote frame's data length does not cross the serial line: the
      text of an `r` or `R` command holds the identifier alone, so the frame
      comes back with no data, whatever it was sent with. */
  lemma RemoteFrameLosesLength(frame: CanPacket, settingFromChar: char -> nat)
    requires frame.id < Pow16(IdLen(frame.isExtended))
    requires |frame.data| <= MaxDataLen
    requires frame.isRemote
    ensures ToCanPacket(Parse(SerialText(FromCanPacket(frame)), settingFromChar)) == Some(frame.(data := []))
  {
    var bare := frame.(data := []);
    assert SerialText(FromCanPacket(frame)) == SerialText(FromCanPacket(bare));
    FrameRoundTrip(bare, settingFromChar);
  }

  /** A frame sent through the serial line reaches the other end whole. */
  lemma FrameRoundTrip(frame: CanPacket, settingFromChar: char -> nat)
    requires frame.id < Pow16(IdLen(frame.isExtended))
    requires |frame.data| <= MaxDataLen
    requires frame.isRemote ==> frame.data == []
    ensures Representable(FromCanPacket(frame))
    ensures |Body(SerialText(FromCanPacket(frame)))| <= Mtu
    ensures ToCanPacket(Parse(SerialText(FromCanPacket(frame)), settingFromChar)) == Some(frame)
  {
    var p := FromCanPacket(frame);
    assert WellFormed(p);
    var conv := (c: char) => NibbleValue(c);
    ParseSerialText(p, conv);
    var s := SerialText(p);
    assert Parse(s, conv) == p;
    assert Parse(s, settingFromChar).frame == Parse(s, conv).frame;
  }

  /** The as-written parser misreads the setting of the line `toSerial`
      writes for bit rate 4: it hands over the terminator instead of the
      digit. */
  lemma SettingCharMisread()
    ensures SerialText(Packet(SetBitRate, 4, NoFrame)) == ['S', '4', '\r']
    ensures SettingCharAsWritten(['S', '4', '\r']) == Some('\r')
    ensures Parse(['S', '4', '\r'], (c: char) => NibbleValue(c)).setting == 4
  {
  }
}

=== FILE: spin_input.dfy ===
/** The arithmetic of the spin widget's "+" and "-" buttons: a step that
    would leave the range wraps around to the other end. */
module SpinInput {
  import Bytes

  /** The value after the "+" button. */
  function Increment(value: int, min: int, max: int, step: int): (r: int)
    ensures value + step <= max ==> r == value + step
    ensures value + step > max ==> r - min == value + step - max - 1
  {
    if value + step > max then min + Abs((value + step) - max) - 1
    else value + step
  }

  /** The value after the "-" button. */
  function Decrement(value: int, min: int, max: int, step: int): (r: int)
    ensures value - step >= min ==> r == value - step
    ensures value - step < min ==> max - r == min - (value - step) - 1
  {
    if value - step < min then max - Abs(min - (value - step)) + 1
    else value - step
  }

  function Abs(x: int): nat {
    if x < 0 then -x else x
  }

  /** A step of at least one and at most the range's width. */
  predicate StepFits(min: int, max: int, step: int) {
    min < max && 1 <= step <= max - min + 1
  }

  /** Both buttons keep an in-range value in range. */
  lemma StaysInRange(value: int, min: int, max: int, step: int)
    requires StepFits(min, max, step)
    requires min <= value <= max
    ensures min <= Increment(value, min, max, step) <= max
    ensures min <= Decrement(value, min, max, step) <= max
  {
  }

  /** The buttons count modulo the range: "+" adds the step to the value's
      position in the range, "-" subtracts it, both modulo the number of
      values in the range. */
  lemma CountsModuloRange(value: int, min: int, max: int, step: int)
    requires StepFits(min, max, step)
    requires min <= value <= max
    ensures Increment(value, min, max, step) == min + (value - min + step) % (max - min + 1)
    ensures Decrement(value, min, max, step) == min + (value - min - step) % (max - min + 1)
  {
    var width := max - min + 1;
    var up := value - min + step;
    if up < width {
      ModSmall(up, width, 0);
    } else {
      ModSmall(up, width, 1);
    }
    var down := value - min - step;
    if down >= 0 {
      ModSmall(down, width, 0);
    } else {
      ModSmall(down, width, -1);
    }
  }

  /** `x % w` when `x` lies in the `k`-th copy of the range. */
  lemma ModSmall(x: int, w: int, k: int)
    requires w > 0
    requires k * w <= x < (k + 1) * w
    ensures x % w == x - k * w
  {
    Bytes.DivModUnique(x, w, k, x - k * w);
  }

  /** "-" undoes "+" and "+" undoes "-". */
  lemma DecrementUndoesIncrement(value: int, min: int, max: int, step: int)
    requires StepFits(min, max, step)
    requires min <= value <= max
    ensures Decrement(Increment(value, min, max, step), min, max, step) == value
    ensures Increment(Decrement(value, min, max, step), min, max, step) == value
  {
  }
}

=== FILE: string_utils.dfy ===
/** String helpers: replacing every occurrence of a pattern, and splitting a
    file path into its directory part and its file name. Both `/` and `\`
    separate path components. */
module StringUtils {
  import opened Wrappers

  /** Whether `t` occurs in `s` at position `i`. */
  predicate OccursAt(s: string, t: string, i: nat) {
    i + |t| <= |s| && s[i..i + |t|] == t
  }

  /** The first occurrence of `t` at or after `from`, as `std::string::find`
      finds it. */
  function Find(s: string, t: string, from: nat): (r: Option<nat>)
    ensures r.Some? ==> from <= r.value && OccursAt(s, t, r.value)
    ensures r.Some? ==> forall k :: from <= k < r.value ==> !OccursAt(s, t, k)
    ensures r.None? ==> forall k :: from <= k ==> !OccursAt(s, t, k)
    decreases |s| - from
  {
    if from + |t| > |s| then None
    else if OccursAt(s, t, from) then Some(from)
    else Find(s, t, from + 1)
  }

  /** Replaces, from position `n` on, each occurrence found by searching
      onward from the end of the previous replacement. */
  function ReplaceFrom(s: string, toReplace: string, replaceBy: string, n: nat): (r: string)
    requires |toReplace| > 0
    requires n <= |s|
    ensures |r| >= n && r[..n] == s[..n]
    decreases |s| - n
  {
    match Find(s, toReplace, n)
    case None => s
    case Some(i) =>
      var next := Splice(s, i, |toReplace|, replaceBy);
      assert next[..n] == s[..n];
      var r := ReplaceFrom(next, toReplace, replaceBy, i + |replaceBy|);
      assert r[..n] == r[..i + |replaceBy|][..n];
      r
  }

  function Splice(s: string, i: nat, len: nat, repl: string): (r: string)
    requires i + len <= |s|
    ensures |r| == |s| - len + |repl|
  {
    s[..i] + repl + s[i + len..]
  }

  /** Every occurrence of `toReplace` in `str` replaced by `replaceBy`. */
  function ReplaceAll(str: string, toReplace: string, replaceBy: string): (r: string)
    requires |toReplace| > 0
    ensures Find(str, toReplace, 0).None? ==> r == str
  {
    ReplaceFrom(str, toReplace, replaceBy, 0)
  }

  /** Reference reading of the replacement: scan left to right; at an
      occurrence emit the replacement and skip the occurrence, else keep
      one character. Occurrences are found in the original text only. */
  function Replaced(s: string, t: string, repl: string): string
    requires |t| > 0
    decreases |s|
  {
    if |s| == 0 then []
    else if OccursAt(s, t, 0) then repl + Replaced(s[|t|..], t, repl)
    else [s[0]] + Replaced(s[1..], t, repl)
  }

  /** Text with no occurrence is kept as it is. */
  lemma {:induction false} ReplacedNone(s: string, t: string, repl: string)
    requires |t| > 0
    requires forall k :: 0 <= k ==> !OccursAt(s, t, k)
    ensures Replaced(s, t, repl) == s
    decreases |s|
  {
    if |s| > 0 {
      forall k | 0 <= k
        ensures !OccursAt(s[1..], t, k)
      {
        assert !OccursAt(s, t, k + 1);
      }
      ReplacedNone(s[1..], t, repl);
    }
  }

  /** The text before the first occurrence is kept. */
  lemma {:induction false} ReplacedFirst(s: string, t: string, repl: string, j: nat)
    requires |t| > 0
    requires OccursAt(s, t, j)
    requires forall k :: 0 <= k < j ==> !OccursAt(s, t, k)
    ensures Replaced(s, t, repl) == s[..j] + repl + Replaced(s[j + |t|..], t, repl)
    decreases j
  {
    if j > 0 {
      var tail := s[1..];
      TailOccurrence(s, t, j);
      ReplacedFirst(tail, t, repl, j - 1);
      var after := Replaced(s[j + |t|..], t, repl);
      assert tail[j - 1 + |t|..] == s[j + |t|..];
      assert Replaced(s, t, repl) == [s[0]] + (tail[..j - 1] + repl + after);
      Regroup(s[0], tail[..j - 1], repl, after);
      assert [s[0]] + tail[..j - 1] == s[..j];
    }
  }

  /** The first occurrence at `j > 0` is the first at `j - 1` in the tail. */
  lemma TailOccurrence(s: string, t: string, j: nat)
    requires j > 0
    requires OccursAt(s, t, j)
    requires forall k :: 0 <= k < j ==> !OccursAt(s, t, k)
    ensures |s| > 0 && !OccursAt(s, t, 0)
    ensures OccursAt(s[1..], t, j - 1)
    ensures forall k :: 0 <= k < j - 1 ==> !OccursAt(s[1..], t, k)
  {
    assert !OccursAt(s, t, 0);
    assert s[1..][j - 1..j - 1 + |t|] == s[j..j + |t|];
    forall k | 0 <= k < j - 1
      ensures !OccursAt(s[1..], t, k)
    {
      assert !OccursAt(s, t, k + 1);
    }
  }

  lemma Regroup(c: char, a: string, b: string, d: string)
    ensures [c] + (a + b + d) == ([c] + a) + b + d
  {
  }

  /** Searching from a position behind an already-processed prefix sees
      only the rest. */
  lemma FindInRest(prefix: string, rest: string, t: string)
    requires |t| > 0
    ensures Find(prefix + rest, t, |prefix|).Some? <==> Find(rest, t, 0).Some?
    ensures Find(rest, t, 0).Some? ==> Find(prefix + rest, t, |prefix|).value == |prefix| + Find(rest, t, 0).value
  {
    var s := prefix + rest;
    forall k | 0 <= k
      ensures OccursAt(s, t, |prefix| + k) <==> OccursAt(rest, t, k)
    {
      if k + |t| <= |rest| {
        assert s[|prefix| + k..|prefix| + k + |t|] == rest[k..k + |t|];
      }
    }
    var a := Find(s, t, |prefix|);
    var b := Find(rest, t, 0);
    if a.Some? {
      assert OccursAt(rest, t, a.value - |prefix|);
    }
    if b.Some? {
      assert OccursAt(s, t, |prefix| + b.value);
    }
  }

  /** One replacement step of `ReplaceFrom`: the text with the occurrence
      at `i` replaced, searched again from the end of the replacement. */
  lemma ReplaceFromStep(s: string, t: string, repl: string, n: nat, i: nat, next: string, m: nat)
    requires |t| > 0 && n <= |s|
    requires Find(s, t, n).Some? && Find(s, t, n).value == i
    requires i + |t| <= |s|
    requires Splice(s, i, |t|, repl) == next
    requires m == i + |repl|
    ensures m <= |next|
    ensures ReplaceFrom(s, t, repl, n) == ReplaceFrom(next, t, repl, m)
  {
  }

  /** Cutting `prefix + rest` around an occurrence at `j` in `rest`, which
      is at `i` in the whole. */
  lemma CutAround(s: string, prefix: string, rest: string, repl: string, i: nat, j: nat, len: nat)
    requires s == prefix + rest
    requires i == |prefix| + j && j + len <= |rest|
    ensures s[..i] + repl + s[i + len..] == (prefix + rest[..j] + repl) + rest[j + len..]
  {
    assert s[..i] == prefix + rest[..j];
    assert s[i + len..] == rest[j + len..];
  }

  /** Replacing from the end of a processed prefix gives the prefix
      followed by the reference reading of the rest. */
  lemma {:induction false} ReplaceFromIsReplaced(prefix: string, rest: string, t: string, repl: string)
    requires |t| > 0
    ensures ReplaceFrom(prefix + rest, t, repl, |prefix|) == prefix + Replaced(rest, t, repl)
    decreases |rest|, 1
  {
    FindInRest(prefix, rest, t);
    match Find(rest, t, 0)
    case None =>
      ReplacedNone(rest, t, repl);
    case Some(j) =>
      ReplaceFromSome(prefix, rest, t, repl, j);
  }

  /** The case of `ReplaceFromIsReplaced` where `rest` has a first
      occurrence at `j`. */
  lemma {:induction false} ReplaceFromSome(prefix: string, rest: string, t: string, repl: string, j: nat)
    requires |t| > 0
    requires Find(rest, t, 0).Some? && Find(rest, t, 0).value == j
    requires Find(prefix + rest, t, |prefix|).Some? && Find(prefix + rest, t, |prefix|).value == |prefix| + j
    ensures ReplaceFrom(prefix + rest, t, repl, |prefix|) == prefix + Replaced(rest, t, repl)
    decreases |rest|, 0
  {
    var prefix' := prefix + rest[..j] + repl;
    var rest' := rest[j + |t|..];
    ReplaceFromShift(prefix + rest, prefix, rest, t, repl, j);
    ReplaceFromIsReplaced(prefix', rest', t, repl);
    ReplacedShift(prefix, rest, t, repl, j);
  }

  /** One replacement moves the processed prefix past the occurrence. */
  lemma ReplaceFromShift(s: string, prefix: string, rest: string, t: string, repl: string, j: nat)
    requires |t| > 0 && s == prefix + rest
    requires Find(s, t, |prefix|).Some? && Find(s, t, |prefix|).value == |prefix| + j
    ensures j + |t| <= |rest|
    ensures ReplaceFrom(s, t, repl, |prefix|)
         == ReplaceFrom((prefix + rest[..j] + repl) + rest[j + |t|..], t, repl, |prefix + rest[..j] + repl|)
  {
    var i := |prefix| + j;
    assert |s| == |prefix| + |rest|;
    assert OccursAt(s, t, i);
    var prefix' := prefix + rest[..j] + repl;
    assert |prefix'| == i + |repl|;
    CutAround(s, prefix, rest, repl, i, j, |t|);
    assert Splice(s, i, |t|, repl) == prefix' + rest[j + |t|..];
    ReplaceFromStep(s, t, repl, |prefix|, i, prefix' + rest[j + |t|..], |prefix'|);
  }

  /** The reference reading past the first occurrence at `j`. */
  lemma ReplacedShift(prefix: string, rest: string, t: string, repl: string, j: nat)
    requires |t| > 0
    requires Find(rest, t, 0).Some? && Find(rest, t, 0).value == j
    ensures j + |t| <= |rest|
    ensures (prefix + rest[..j] + repl) + Replaced(rest[j + |t|..], t, repl) == prefix + Replaced(rest, t, repl)
  {
    ReplacedFirst(rest, t, repl, j);
  }

  /** The replacement agrees with the reference reading: leftmost
      occurrences, never overlapping, and the inserted text is never
      searched again. */
  lemma ReplaceAllIsReplaced(str: string, toReplace: string, replaceBy: string)
    requires |toReplace| > 0
    ensures ReplaceAll(str, toReplace, replaceBy) == Replaced(str, toReplace, replaceBy)
  {
    ReplaceFromIsReplaced([], str, toReplace, replaceBy);
    assert [] + str == str;
  }

  /** Replacing "a" by "aa" doubles the "a" once: the inserted text is not
      searched again. */
  lemma ReplacementNotRescanned()
    ensures ReplaceAll("a", "a", "aa") == "aa"
  {
    ReplaceAllIsReplaced("a", "a", "aa");
    assert OccursAt("a", "a", 0);
    assert "a"[1..] == [];
  }

  predicate IsSeparator(c: char) {
    c == '/' || c == '\\'
  }

  /** The position of the last separator, as `find_last_of("/\\")`. */
  function LastSeparator(path: string): (r: Option<nat>)
    ensures r.Some? ==> r.value < |path| && IsSeparator(path[r.value])
    ensures r.Some? ==> forall k :: r.value < k < |path| ==> !IsSeparator(path[k])
    ensures r.None? ==> forall k :: 0 <= k < |path| ==> !IsSeparator(path[k])
  {
    LastOf(path, IsSeparator)
  }

  /** The last position whose character satisfies `p`. */
  function LastOf(s: string, p: char -> bool): (r: Option<nat>)
    ensures r.Some? ==> r.value < |s| && p(s[r.value])
    ensures r.Some? ==> forall k :: r.value < k < |s| ==> !p(s[k])
    ensures r.None? ==> forall k :: 0 <= k < |s| ==> !p(s[k])
  {
    if |s| == 0 then None
    else if p(s[|s| - 1]) then Some(|s| - 1)
    else LastOf(s[..|s| - 1], p)
  }

  /** The file name: what follows the last separator, or the whole path
      when there is none (the missing position plus one wraps to 0). */
  function GetFullNameFromPath(path: string): (r: string)
    ensures forall k :: 0 <= k < |r| ==> !IsSeparator(r[k])
    ensures |r| <= |path| && path[|path| - |r|..] == r
    ensures |r| < |path| ==> IsSeparator(path[|path| - |r| - 1])
  {
    match LastSeparator(path)
    case None => path
    case Some(i) => path[i + 1..]
  }

  /** The directory part: everything through the last separator, or
      nothing when there is none. */
  function RemoveNameFromPath(path: string): (r: string)
    ensures |r| == 0 || IsSeparator(r[|r| - 1])
    ensures r <= path
  {
    match LastSeparator(path)
    case None => []
    case Some(i) => path[..i + 1]
  }

  /** A path is its directory part followed by its file name. */
  lemma PathSplits(path: string)
    ensures RemoveNameFromPath(path) + GetFullNameFromPath(path) == path
  {
    match LastSeparator(path)
    case None =>
    case Some(i) =>
      assert path[..i + 1] + path[i + 1..] == path;
  }

  /** The directory part as the wide-string overload computes it, on text
      the code-page conversion leaves unchanged: it keeps the path's length
      minus the separator's position. With no separator the subtraction
      wraps to one past the length and the whole path is kept. */
  function RemoveNameFromWidePathAsWritten(path: string): (r: string)
    ensures r <= path
    ensures LastSeparator(path).None? ==> r == path
    ensures LastSeparator(path).Some? ==> |r| + LastSeparator(path).value == |path|
  {
    match LastSeparator(path)
    case None => path
    case Some(i) => path[..|path| - i]
  }

  /** For `a/bc` the wide overload keeps `a/b`, part of the file name, where
      the narrow one keeps the directory `a/`; with no separator it keeps
      the whole name where the narrow one keeps nothing. */
  lemma WidePathKeepsNameAsWritten()
    ensures RemoveNameFromWidePathAsWritten("a/bc") == "a/b"
    ensures RemoveNameFromPath("a/bc") == "a/"
    ensures RemoveNameFromWidePathAsWritten("bc") == "bc"
    ensures RemoveNameFromPath("bc") == ""
  {
    assert IsSeparator("a/bc"[1]);
    assert LastSeparator("a/bc") == Some(1);
    assert LastSeparator("bc") == None;
  }

  predicate IsDot(c: char) {
    c == '.'
  }

  /** The file name without its extension: everything before the name's
      last dot, or the whole name when it has none. */
  function GetNameFromPath(path: string): (r: string)
    ensures r <= GetFullNameFromPath(path)
    ensures r == GetFullNameFromPath(path) ==> forall k :: 0 <= k < |r| ==> r[k] != '.'
    ensures r != GetFullNameFromPath(path) ==> GetFullNameFromPath(path)[|r|] == '.'
                                                && forall k :: |r| < k < |GetFullNameFromPath(path)| ==> GetFullNameFromPath(path)[k] != '.'
  {
    var name := GetFullNameFromPath(path);
    match LastOf(name, IsDot)
    case None => name
    case Some(i) => name[..i]
  }
}

=== FILE: type_manager.dfy ===
/** The registry of the command layer's user types. Structs and enums are
    kept in two tables that share one id space: an id names at most one
    definition of either kind. Ids are handed out from a running counter,
    skipping every id already taken. */
module TypeManager {
  import opened Wrappers
  import opened DecimalText

  /** A struct or enum definition; only its name is inspected here. */
  datatype Definition = Definition(name: string, description: string)

  datatype Kind = StructKind | EnumKind

  datatype ManagerError = InvalidId | TypeNotFound

  datatype Manager = Manager(count: nat, structs: map<nat, Definition>, enums: map<nat, Definition>)

  const Empty: Manager := Manager(0, map[], map[])

  /** The names of the fundamental types, at their ids. */
  const FundamentalNames: seq<string> :=
    ["Void", "Bool", "Int8", "UInt8", "Int16", "UInt16", "Int32", "UInt32",
     "Int64", "UInt64", "Float", "Double", "String"]

  /** The number of fundamental types, where the counter resumes. */
  const FundamentalSize: nat := 13

  function Table(m: Manager, kind: Kind): map<nat, Definition> {
    if kind == StructKind then m.structs else m.enums
  }

  function IsIdTaken(m: Manager, id: nat): (r: bool)
    ensures r <==> Get(m, StructKind, id).Success? || Get(m, EnumKind, id).Success?
  {
    id in m.structs || id in m.enums
  }

  /** The taken ids from `from` on; finite, so the search below ends. */
  function TakenFrom(m: Manager, from: nat): set<nat> {
    set k | k in m.structs.Keys + m.enums.Keys && k >= from
  }

  /** The smallest free id at or above `from`. */
  function NextFree(m: Manager, from: nat): (id: nat)
    ensures id >= from && !IsIdTaken(m, id)
    ensures forall k :: from <= k < id ==> IsIdTaken(m, k)
    decreases |TakenFrom(m, from)|
  {
    if IsIdTaken(m, from) then
      assert TakenFrom(m, from) == TakenFrom(m, from + 1) + {from};
      assert from !in TakenFrom(m, from + 1);
      NextFree(m, from + 1)
    else from
  }

  /** Adds a definition at the smallest free id at or above the counter,
      which stays at that id. */
  function Add(m: Manager, kind: Kind, def: Definition): (r: (Manager, nat))
    ensures var (m', id) := r;
            !IsIdTaken(m, id) && id >= m.count
            && (forall k :: m.count <= k < id ==> IsIdTaken(m, k))
            && m'.count == id
            && Table(m', kind) == Table(m, kind)[id := def]
            && Table(m', OtherKind(kind)) == Table(m, OtherKind(kind))
  {
    var id := NextFree(m, m.count);
    var m' := if kind == StructKind then m.(count := id, structs := m.structs[id := def])
              else m.(count := id, enums := m.enums[id := def]);
    (m', id)
  }

  function OtherKind(kind: Kind): Kind {
    if kind == StructKind then EnumKind else StructKind
  }

  /** Adds a definition at a chosen id; a taken id, of either kind, is an
      error. The counter does not move. */
  function AddAt(m: Manager, kind: Kind, id: nat, def: Definition): (r: Result<Manager, ManagerError>)
    ensures r.Failure? <==> IsIdTaken(m, id)
    ensures r.Failure? ==> r.error == InvalidId
    ensures r.Success? ==> r.value.count == m.count
                           && Table(r.value, kind) == Table(m, kind)[id := def]
                           && Table(r.value, OtherKind(kind)) == Table(m, OtherKind(kind))
  {
    if IsIdTaken(m, id) then Failure(InvalidId)
    else if kind == StructKind then Success(m.(structs := m.structs[id := def]))
    else Success(m.(enums := m.enums[id := def]))
  }

  /** The definition with an id. */
  function Get(m: Manager, kind: Kind, id: nat): (r: Result<Definition, ManagerError>)
    ensures r.Failure? <==> id !in Table(m, kind)
    ensures r.Failure? ==> r.error == TypeNotFound
    ensures r.Success? ==> r.value == Table(m, kind)[id]
  {
    if id in Table(m, kind) then Success(Table(m, kind)[id]) else Failure(TypeNotFound)
  }

  /** The id of a definition with the given name. The tables are hash maps,
      so which of several equally named definitions is found depends on
      their iteration order, given here as `order`. */
  function FindIdByName(m: Manager, kind: Kind, name: string, order: seq<nat>): (r: Result<nat, ManagerError>)
    requires forall k :: k in Table(m, kind) <==> k in order
    ensures r.Failure? <==> forall k :: k in Table(m, kind) ==> Table(m, kind)[k].name != name
    ensures r.Failure? ==> r.error == TypeNotFound
    ensures r.Success? ==> r.value in Table(m, kind) && Table(m, kind)[r.value].name == name
  {
    var i := FirstNamed(Table(m, kind), name, order);
    if i.Some? then Success(order[i.value])
    else
      assert forall k :: k in Table(m, kind) ==> exists j :: 0 <= j < |order| && order[j] == k;
      Failure(TypeNotFound)
  }

  /** The position in `order` of the first id whose definition is named
      `name`. */
  function FirstNamed(table: map<nat, Definition>, name: string, order: seq<nat>): (r: Option<nat>)
    ensures r.None? <==> forall j :: 0 <= j < |order| ==> !(order[j] in table && table[order[j]].name == name)
    ensures r.Some? ==> r.value < |order| && order[r.value] in table && table[order[r.value]].name == name
  {
    if |order| == 0 then None
    else if order[0] in table && table[order[0]].name == name then Some(0)
    else
      var rest := FirstNamed(table, name, order[1..]);
      if rest.Some? then Some(rest.value + 1)
      else
        assert forall j :: 1 <= j < |order| ==> order[j] == order[1..][j - 1];
        None
  }

  /** The name of the type with an id: a struct's, else an enum's, else a
      message naming the id. */
  function GetTypeName(m: Manager, id: nat): (r: string)
    ensures id in m.structs ==> r == m.structs[id].name
    ensures id !in m.structs && id in m.enums ==> r == m.enums[id].name
    ensures !IsIdTaken(m, id) ==> |r| > 14 && r[..14] == "Unknown type: "
    ensures !IsIdTaken(m, id) ==> (forall i :: 14 <= i < |r| ==> '0' <= r[i] <= '9') && DecimalValue(r[14..]) == id
  {
    if id in m.structs then m.structs[id].name
    else if id in m.enums then m.enums[id].name
    else
      DecimalRoundTrip(id);
      var r := "Unknown type: " + Decimal(id);
      assert r[14..] == Decimal(id);
      r
  }

  /** Registers the fundamental types as structs at ids 0 to 12, then
      moves the counter past them. A taken id among them is an error. */
  function AddFundamentals(m: Manager): (r: Result<Manager, ManagerError>)
    ensures r.Failure? <==> exists k :: 0 <= k < FundamentalSize && IsIdTaken(m, k)
    ensures r.Success? ==> r.value.count == FundamentalSize
    ensures r.Success? ==> r.value.enums == m.enums
    ensures r.Success? ==> forall k :: 0 <= k < FundamentalSize ==>
                             k in r.value.structs && r.value.structs[k] == FundamentalDef(k)
    ensures r.Success? ==> forall k :: k in r.value.structs && k >= FundamentalSize ==>
                             k in m.structs && r.value.structs[k] == m.structs[k]
    ensures r.Success? ==> forall k :: k in m.structs ==> k in r.value.structs
  {
    AddFundamentalsFromFails(m, 0);
    var added :- AddFundamentalsFrom(m, 0);
    AddFundamentalsFromTables(m, 0);
    Success(added.(count := FundamentalSize))
  }

  /** The definition of the fundamental type with id `j`. */
  function FundamentalDef(j: nat): Definition
    requires j < FundamentalSize
  {
    Definition(FundamentalNames[j], "")
  }

  /** Adds the fundamentals from id `k` on; the enum table and the counter
      stay as they are. */
  function AddFundamentalsFrom(m: Manager, k: nat): (r: Result<Manager, ManagerError>)
    requires k <= FundamentalSize
    ensures r.Success? ==> r.value.enums == m.enums && r.value.count == m.count
    decreases FundamentalSize - k
  {
    if k == FundamentalSize then Success(m)
    else
      var m1 :- AddAt(m, StructKind, k, FundamentalDef(k));
      AddFundamentalsFrom(m1, k + 1)
  }

  /** Adding the fundamentals fails exactly when one of their ids is
      taken, by a struct or an enum. */
  lemma {:induction false} AddFundamentalsFromFails(m: Manager, k: nat)
    requires k <= FundamentalSize
    ensures AddFundamentalsFrom(m, k).Failure? <==> exists j :: k <= j < FundamentalSize && IsIdTaken(m, j)
    decreases FundamentalSize - k
  {
    if k < FundamentalSize && !IsIdTaken(m, k) {
      var m1 := AddAt(m, StructKind, k, FundamentalDef(k)).value;
      AddFundamentalsFromFails(m1, k + 1);
      assert forall j :: k + 1 <= j ==> (IsIdTaken(m1, j) <==> IsIdTaken(m, j));
    }
  }

  /** After adding the fundamentals, each of their ids holds its
      fundamental, and every other struct is the one that was there. */
  lemma {:induction false} AddFundamentalsFromTables(m: Manager, k: nat)
    requires k <= FundamentalSize
    requires AddFundamentalsFrom(m, k).Success?
    ensures var structs := AddFundamentalsFrom(m, k).value.structs;
            && (forall j :: k <= j < FundamentalSize ==> j in structs && structs[j] == FundamentalDef(j))
            && (forall j :: j in structs && !(k <= j < FundamentalSize) ==> j in m.structs && structs[j] == m.structs[j])
            && (forall j :: j in m.structs ==> j in structs)
    decreases FundamentalSize - k
  {
    if k < FundamentalSize {
      var m1 := AddAt(m, StructKind, k, FundamentalDef(k)).value;
      assert m1.structs == m.structs[k := FundamentalDef(k)];
      assert AddFundamentalsFrom(m, k) == AddFundamentalsFrom(m1, k + 1);
      AddFundamentalsFromTables(m1, k + 1);
      var structs := AddFundamentalsFrom(m1, k + 1).value.structs;
      forall j | k <= j < FundamentalSize
        ensures j in structs && structs[j] == FundamentalDef(j)
      {
        if j == k {
          assert k in m1.structs && !(k + 1 <= k < FundamentalSize);
        }
      }
    }
  }

  /** The two tables never share an id. */
  predicate Disjoint(m: Manager) {
    forall k :: k in m.structs ==> k !in m.enums
  }

  /** Every way of adding keeps the id space shared. */
  lemma AddKeepsDisjoint(m: Manager, kind: Kind, def: Definition)
    requires Disjoint(m)
    ensures Disjoint(Add(m, kind, def).0)
  {
  }

  lemma AddAtKeepsDisjoint(m: Manager, kind: Kind, id: nat, def: Definition)
    requires Disjoint(m)
    requires AddAt(m, kind, id, def).Success?
    ensures Disjoint(AddAt(m, kind, id, def).value)
  {
  }

  /** What was added is found again under its id, and every earlier
      definition is still there. */
  lemma AddThenGet(m: Manager, kind: Kind, def: Definition, kind2: Kind, id2: nat)
    ensures Get(Add(m, kind, def).0, kind, Add(m, kind, def).1) == Success(def)
    ensures id2 in Table(m, kind2) ==> Get(Add(m, kind, def).0, kind2, id2) == Success(Table(m, kind2)[id2])
  {
  }

  /** Adding twice gives two different ids, the second above the first. */
  lemma AddTwiceDistinct(m: Manager, kind1: Kind, def1: Definition, kind2: Kind, def2: Definition)
    ensures var (m1, id1) := Add(m, kind1, def1);
            Add(m1, kind2, def2).1 > id1
  {
    var (m1, id1) := Add(m, kind1, def1);
    assert IsIdTaken(m1, id1);
  }

  /** On a fresh registry the fundamentals take ids 0 to 12 under their
      names, and the next type added gets id 13. */
  lemma FreshFundamentals(kind: Kind, def: Definition)
    ensures AddFundamentals(Empty).Success?
    ensures forall k :: 0 <= k < FundamentalSize ==>
              GetTypeName(AddFundamentals(Empty).value, k) == FundamentalNames[k]
    ensures Add(AddFundamentals(Empty).value, kind, def).1 == FundamentalSize
  {
    var m := AddFundamentals(Empty).value;
    assert !IsIdTaken(m, FundamentalSize);
  }
}

=== FILE: uut_state.dfy ===
/** The orchestrator's per-UUT states (the units under test on a test
    bench) and the rules that enable, disable and update them. Whether a
    run is in progress and the team layout, both read from the scripting
    runtime, are parameters. */
module UutStates {
  import opened Wrappers

  /** The states of a UUT. The enum's declaration is not part of this
      model; these are the enumerators the orchestrator uses. */
  datatype UutState = Idle | Disabled | Running | Waiting | Passed | Failed | Error

  /** Every listed UUT exists. */
  predicate InRange(states: seq<UutState>, uuts: seq<nat>) {
    forall i :: 0 <= i < |uuts| ==> uuts[i] < |states|
  }

  /** The state of a UUT; an index past the end reads as idle. */
  function GetUutState(states: seq<UutState>, uut: nat): (r: UutState)
    ensures uut < |states| ==> r == states[uut]
    ensures uut >= |states| ==> r == Idle
  {
    if uut < |states| then states[uut] else Idle
  }

  /** The state a listed UUT ends in: the new one, unless it is disabled
      and the update is not forced. */
  function Updated(current: UutState, state: UutState, force: bool): UutState {
    if current == Disabled && !force then current else state
  }

  /** Sets the listed UUTs in order, skipping disabled ones unless forced. */
  function UpdateUutState(states: seq<UutState>, state: UutState, uuts: seq<nat>, force: bool): (r: seq<UutState>)
    requires InRange(states, uuts)
    ensures |r| == |states|
    ensures forall k :: 0 <= k < |r| && k in uuts ==> r[k] == Updated(states[k], state, force)
    ensures forall k :: 0 <= k < |r| && k !in uuts ==> r[k] == states[k]
    decreases |uuts|
  {
    if |uuts| == 0 then states
    else
      var uut := uuts[0];
      var next := states[uut := Updated(states[uut], state, force)];
      var r := UpdateUutState(next, state, uuts[1..], force);
      assert forall k :: k in uuts <==> k == uut || k in uuts[1..];
      r
  }

  /** Updates every UUT of the bench map. */
  function UpdateAllUuts(states: seq<UutState>, state: UutState, mapUuts: seq<nat>, force: bool): (r: seq<UutState>)
    requires InRange(states, mapUuts)
    ensures |r| == |states|
    ensures forall k :: 0 <= k < |r| ==> r[k] == (if k in mapUuts then Updated(states[k], state, force) else states[k])
  {
    UpdateUutState(states, state, mapUuts, force)
  }

  /** The state a toggle moves a UUT to: disabled becomes idle, anything
      else becomes disabled. */
  function Toggled(s: UutState): (r: UutState)
    ensures (r == Idle) <==> (s == Disabled)
    ensures r == Disabled || r == Idle
  {
    if s == Disabled then Idle else Disabled
  }

  /** Enables or disables a UUT. Nothing changes while a run is in
      progress. Without teams only that UUT changes; with teams, every
      member of its team takes the new state, disabled or not. */
  function ToggleUut(states: seq<UutState>, index: nat, running: bool, team: Option<seq<nat>>): (r: seq<UutState>)
    requires index < |states|
    requires team.Some? ==> InRange(states, team.value)
    ensures |r| == |states|
    ensures running ==> r == states
    ensures !running && team.None? ==> r == states[index := Toggled(states[index])]
    ensures !running && team.Some? ==> forall k :: 0 <= k < |r| ==>
              r[k] == (if k in team.value then Toggled(states[index]) else states[k])
  {
    if running then states
    else
      var state := Toggled(states[index]);
      match team
      case Some(members) => UpdateUutState(states, state, members, true)
      case None => states[index := state]
  }

  /** Updating twice with the same arguments is updating once. */
  lemma UpdateIdempotent(states: seq<UutState>, state: UutState, uuts: seq<nat>, force: bool)
    requires InRange(states, uuts)
    ensures UpdateUutState(UpdateUutState(states, state, uuts, force), state, uuts, force)
         == UpdateUutState(states, state, uuts, force)
  {
    var once := UpdateUutState(states, state, uuts, force);
    var twice := UpdateUutState(once, state, uuts, force);
    assert forall k :: 0 <= k < |twice| ==> twice[k] == once[k];
  }

  /** The order of the list does not matter: only which UUTs it names. */
  lemma UpdateOrderFree(states: seq<UutState>, state: UutState, a: seq<nat>, b: seq<nat>, force: bool)
    requires InRange(states, a) && InRange(states, b)
    requires forall k :: k in a <==> k in b
    ensures UpdateUutState(states, state, a, force) == UpdateUutState(states, state, b, force)
  {
    var ra := UpdateUutState(states, state, a, force);
    var rb := UpdateUutState(states, state, b, force);
    assert forall k :: 0 <= k < |ra| ==> ra[k] == rb[k];
  }

  /** An unforced update never enables a disabled UUT; a forced one
      leaves every listed UUT in the new state. */
  lemma UpdateRespectsDisabled(states: seq<UutState>, state: UutState, uuts: seq<nat>, k: nat)
    requires InRange(states, uuts) && k < |states|
    ensures states[k] == Disabled ==> UpdateUutState(states, state, uuts, false)[k] == Disabled
    ensures k in uuts ==> UpdateUutState(states, state, uuts, true)[k] == state
  {
  }

  /** Without teams, toggling twice gives back an idle or disabled UUT,
      and turns any other state into idle. */
  lemma ToggleTwice(states: seq<UutState>, index: nat)
    requires index < |states|
    ensures var twice := ToggleUut(ToggleUut(states, index, false, None), index, false, None);
            (states[index] == Idle || states[index] == Disabled ==> twice == states)
            && twice == states[index := if states[index] == Disabled then Disabled else Idle]
  {
  }

  /** A toggled UUT reads back as toggled; other UUTs read as before. */
  lemma ToggleThenGet(states: seq<UutState>, index: nat, uut: nat)
    requires index < |states|
    ensures GetUutState(ToggleUut(states, index, false, None), uut)
         == (if uut == index then Toggled(states[index]) else GetUutState(states, uut))
  {
  }
}

=== FILE: whitelist.dfy ===
/** The USB device whitelist of the device viewer. An entry names a vendor
    and product id, and optionally a revision and an interface number; it
    is read from a Windows device instance name such as
    `USB\VID_0483&PID_5740&MI_00`. Converting the hex digits to a number is
    done by a helper that is not part of this model, so it is a parameter. */
module Whitelist {
  import opened Wrappers
  import opened Hex
  import opened StringUtils

  datatype WhitelistItem = WhitelistItem(vid: int, pid: int, rev: Option<int>, mi: Option<int>)

  /** Whether entry `lhs` accepts device `rhs`: the ids must be equal, and
      the revision and interface only count when `lhs` sets them. */
  function Matches(lhs: WhitelistItem, rhs: WhitelistItem): (r: bool)
    ensures r ==> lhs.vid == rhs.vid && lhs.pid == rhs.pid
    ensures r && lhs.rev.Some? ==> rhs.rev == lhs.rev
    ensures r && lhs.mi.Some? ==> rhs.mi == lhs.mi
    ensures lhs.rev.None? && lhs.mi.None? ==> (r <==> lhs.vid == rhs.vid && lhs.pid == rhs.pid)
    ensures lhs == rhs ==> r
  {
    lhs.vid == rhs.vid && lhs.pid == rhs.pid
    && (lhs.rev.None? || lhs.rev == rhs.rev)
    && (lhs.mi.None? || lhs.mi == rhs.mi)
  }

  /** Every entry accepts itself. */
  lemma MatchesReflexive(a: WhitelistItem)
    ensures Matches(a, a)
  {
  }

  /** An entry that leaves a field unset accepts a device that sets it,
      but not the other way round. */
  lemma MatchesNotSymmetric()
    ensures var wildcard := WhitelistItem(0x0483, 0x5740, None, None);
            var device := WhitelistItem(0x0483, 0x5740, Some(1), None);
            Matches(wildcard, device) && !Matches(device, wildcard)
  {
  }

  /** Acceptance chains: what a device accepts, every entry that accepts
      the device accepts too. */
  lemma MatchesTransitive(a: WhitelistItem, b: WhitelistItem, c: WhitelistItem)
    requires Matches(a, b) && Matches(b, c)
    ensures Matches(a, c)
  {
  }

  /** An entry with both optional fields set accepts only itself; one with
      neither set accepts every device with its ids. */
  lemma MatchesExtremes(a: WhitelistItem, b: WhitelistItem)
    ensures a.rev.Some? && a.mi.Some? ==> (Matches(a, b) <==> a == b)
    ensures a.rev.None? && a.mi.None? ==> (Matches(a, b) <==> a.vid == b.vid && a.pid == b.pid)
  {
  }

  /** The length of the run of `[A-F0-9]` characters starting at `i`. */
  function HexRunLength(s: string, i: nat): (n: nat)
    requires i <= |s|
    ensures i + n <= |s|
    ensures forall k :: i <= k < i + n ==> IsUpperHexDigit(s[k])
    ensures i + n < |s| ==> !IsUpperHexDigit(s[i + n])
    decreases |s| - i
  {
    if i == |s| || !IsUpperHexDigit(s[i]) then 0 else 1 + HexRunLength(s, i + 1)
  }

  /** Whether `key([A-F0-9]+)` matches at position `p`. */
  predicate GroupAt(s: string, key: string, p: nat) {
    OccursAt(s, key, p) && p + |key| < |s| && IsUpperHexDigit(s[p + |key|])
  }

  /** The leftmost match at or after `from`. */
  function FindGroup(s: string, key: string, from: nat): (r: Option<nat>)
    ensures r.Some? ==> from <= r.value && GroupAt(s, key, r.value)
    ensures r.Some? ==> forall k :: from <= k < r.value ==> !GroupAt(s, key, k)
    ensures r.None? ==> forall k :: from <= k ==> !GroupAt(s, key, k)
    decreases |s| - from
  {
    if from >= |s| then None
    else if GroupAt(s, key, from) then Some(from)
    else FindGroup(s, key, from + 1)
  }

  /** The captured digits of the leftmost match of `key([A-F0-9]+)`, as
      `std::regex_search` finds it: the greedy group takes the whole run. */
  function SearchGroup(s: string, key: string): (r: Option<string>)
    ensures r.None? <==> forall k: nat :: !GroupAt(s, key, k)
    ensures r.Some? ==> |r.value| > 0 && forall k :: 0 <= k < |r.value| ==> IsUpperHexDigit(r.value[k])
    ensures r.Some? ==> var start := FindGroup(s, key, 0).value + |key|;
                        start + |r.value| <= |s| && s[start..start + |r.value|] == r.value
                        && (start + |r.value| == |s| || !IsUpperHexDigit(s[start + |r.value|]))
  {
    match FindGroup(s, key, 0)
    case None => None
    case Some(p) =>
      var start := p + |key|;
      var n := HexRunLength(s, start);
      var digits := s[start..start + n];
      Some(digits)
  }

  /** A `uint32_t` stored in an `int`: values from 2^31 on wrap to
      negative. */
  function ToInt32(v: nat): (r: int)
    ensures -0x8000_0000 <= r < 0x8000_0000
    ensures r % 0x1_0000_0000 == v % 0x1_0000_0000
  {
    var u := v % 0x1_0000_0000;
    if u < 0x8000_0000 then u else u - 0x1_0000_0000
  }

  /** An optional field: absent when its group is missing or its digits
      do not convert. */
  function OptionalField(name: string, key: string, parseHex: string -> Option<nat>): (r: Option<int>)
    ensures r.Some? <==> SearchGroup(name, key).Some? && parseHex(SearchGroup(name, key).value).Some?
  {
    match SearchGroup(name, key)
    case None => None
    case Some(digits) =>
      match parseHex(digits)
      case None => None
      case Some(v) => Some(ToInt32(v))
  }

  /** Reads an entry from a device name. The vendor and product ids are
      required; the interface and revision are optional. */
  function Parse(name: string, parseHex: string -> Option<nat>): (r: Option<WhitelistItem>)
    ensures r.None? <==> SearchGroup(name, "VID_").None? || parseHex(SearchGroup(name, "VID_").value).None?
                         || SearchGroup(name, "PID_").None? || parseHex(SearchGroup(name, "PID_").value).None?
    ensures r.Some? ==> r.value.vid == ToInt32(parseHex(SearchGroup(name, "VID_").value).value)
                        && r.value.pid == ToInt32(parseHex(SearchGroup(name, "PID_").value).value)
    ensures r.Some? ==> r.value.mi == OptionalField(name, "MI_", parseHex)
                        && r.value.rev == OptionalField(name, "REV_", parseHex)
  {
    var vidText :- SearchGroup(name, "VID_");
    var vid :- parseHex(vidText);
    var pidText :- SearchGroup(name, "PID_");
    var pid :- parseHex(pidText);
    Some(WhitelistItem(ToInt32(vid), ToInt32(pid), OptionalField(name, "REV_", parseHex),
                       OptionalField(name, "MI_", parseHex)))
  }

  /** A key cannot match where its first letter does not appear. */
  lemma NoGroupWithout(s: string, key: string, bound: nat)
    requires |key| > 0 && bound <= |s|
    requires forall k :: 0 <= k < bound ==> s[k] != key[0]
    ensures forall p: nat :: p < bound || |s| <= p ==> !GroupAt(s, key, p)
  {
    forall p: nat | p < bound
      ensures !GroupAt(s, key, p)
    {
      if p + |key| <= |s| {
        assert s[p..p + |key|][0] == s[p];
      }
    }
  }

  /** A leftmost match whose digits run for `n` characters is what the
      search returns. */
  lemma SearchFinds(s: string, key: string, p: nat, n: nat)
    requires GroupAt(s, key, p)
    requires forall k: nat :: k < p ==> !GroupAt(s, key, k)
    requires p + |key| + n <= |s|
    requires forall k :: p + |key| <= k < p + |key| + n ==> IsUpperHexDigit(s[k])
    requires p + |key| + n == |s| || !IsUpperHexDigit(s[p + |key| + n])
    ensures SearchGroup(s, key) == Some(s[p + |key|..p + |key| + n])
  {
    var r := FindGroup(s, key, 0);
    assert r == Some(p);
    HexRunIsWhole(s, p + |key|, n);
  }

  /** The characters of a name `VID_<v>&PID_<p>`. */
  lemma StandardNameChars(v: string, p: string, k: nat)
    requires k < |v| + 9 + |p|
    ensures var name := "VID_" + v + "&PID_" + p;
            && (k < 4 ==> name[k] == "VID_"[k])
            && (4 <= k < 4 + |v| ==> name[k] == v[k - 4])
            && (4 + |v| <= k < 9 + |v| ==> name[k] == "&PID_"[k - 4 - |v|])
            && (9 + |v| <= k ==> name[k] == p[k - 9 - |v|])
  {
  }

  /** A name `VID_<v>&PID_<p>`, with both parts made of hex digits. */
  predicate StandardName(name: string, v: string, p: string) {
    name == "VID_" + v + "&PID_" + p && |v| > 0 && |p| > 0
    && (forall k :: 0 <= k < |v| ==> IsUpperHexDigit(v[k]))
    && (forall k :: 0 <= k < |p| ==> IsUpperHexDigit(p[k]))
  }

  /** The vendor id's digits are found where they are. */
  lemma ReadsVendor(name: string, v: string, p: string)
    requires StandardName(name, v, p)
    ensures SearchGroup(name, "VID_") == Some(v)
  {
    forall k | 4 <= k < 4 + |v|
      ensures IsUpperHexDigit(name[k])
    {
      StandardNameChars(v, p, k);
    }
    StandardNameChars(v, p, 4 + |v|);
    assert name[4..4 + |v|] == v;
    assert GroupAt(name, "VID_", 0) by {
      assert name[0..4] == "VID_";
    }
    SearchFinds(name, "VID_", 0, |v|);
  }

  /** The product id's digits are found where they are. */
  lemma ReadsProduct(name: string, v: string, p: string)
    requires StandardName(name, v, p)
    ensures SearchGroup(name, "PID_") == Some(p)
  {
    var keyAt := |v| + 5;
    NoPBeforeProduct(name, v, p);
    NoGroupWithout(name, "PID_", keyAt);
    ProductKeyAt(name, v, p);
    ProductDigitsAt(name, v, p);
    SearchFinds(name, "PID_", keyAt, |p|);
  }

  /** No `P` comes before the product key. */
  lemma NoPBeforeProduct(name: string, v: string, p: string)
    requires StandardName(name, v, p)
    ensures |v| + 5 <= |name|
    ensures forall k :: 0 <= k < |v| + 5 ==> name[k] != 'P'
  {
    forall k | 0 <= k < |v| + 5
      ensures name[k] != 'P'
    {
      StandardNameChars(v, p, k);
    }
  }

  /** The product key sits right after the `&`. */
  lemma ProductKeyAt(name: string, v: string, p: string)
    requires StandardName(name, v, p)
    ensures OccursAt(name, "PID_", |v| + 5)
  {
    MiddleSlice("VID_" + v, "&PID_", p, 1, 5);
    assert "&PID_"[1..5] == "PID_";
  }

  /** The product digits close the name. */
  lemma ProductDigitsAt(name: string, v: string, p: string)
    requires StandardName(name, v, p)
    ensures |v| + 9 + |p| == |name|
    ensures |v| + 5 + |"PID_"| == |v| + 9
    ensures name[|v| + 9..|v| + 9 + |p|] == p
    ensures forall k :: |v| + 9 <= k < |name| ==> IsUpperHexDigit(name[k])
  {
    TailSlice("VID_" + v + "&PID_", p);
    forall k | |v| + 9 <= k < |name|
      ensures IsUpperHexDigit(name[k])
    {
      StandardNameChars(v, p, k);
    }
  }

  /** Where the middle part of `a + b + c` sits. */
  lemma MiddleSlice<T>(a: seq<T>, b: seq<T>, c: seq<T>, i: nat, j: nat)
    requires i <= j <= |b|
    ensures (a + b + c)[|a| + i..|a| + j] == b[i..j]
  {
    assert (a + b + c)[|a| + i..|a| + j] == (a + b)[|a| + i..|a| + j];
  }

  /** Where the last part of `a + b` sits. */
  lemma TailSlice<T>(a: seq<T>, b: seq<T>)
    ensures (a + b)[|a|..|a| + |b|] == b
  {
  }

  /** Neither optional field is found. */
  lemma ReadsNoOptional(name: string, v: string, p: string)
    requires StandardName(name, v, p)
    ensures SearchGroup(name, "MI_").None? && SearchGroup(name, "REV_").None?
  {
    forall k | 0 <= k < |name|
      ensures name[k] != 'M' && name[k] != 'R'
    {
      StandardNameChars(v, p, k);
    }
    NoGroupWithout(name, "MI_", |name|);
    NoGroupWithout(name, "REV_", |name|);
  }

  /** A run of `n` hex digits at `i`, followed by the end or a non-digit,
      is the whole run. */
  lemma {:induction false} HexRunIsWhole(s: string, i: nat, n: nat)
    requires i + n <= |s|
    requires forall k :: i <= k < i + n ==> IsUpperHexDigit(s[k])
    requires i + n == |s| || !IsUpperHexDigit(s[i + n])
    ensures HexRunLength(s, i) == n
    decreases n
  {
    if n > 0 {
      HexRunIsWhole(s, i + 1, n - 1);
    }
  }

  /** Reading a standard device name gives an entry with exactly its ids
      and neither optional field. */
  lemma ParseStandardName(v: string, p: string, parseHex: string -> Option<nat>)
    requires |v| > 0 && |p| > 0
    requires forall k :: 0 <= k < |v| ==> IsUpperHexDigit(v[k])
    requires forall k :: 0 <= k < |p| ==> IsUpperHexDigit(p[k])
    requires parseHex(v).Some? && parseHex(p).Some?
    ensures Parse("VID_" + v + "&PID_" + p, parseHex)
         == Some(WhitelistItem(ToInt32(parseHex(v).value), ToInt32(parseHex(p).value), None, None))
  {
    var name := "VID_" + v + "&PID_" + p;
    ReadsVendor(name, v, p);
    ReadsProduct(name, v, p);
    ReadsNoOptional(name, v, p);
  }
}

=== FILE: wrappers.dfy ===
/** Failure-compatible result types shared by the whole model: `Option` for
    the C++ `std::optional` and nullable pointers, `Result` for functions
    that either return a value or throw / return an error code. */
module Wrappers {

  datatype Option<+T> = None | Some(value: T) {

    predicate IsFailure() {
      None?
    }

    function PropagateFailure<U>(): Option<U>
      requires None?
    {
      None
    }

    function Extract(): T
      requires Some?
    {
      value
    }
  }

  datatype Result<+R, +E> = Success(value: R) | Failure(error: E) {

    predicate IsFailure() {
      Failure?
    }

    function PropagateFailure<U>(): Result<U, E>
      requires Failure?
    {
      Failure(error)
    }

    function Extract(): R
      requires Success?
    {
      value
    }
  }
}
